=== FILE: README.md ===
# zhuobu-quickjs platformer core in Dafny

A model of the game core of a small 2D platformer that runs on QuickJS/WebGL.
It covers:

- the tile map with its collision types and spatial areas (`Map.js`);
- the per-pixel slope tables and the offset queries on them (`Slopes.js`, `SlopeOffsetI.js`);
- the axis-aligned boxes (both `AABB.js`) and the 25 contact flags of `PositionState.js`;
- the physics step of a moving object (`MovingObject.js`) and the back-and-forth of a moving platform (`MovingPlatform.js`);
- the character's state machine: Stand, Walk, Jump and GrabLedge, with the direction locks and the key edges (`Character.js`);
- the binary-tree packer that builds the texture atlas (`atlas.js`);
- the text layout of `MTSDFText.js`: buffers, line breaking and the summary;
- the dialog's choice selection, labels and buffer merging (`DialogRenderer.js`);
- the sprite animation counter and the index buffers (`SpriteRenderer.js`);
- in `engine.js`: the fixed-timestep drain, the program and uniform caches, the audio switch, the collision tally and the key-to-input mapping.

There is one Dafny module per source file, plus a few shared ones:

- `Wrappers`: `Option` and `Result`. A `Failure` stands for an error JavaScript throws: an explicit `throw new Error(msg)` carries its message, and an error the engine raises itself (reading a property of `undefined`, an invalid array length) carries its class name, "TypeError" or "RangeError". Two failures belong to the model alone and are listed under "## Left out";
- `Vec`: 2D vectors and the `Math` helpers the game code uses;
- `Constants` and `Enums`.

Numbers are `real` where the game code computes with floats. They are `int` where it indexes.
State is held in immutable datatypes, and every method of a class becomes a function from the old object to the new one.

## Model

| member | source | states |
|---|---|---|
| MathUtil.Sign | scripts/misc/math.js:6-8 | `sign` is 1 for every x >= 0, zero included, and -1 exactly when x < 0; it is never 0 |
| MathUtil.SignTimesMagnitude | scripts/misc/math.js:6-8 | `sign(x)` times the magnitude of x is x, and `sign` is odd everywhere except at 0, where `sign(-0) = sign(0) = 1` |
| MathUtil.Clamp | scripts/misc/math.js:17-19 | with lo <= hi the result lies in [lo, hi], equals v inside the range and the nearer bound outside; with inverted bounds `Math.max` makes it lo |
| MathUtil.ClampIdempotent | scripts/misc/math.js:17-19 | clamping a clamped value again changes nothing, for every pair of bounds |
| Aabb.NewBox | scripts/component/AABB.js:4-7 | a new box has centre and half-size zero |
| Aabb.Overlaps | scripts/component/AABB.js:13-17 | the boxes are reported disjoint exactly when the centre distance exceeds the summed half-sizes on some axis; with non-negative half-sizes that is "the closed extents meet on both axes" |
| Aabb.OverlapsSymmetric | scripts/component/AABB.js:13-17 | `a.overlaps(b)` equals `b.overlaps(a)` |
| Aabb.TouchingOverlaps | scripts/component/AABB.js:13-17 | boxes that only touch along an edge count as overlapping (the test uses `>`, not `>=`) |
| Aabb.SeparatedDoesNotOverlap | scripts/component/AABB.js:13-17 | a strict gap on either axis means no overlap |
| Aabb.OverlapsTranslationInvariant | scripts/component/AABB.js:13-17 | moving both boxes by the same vector does not change the answer |
| Aabb.NewScaledBox | scripts/object/AABB.js:13-17 | a new scaled box has scale (1, 1), centre zero and half-size zero |
| Aabb.HalfSize | scripts/object/AABB.js:4-9 | the getter multiplies the stored half-size by the scale componentwise, without an absolute value, so a negative scale gives a negative half-size; at unit scale it is the stored value |
| Aabb.SetHalfSize | scripts/object/AABB.js:10-12 | after the setter the getter returns the value given times the scale; scale and centre are unchanged |
| Aabb.ScaledOverlaps | scripts/object/AABB.js:23-27 | the scaled class answers exactly as the plain test does on the scaled half-sizes |
| Aabb.ScaledOverlapsSymmetric | scripts/object/AABB.js:23-27 | the scaled test is symmetric |
| Aabb.ScaledSelfOverlap | scripts/object/AABB.js:4-27 | a scaled box overlaps itself exactly when both scaled half-sizes are non-negative, so a mirrored box misses itself |
| Aabb.UnitScaleAgrees | scripts/object/AABB.js:23-27 | at unit scale the scaled class and the plain class give the same answer |
| SlopeOffset.NewSlopeOffsetI | scripts/object/SlopeOffsetI.js:15-24 | each of the eight fields is the floor of the argument of the same name |
| SlopeOffset.From | scripts/object/SlopeOffsetI.js:30-32 | `from` floors each of the eight fields of the other record into the field of the same name |
| SlopeOffset.FromIntegral | scripts/object/SlopeOffsetI.js:30-32 | `from` gives back an integral record unchanged |
| SlopeOffset.FromIdempotent | scripts/object/SlopeOffsetI.js:30-32 | flooring an already floored copy again changes nothing |
| PositionStates.NewPositionState | scripts/object/PositionState.js:4-34 | a new state has all 25 flags false and all four side tiles (-1, -1) |
| PositionStates.Reset | scripts/object/PositionState.js:35-65 | `reset` clears every flag and every side tile, the previous-frame flags included |
| PositionStates.AllClearUnique | scripts/object/PositionState.js:4-65 | a state with every flag false and every tile (-1, -1) is a single value: what the constructor and `reset` produce is determined |
| PositionStates.ResetIsFresh | scripts/object/PositionState.js:4-65 | `reset` gives exactly a freshly constructed state, whatever the state was before |
| PositionStates.ResetIdempotent | scripts/object/PositionState.js:35-65 | resetting twice is resetting once |
| MovingObjects.NewBody | scripts/object/MovingObject.js:11-31 | a new body has every vector zero, every flag false, a fresh box and time step 0 |
| MovingObjects.DisplayPosition | scripts/object/MovingObject.js:5-7 | the `position` getter rounds each coordinate to the integer in (x - 0.5, x + 0.5], halves rounding up as `Math.round` does, with z = 0 |
| MovingObjects.DisplayPositionIntegral | scripts/object/MovingObject.js:5-7 | an integral position is shown as it is |
| MovingObjects.UpdatePhysics | scripts/object/MovingObject.js:32-50 | the previous-frame flags take the current ones; the position advances by speed times deltaTime and is clamped at y = 0, which is exactly when `onGround` is set; the box centre is position plus offset; the old position aliases the new one |
| MovingObjects.StepsX | scripts/object/MovingObject.js:32-50 | n physics steps move the body by n * vx * dt horizontally |
| MovingObjects.StepsKeepSpeed | scripts/object/MovingObject.js:32-50 | the physics step never changes the speed or the time step, however many steps are taken |
| MovingObjects.StepsFollowHeight | scripts/object/MovingObject.js:40-46 | over n steps the height follows the clamped fall y -> max(y + dy, 0), and the body is grounded exactly when the last fall reaches 0 |
| MovingObjects.StepsY | scripts/object/MovingObject.js:40-46 | for a non-rising body, n steps land at max(y + n * dy, 0) and the body is grounded exactly when the unclamped fall reaches 0 |
| MovingObjects.HeightClosedForm | scripts/object/MovingObject.js:40-46 | starting on or above the ground and never rising, the clamped height after n steps is max(y + n * dy, 0) |
| MovingObjects.GroundIsStable | scripts/object/MovingObject.js:40-46 | a body at rest on the ground with no upward speed stays grounded at y = 0 |
| MovingPlatforms.NewPlatform | scripts/object/MovingPlatform.js:9-17 | a new platform has half-size (32, 8), no slope wall, moving speed 100, is kinematic and starts moving right at 100 |
| MovingPlatforms.Init | scripts/object/MovingPlatform.js:18-24 | `init` sets the same parameters and keeps the vertical speed, the position and the box centre |
| MovingPlatforms.InitIdempotent | scripts/object/MovingPlatform.js:18-24 | `init` twice is `init` once, and on a configured platform it changes nothing |
| MovingPlatforms.InitOfNew | scripts/object/MovingPlatform.js:9-24 | `init` on a new platform gives the same platform |
| MovingPlatforms.Patrol | scripts/object/MovingPlatform.js:26-33 | the first of the four rules that applies (right, bottom, left, top) sets one speed component to plus or minus the moving speed; when none applies the speed is unchanged |
| MovingPlatforms.PatrolTurnsClockwise | scripts/object/MovingPlatform.js:26-33 | touching one side only turns the platform clockwise: right wall down, floor left, left wall up, ceiling right |
| MovingPlatforms.PatrolIdleCases | scripts/object/MovingPlatform.js:26-33 | touching nothing, or all four sides, leaves the speed as it was |
| MovingPlatforms.PatrolFires | scripts/object/MovingPlatform.js:26-33 | some rule applies exactly when some side, but not all four, is touched |
| MovingPlatforms.CustomUpdate | scripts/object/MovingPlatform.js:25-36 | `customUpdate` applies the patrol rule to the tile flags, then exactly one physics step with the new speed: x advances by speed * deltaTime, y advances the same way but is clamped at the ground y = 0, and the platform is on the ground exactly when the step reaches y <= 0 |
| TileMap.TileXAtPoint | scripts/object/Map.js:184-186 | `getMapTileXAtPoint` gives the tile whose half-open span [16i - 8, 16i + 8), relative to the map origin, holds x |
| TileMap.TileYAtPoint | scripts/object/Map.js:176-178 | `getMapTileYAtPoint` gives the tile whose half-open span [16j - 8, 16j + 8), relative to the map origin, holds y |
| TileMap.TileAtPoint | scripts/object/Map.js:164-169 | `getMapTileAtPoint` is the two one-axis conversions together |
| TileMap.TilePosition | scripts/object/Map.js:194-196 | `getMapTilePosition` is the origin plus 16 times the tile index on each axis |
| TileMap.TileCoordUnique | scripts/object/Map.js:184-186 | the tile of a coordinate is unique: the tile spans do not overlap |
| TileMap.TileRoundTrip | scripts/object/Map.js:164-196 | the tile at a tile's own position is that tile |
| TileMap.TileAtPointNear | scripts/object/Map.js:164-196 | every point within half a tile of a tile's position, lower edges included, maps back to that tile |
| TileMap.IsObstacle | scripts/object/Map.js:204-209 | off the 80 x 50 map is an obstacle; on it, exactly the `Full` tiles are |
| TileMap.CollisionType | scripts/object/Map.js:216-221 | off the map reads as `Empty`; on it, the stored type of the tile at y * 80 + x |
| TileMap.ObstacleVersusCollisionType | scripts/object/Map.js:204-221 | on the map the tile is an obstacle exactly when its type is `Full`; off the map it is an obstacle whose type is `Empty` |
| Areas.AreaCounts | scripts/object/Map.js:25-30 | 5 x 4 areas of 16 x 16 tiles are the least that cover the 80 x 50 map (the `Math.ceil` counts) |
| Areas.KeyRoundTrip | scripts/object/Map.js:129 | the bucket index y * 5 + x of a valid area is one of the 20 buckets, and each bucket belongs to exactly one area |
| Areas.NewGrid | scripts/object/Map.js:32-38 | the constructor makes 20 empty buckets, and the grid invariant holds with every object in no area |
| Areas.AddObjectToArea | scripts/object/Map.js:128-135 | `addObjectToArea` appends the object to the area's bucket and appends the area, with the object's new slot, to the object's lists; nothing else changes |
| Areas.AddKeepsInv | scripts/object/Map.js:128-135 | adding an object to an area it does not list yet keeps the grid invariant: no area listed twice, slots that point back at their objects, and bucket entries that each list the area with the same slot |
| Areas.RemoveObjectFromArea | scripts/object/Map.js:142-158 | `removeObjectFromArea` moves the bucket's last object into the freed slot and pops the bucket, and repoints the moved object's slot for that area; other buckets and other objects' slots are unchanged |
| Areas.RemoveKeepsInv | scripts/object/Map.js:102-158 | removing a listed area, from the bucket and from the object's two lists, keeps the grid invariant |
| Areas.RemoveAtBuckets | scripts/object/Map.js:142-158 | the removal shrinks exactly the area's bucket by one; the freed slot now holds the bucket's former last object |
| Areas.AreaAtPoint | scripts/object/Map.js:66-78 | a point's area is the one whose 16 x 16 block of tiles holds the point's tile (the floored division of the tile index by 16) |
| Areas.CornerAreas | scripts/object/Map.js:66-81 | the corner areas of a box line up: the left corners share a column, the top corners share a row, and the bottom-right corner is made of the top-right column and the bottom-left row |
| Areas.OverlappingAreas | scripts/object/Map.js:82-95 | the areas pushed are exactly the distinct corner areas, without duplicates, one, two or four of them |
| Areas.LeaveStaleAreas | scripts/object/Map.js:102-114 | the first loop keeps the invariant and leaves the object listing exactly those of its areas that are among the overlapping ones; other objects' lists are unchanged |
| Areas.JoinNewAreas | scripts/object/Map.js:115-120 | the second loop keeps the invariant and leaves the object listing its old areas plus every overlapping area |
| Areas.UpdateAreas | scripts/object/Map.js:65-123 | `updateAreas` fails exactly when a corner area lies outside the 5 x 4 grid; otherwise the object lists exactly the areas its box overlaps, the scratch list is emptied, the invariant holds and other objects' lists are unchanged |
| Areas.HandlePair | scripts/object/Map.js:52-55 | an overlapping pair without earlier data gets one record on each side, the second with the overlap negated; otherwise nothing changes |
| Areas.HandlePairGrows | scripts/object/Map.js:52-55 | handling a pair only appends records: every object's earlier records stay a prefix of its new ones |
| Areas.HandlePairMirrored | scripts/object/Map.js:52-55 | handling a pair keeps the records mirrored: each record of a against b with overlap v has a record of b against a with overlap -v |
| Areas.CheckCollisions | scripts/object/Map.js:42-60 | `checkCollisions` handles exactly the pairs i < j of every bucket, in order. Records only grow and stay mirrored. When `hasCollisionDataFor` is a record lookup, every overlapping pair of a bucket ends with each object holding a record naming the other. Every record added is one of the two records of an overlapping bucket pair. Mirroring is of the overlap values at the time each record is pushed |
| Areas.HandleRow | scripts/object/Map.js:50-56 | the inner loop handles bucket[i] against bucket[i+1], bucket[i+2], … in order |
| Areas.HandleBucket | scripts/object/Map.js:48-57 | the middle loop handles the rows of one bucket in order; the last object starts no row |
| Areas.BucketsFoldIsFold | scripts/object/Map.js:45-59 | the three nested loops handle exactly the pair sequence AllPairs, one HandlePair after another |
| Areas.FoldCoversBuckets | scripts/object/Map.js:42-60 | with mirrored records and a lookup for `hasCollisionDataFor`, handling the bucket pairs leaves every overlapping pair i < j of a bucket with both objects naming each other |
| Areas.FoldFromBuckets | scripts/object/Map.js:42-60 | every record that handling the bucket pairs adds is one of the two records of an overlapping pair i < j of some bucket |
| Areas.AllPairsExact | scripts/object/Map.js:43-58 | a pair is visited exactly when it is (bucket[i], bucket[j]) for some bucket and i < j |
| Areas.FoldMirrored | scripts/object/Map.js:42-60 | handling any sequence of pairs keeps mirrored records mirrored, comparing the overlap values as they were when each record was pushed |
| Areas.FoldCovers | scripts/object/Map.js:42-60 | with mirrored records and a lookup for `hasCollisionDataFor`, every overlapping pair handled ends with both objects naming each other |
| Areas.FoldOnlyPairs | scripts/object/Map.js:42-60 | every record added while handling pairs is one of the two records of an overlapping pair among them |
| Slopes.Extend | scripts/object/Slopes.js:22-30 | `extend` occupies cell (x, y) exactly when y < slope[y]: the profile is read at the row, not the column |
| Slopes.ExtendColumnsIdentical | scripts/object/Slopes.js:22-30 | because of that, every column of an extended grid is the same |
| Slopes.Slope45GridIsFull | scripts/object/Slopes.js:8-30 | the 45-degree grid is completely occupied and is the very grid `full` produces |
| Slopes.SlopeMid1Grid | scripts/object/Slopes.js:11-30 | the mid-slope grid has rows 0 to 7 occupied and rows 8 to 15 free in every column |
| Slopes.Collides | scripts/object/Slopes.js:91-98 | `collides` returns from its first inner iteration, so it reads only the cell (posX, posY), and is false when w or h is negative or the start lies past the tile |
| Slopes.Run | scripts/object/Slopes.js:108-165 | a run of cells of one occupancy is at most as long as allowed, is non-empty only when the first cell has that occupancy, and is non-empty when it does |
| Slopes.Sweep | scripts/object/Slopes.js:108-165 | the offsets of a sub-rectangle: freeUp and freeRight are non-zero exactly when the start cell is occupied, freeDown and freeLeft are never positive, the colliding distances mirror the free ones when the start cell is occupied and are bounded gaps otherwise |
| Slopes.SweepUp | scripts/object/Slopes.js:111-116 | the first loop counts the occupied cells from the start upwards to the tile top |
| Slopes.SweepDown | scripts/object/Slopes.js:117-124 | the second loop counts the occupied cells downwards, negated, lowered by h + 1 when the run reaches row 0 |
| Slopes.SweepRight | scripts/object/Slopes.js:125-130 | the third loop counts the occupied cells rightwards, limited by 16 - posY because its guard tests posY |
| Slopes.SweepLeft | scripts/object/Slopes.js:131-138 | the fourth loop counts the occupied cells leftwards, negated, lowered by w + 1 when the run reaches column 0 |
| Slopes.GapsVertical | scripts/object/Slopes.js:139-146 | with a free start cell, collidingTop is the free gap above minus one, within 16 - posY - h rows, and collidingBottom is one minus the free gap below |
| Slopes.GapsHorizontal | scripts/object/Slopes.js:151-158 | with a free start cell, collidingRight is the free gap to the right minus one, within 16 - posX - w columns, and collidingLeft is one minus the free gap to the left |
| Slopes.GetOffset5p | scripts/object/Slopes.js:108-165 | `getOffset5p` returns exactly the offsets the run-length description gives |
| Slopes.SweepFullGrid | scripts/object/Slopes.js:108-165 | on a fully occupied grid every run reaches the tile border, so the offsets have a closed form |
| Slopes.CacheSlopeOffsets | scripts/object/Slopes.js:210-227 | `cacheSlopeOffsets` is a 16 x 16 x 16 x 16 table whose [x][y][w][h] entry is `getOffset5p` of that sub-rectangle |
| Slopes.Init | scripts/object/Slopes.js:31-81 | `init` gives every named shape its profile and grid, every orientation the base shape's data, an offset table to the 45-degree family only, and nothing to unnamed shapes |
| Slopes.Slope45Table | scripts/object/Slopes.js:47-62 | every entry of the 45-degree table is the full-grid closed form |
| Slopes.QueryOf | scripts/object/Slopes.js:178-186 | the query lies inside the tile; a box start inside the tile is floored, one left of or below the tile is clamped to 0 |
| Slopes.Overhang | scripts/object/Slopes.js:188-202 | only the vertical distances change: a positive freeUp grows by twice the overhang below, because the bottom correction runs twice; a negative freeDown shrinks by the overhang above; the colliding distances follow |
| Slopes.Lookup6p | scripts/object/Slopes.js:187-203 | the lookup succeeds exactly for the 45-degree family and then gives the corrected, floored sweep of the query; any other shape has no table, and indexing it fails with a "TypeError" |
| Slopes.GetOffset6p | scripts/object/Slopes.js:175-204 | `getOffset6p` succeeds exactly for tiles with an offset table, otherwise indexing the missing table throws a "TypeError"; the result is the corrected, floored table entry of the clamped query |
| Slopes.GetOffset6pInsideSlope45 | scripts/object/Slopes.js:175-204 | for a box that does not stick out of a 45-degree tile, the result is the full-grid closed form of the box's cell-aligned position and size |
| Characters.Pressed | scripts/object/Character.js:264-266 | a key counts as pressed only when it is held now and was not held before |
| Characters.Released | scripts/object/Character.js:248-250 | a released key is not held now |
| Characters.PressedReleasedExclusive | scripts/object/Character.js:248-266 | a key is never pressed and released at once, and it is one of the two exactly when it changed between the frames |
| Characters.UpdatePrevInputs | scripts/object/Character.js:236-241 | the previous inputs become an exact copy of the current ones, so right afterwards no key is pressed or released |
| Characters.ScaleKeys | scripts/object/Character.js:58-62 | ScaleUp sets the scale to (2, 2), else ScaleDown to (0.5, 0.5), else the scale is kept; nothing else changes |
| Characters.DropThrough | scripts/object/Character.js:79-82 | GoDown on a one-way platform lowers the character by the platform threshold; otherwise nothing changes |
| Characters.StandStep | scripts/object/Character.js:64-83 | Stand zeroes the speed; off the ground it falls into Jump; exactly one of GoRight/GoLeft starts a walk; otherwise a held Jump jumps with the jump speed; it never grabs a ledge and keeps the locks |
| Characters.Towards | scripts/object/Character.js:88-100 | the speed towards a held side is the walk speed with that sign, or 0 while pushing the wall on that side |
| Characters.WalkStep | scripts/object/Character.js:84-115 | with both or neither direction held the character stops; otherwise it walks towards and faces the held side; a held Jump then jumps even after stopping, and leaving the ground falls |
| Characters.JumpVertical | scripts/object/Character.js:117-131 | within the first frames of a jump, with Jump held and nothing above, the speed restarts at the jump speed. Gravity is then added for one frame. A rising character with Jump released is capped at the minimum jump speed; otherwise the fall is capped at the falling limit. The frame counter counts on, or jumps past the threshold when blocked early |
| Characters.JumpReleasedNeverRises | scripts/object/Character.js:127-131 | with Jump released, a step never makes the vertical speed exceed both the old speed and the falling cap |
| Characters.JumpHeldKeepsLaunchSpeed | scripts/object/Character.js:117-131 | Jump held in an early, unblocked frame gives exactly the jump speed plus one frame of gravity |
| Characters.Unlock | scripts/object/Character.js:147-154 | a lock counts down by one while positive and stays otherwise |
| Characters.LockedInputs | scripts/object/Character.js:147-154 | each locked direction is dropped from the held keys, and no other key changes |
| Characters.FacingAway | scripts/object/Character.js:132-146 | in Jump the character faces away from the one held direction; with both or neither held the scale is kept |
| Characters.JumpAir | scripts/object/Character.js:116-154 | the airborne part of Jump combines the vertical speed and frame counter of `JumpVertical`, the Walk-like horizontal speed, the facing, and the lock countdown with its key removal, and touches nothing else of the body |
| Characters.JumpStep | scripts/object/Character.js:116-207 | the frame counter always follows `JumpVertical`; staying in the air gives exactly the airborne part. On landing the character stands with zero speed when the unlocked directions cancel, otherwise walks with vertical speed 0; in the air it grabs exactly when it seeks a ledge and the search found one, snapping to the ledge height with zero speed |
| Characters.GrabLedgeStep | scripts/object/Character.js:208-223 | GoDown, or a key pointing away from the ledge, lets go into Jump with a 3-frame lock on the ledge side; otherwise a held Jump jumps off; otherwise the character keeps hanging, unchanged |
| Characters.CharacterUpdate | scripts/object/Character.js:57-234 | one frame only makes the allowed state transitions, grabs a ledge only from Jump with a ledge found, never adds held keys, ends with a physics step (y >= 0) and the input copy, and resets the jump-frame counter on leaving the ground |
| Characters.LocksStayInRange | scripts/object/Character.js:147-217 | the two direction locks stay within [0, 3] from frame to frame |
| Characters.FacingWalkVersusJump | scripts/object/Character.js:84-146 | holding one direction makes Walk face it and Jump face away from it |
| Characters.CharacterInit | scripts/object/Character.js:46-56 | `characterInit` rounds the position, gives the box the character's half-size, writes the offset (0, half-size y), takes over both input sets, sets the jump and walk speeds to their constants and keeps the state |
| Atlas.SplitNode | scripts/object/atlas.js:34-53 | splitting marks the node used, keeps its rectangle, and leaves as free space exactly the strip to the right of the placed image (image height) and the strip below it (full width), each past the padding |
| Atlas.SplitPieces | scripts/object/atlas.js:34-53 | when the image fits, the placed image and both free strips lie inside the node and are pairwise disjoint |
| Atlas.FindNode | scripts/object/atlas.js:11-26 | a returned rectangle is large enough for the requested size |
| Atlas.FindNodeFirstFit | scripts/object/atlas.js:11-26 | the depth-first search returns the first free rectangle, in left-to-right leaf order, that fits, and splits exactly that leaf; when none fits the tree is unchanged |
| Atlas.FirstFitAppend | scripts/object/atlas.js:15 | searching the first subtree before the second is the first fit over the concatenated leaf lists |
| Atlas.FindKeepsPacked | scripts/object/atlas.js:11-53 | placing an image into a packed tree keeps every placed image and every free rectangle inside the atlas and all of them pairwise disjoint |
| Atlas.Insert | scripts/object/atlas.js:199 | inserting into a list ordered by decreasing width keeps it ordered and adds exactly that image |
| Atlas.SortByWidth | scripts/object/atlas.js:199 | the images are put in order of decreasing width, and the result is a permutation of the input |
| Atlas.FlipPreserves | scripts/object/atlas.js:225-232 | turning a region upside down in the atlas keeps disjointness and containment and undoes itself |
| Atlas.PackFoldFullAt | scripts/object/atlas.js:204-245 | the packing fold fails exactly when some image finds no room on the tree left by the images before it |
| Atlas.PlaceOne | scripts/object/atlas.js:204-243 | an image is placed upright when it fits that way, otherwise rotated by a quarter turn; it fails only when neither orientation fits, and the entry records the flipped region with width and height swapped for a rotated image |
| Atlas.NamesOfPermutation | scripts/object/atlas.js:192-199 | sorting does not change the set of image names |
| Atlas.PackImages | scripts/object/atlas.js:204-245 | packing succeeds exactly when the fold of `PlaceOne` over the images succeeds, and then returns the fold's entries. On failure some image found no room on the tree the earlier images left, and the error is "Atlas is full". On success every image name has an entry recording its size (swapped when rotated), every entry lies inside the 128 x 128 atlas, and no two entries overlap |
| Atlas.BuildAtlas | scripts/object/atlas.js:146-248 | building the atlas succeeds exactly when the fold over the images sorted widest first succeeds, with its entries; it gives the same guarantees: one entry per image name, inside the atlas, pairwise disjoint, or the "Atlas is full" error |
| Text.CreateBuffers | scripts/object/MTSDFText.js:39-76 | the buffers have 12, 8, 4 and 6 entries per character; the four vertex ids of character i are all i, and its six indices are the two triangles of quad i, each index naming one of the 4n vertices |
| Text.KernPairOffset | scripts/object/MTSDFText.js:246-260 | the offset is 0 exactly when no font variant has kerning data; otherwise the lookup throws "Not implemented" before reading any pair |
| Text.GlyphKey | scripts/object/MTSDFText.js:122 | a character the font has is drawn as itself, any other as the space glyph, and with no space glyph either there is no glyph at all |
| Text.NewLine | scripts/object/MTSDFText.js:88-98 | a new empty line is appended and the current word restarts at the cursor with width 0 |
| Text.DropLast | scripts/object/MTSDFText.js:166-167 | `splice(-n, n)` removes the last n glyphs, all of them when n is at least the count, and none when n is not positive |
| Text.InitialState | scripts/object/MTSDFText.js:80-86 | layout starts with one empty line, cursor 0 and count 0 |
| Text.Place | scripts/object/MTSDFText.js:125-177 | a glyph is pushed at the line's width (plus kerning); it stays when the line fits, and otherwise with word breaking it is taken back onto a new line, without word breaking the current word is moved to a new line and the cursor returns to the word's start |
| Text.Step | scripts/object/MTSDFText.js:102-178 | one loop iteration: a newline starts a new line and advances; a character without glyph, or a kerning lookup in a font with kerning data, throws; otherwise the character is placed and the loop guard resets, or the line is broken as in `Place` |
| Text.StepKeepsBreakInv | scripts/object/MTSDFText.js:102-178 | with word breaking and no kerning data every iteration succeeds, keeps the laid-out glyphs equal to the text read so far, keeps every line of two or more glyphs within the width, and makes progress |
| Text.RunPlacesAll | scripts/object/MTSDFText.js:102-178 | from any state meeting that invariant the loop reads the whole text when no run of newlines reaches the guard |
| Text.WordBreakLayout | scripts/object/MTSDFText.js:78-184 | with word breaking and no kerning data, layout places every character that is not a newline, in order, each as its glyph, and no line of two or more glyphs is wider than the limit |
| Text.NewlineRunStopsLayout | scripts/object/MTSDFText.js:100-120 | 100 newlines in a row trip the loop guard: the layout stops there and a character after them is never placed |
| Text.Finish | scripts/object/MTSDFText.js:181 | the end of layout drops the last line exactly when its width is 0 and removes nothing else; the glyphs of the remaining lines are a prefix of the glyphs before, all of them when the dropped line held none |
| Text.Layout | scripts/object/MTSDFText.js:78-184 | `layout` fails only with the loop's throws ("TypeError" for a missing glyph, "Not implemented" from the kerning lookup) or when the model's iteration budget runs out |
| Text.WordBreakLayoutLines | scripts/object/MTSDFText.js:78-184 | with word breaking and no kerning data `layout` succeeds, every returned line of two or more glyphs fits the width, and the returned glyphs read in order are a prefix of the rendered text |
| Text.Summarize | scripts/object/MTSDFText.js:235-238 | the summary records the number of lines, a height of that many lines of size times line height, and the widest line's width |
| Text.MaxWidth | scripts/object/MTSDFText.js:238 | the reported width is the largest line width, attained by some line; with no lines there is none (`Math.max()` of nothing) |
| Dialog.AppendBuffer | scripts/component/DialogRenderer.js:13-18 | the result is the first buffer followed by the second, element for element |
| Dialog.SelectionAction | scripts/component/DialogRenderer.js:116-133 | a fresh press of down moves to the next choice; otherwise a fresh press of up moves back; otherwise a fresh press of jump confirms; a key held since the previous frame does nothing |
| Dialog.NextSelection | scripts/component/DialogRenderer.js:120-124 | moving down from a valid selection stays among the choices and wraps past the last one to 0 |
| Dialog.PrevSelection | scripts/component/DialogRenderer.js:125-129 | moving up goes to the previous choice, and from the first choice or from "none" (-1) to the last one |
| Dialog.NextPrevInverse | scripts/component/DialogRenderer.js:116-129 | on a valid selection, moving down then up, or up then down, returns to the same choice |
| Dialog.NextTimesCycles | scripts/component/DialogRenderer.js:120-124 | pressing down k times from a valid selection lands on (selection + k) mod the number of choices |
| Dialog.Select | scripts/component/DialogRenderer.js:134-145 | selecting fails exactly when there is no story ("Story not initialized") or a valid selection's `updateText` throws, with that error; with a valid selection and a successful text update that choice is taken and the selection becomes -1; otherwise nothing changes |
| Dialog.UpdateSelection | scripts/component/DialogRenderer.js:116-145 | a frame without a fresh key press changes nothing; it fails exactly when jump is freshly pressed, neither down nor up is, and there is no story or the text update of a valid selection throws; a choice is taken exactly when that confirm meets a story, a valid selection and a successful text update; a valid selection stays valid |
| Dialog.NatToStringRoundTrip | scripts/component/DialogRenderer.js:160 | the decimal digits written for a choice number read back as that number |
| Dialog.LabelRoundTrip | scripts/component/DialogRenderer.js:160 | the label "n. text" of a choice can be split back into its number and its text |
| Dialog.UpdateStory | scripts/component/DialogRenderer.js:146-163 | the messages are the story's paragraphs (an empty one for a missing paragraph), followed by "Choices:" when there are choices; the i-th choice is labelled with i + 1 and its text, and starts with offset and count 0 |
| Dialog.MergeSizes | scripts/component/DialogRenderer.js:195-208 | the merged buffers are as long as the main text's plus all the choices' |
| Dialog.MergeContents | scripts/component/DialogRenderer.js:195-208 | the main text's indices stay in front and each choice's positions and indices sit at its offset, the indices shifted by the number of vertices before it |
| Dialog.MergeChoices | scripts/component/DialogRenderer.js:190-208 | the merging loop gives each choice the index range that holds exactly its shifted indices, and the merged buffers hold the main text first and then every choice in order |
| Sprites.NewSprite | scripts/component/SpriteRenderer.js:9-17 | a new renderer starts at frame offset 0 of 1, with no calls counted, 6 indices to draw and no GL objects |
| Sprites.NextOffset | scripts/component/SpriteRenderer.js:271 | the next frame offset stays within the strip; with zero frames, or an offset that is already NaN, it is NaN |
| Sprites.Render | scripts/component/SpriteRenderer.js:249-275 | without its VAO, VBO or EBO `render` throws the matching error, in that order, and then "Program sprite not found" when the program cache has no "sprite"; otherwise every tenth call, the first included, moves to the next frame, the call counter restarts, and the draw starts at six indices per frame offset |
| Sprites.RenderKeepsCounterInRange | scripts/component/SpriteRenderer.js:269-274 | the call counter always stays between 1 and 10 after a render |
| Sprites.FrameAdvances | scripts/component/SpriteRenderer.js:269-274 | after n renders from a fresh strip the offset is ceil(n / 10) modulo the frame count and the counter is (n - 1) mod 10 + 1 |
| Sprites.FrameCount | scripts/component/SpriteRenderer.js:125 | the frame count is the number of whole character widths that fit in the strip |
| Sprites.FrameIndices | scripts/component/SpriteRenderer.js:138-158 | frame i gets the two triangles (0, 1, 3) and (1, 2, 3) of quad i, every index naming one of the strip's vertices |
| Sprites.InitCharacter | scripts/component/SpriteRenderer.js:115-171 | without an atlas it throws "Atlas not initialized"; a missing character entry fails, and so does a negative frame count; otherwise the strip has one quad of 32 floats and six indices per frame |
| Sprites.AfterInitCharacter | scripts/component/SpriteRenderer.js:115-171 | after `initCharacter` the renderer has its GL objects, the strip's frame count, and starts again at frame 0 |
| Sprites.MapIndices | scripts/component/SpriteRenderer.js:209-235 | tile (j, i) gets the triangles (0, 1, 2) and (0, 2, 3) of quad i * 80 + j when its collision type is not `Empty`, and six zeros otherwise |
| Sprites.InitMap | scripts/component/SpriteRenderer.js:176-248 | without an atlas it throws "Atlas not initialized"; it succeeds exactly when the block and one-way entries exist, and then draws 6 indices for every tile of the map |
| Engine.Drain | scripts/engine.js:375-379 | the inner loop runs once per whole step in a non-negative accumulator and leaves its fraction, in [0, 1); a negative accumulator runs nothing; in every case no time is lost |
| Engine.FramesKeepTime | scripts/engine.js:364-379 | over any run of frames with non-negative deltas the total number of fixed updates is the whole part of the summed time and the accumulator holds the fraction |
| Engine.GetProgram | scripts/engine.js:70-75 | a registered program is returned; any other name throws "Program <name> not found" |
| Engine.AddProgram | scripts/engine.js:47-50 | registering adds the name and leaves every other registered program as it was |
| Engine.AddThenGet | scripts/engine.js:47-75 | a program just registered is found under its name, and the lookup of every other name is unchanged |
| Engine.GetUniformLocationCached | scripts/engine.js:57-65 | a cached location is returned as is; on a miss the location GL gives is stored under "program-name" and nothing is returned |
| Engine.SecondRequestHits | scripts/engine.js:57-65 | the first request for a uniform returns nothing and the second returns the location stored by the first |
| Engine.UniformKeysCollide | scripts/engine.js:59 | the cache key does not separate its parts, so two different program/uniform pairs can share an entry |
| Engine.AudioToggle | scripts/engine.js:171-183 | while on, a held DisableAudio stops the track and turns audio off; while off, a held EnableAudio plays it and turns audio on; nothing else changes the state |
| Engine.AudioEffectMatchesState | scripts/engine.js:171-183 | the track is stopped exactly when audio goes off and played exactly when it comes on |
| Engine.BothKeysFlip | scripts/engine.js:171-183 | holding both audio keys flips the switch on every fixed update |
| Engine.FindKind | scripts/engine.js:214-216 | the lookup finds the line of the type, or reports that no line has it |
| Engine.Bump | scripts/engine.js:213-217 | counting one more collision adds one to the total: the line of its type gains one, or a new line with count 1 is appended; no other line changes |
| Engine.BumpCounts | scripts/engine.js:212-218 | counting one collision keeps the tally exact: one line per type met, no type twice, each with the number of collisions with that type, and the counts add up to the number of collisions |
| Engine.CollectCollisions | scripts/engine.js:208-225 | the tally has one line per colliding type, no type twice, each with that type's exact count, and the dialog is shown exactly when there is a collision |
| Engine.TallyLines | scripts/engine.js:224 | the message has one line per tally entry, in order, reading the type's name, ": " and the decimal count |
| Engine.Update | scripts/engine.js:307-359 | after `update` each input is held exactly when its key is down |
| Engine.UpdateForgets | scripts/engine.js:307-359 | the previous inputs leave no trace: `update` depends on the keys alone |

## Left out

- Rendering and I/O: every WebGL, audio, image and file call is left out. This covers vertex positions, texture coordinates, shaders, `drawElements`, `playAudio` and image loading; the model keeps only the indices, counts and error paths that decide what gets drawn.
- Floating point: `real` stands for JavaScript's doubles, so rounding, `Infinity` and `NaN` are not modelled. The exceptions are a zero frame count in the sprite renderer (`NaN` offset, modelled as `None`) and `Math.max()` of no lines (`None`).
- Integer width: `Uint32Array` wrap-around of shifted dialog indices is not modelled, because the buffers stay far below 2^32 entries.
- Dialog.Select: the outcome of `updateText` is a parameter, `None` or the error it throws. When it throws, the JavaScript has already advanced the story and rebuilt the messages and choices (lines 140-141); the model's `Failure` carries no state and leaves that partial update out.
- Dialog.MergeChoices: the shift of each choice's indices is computed on a copy. `DialogRenderer.js` adds the vertex offset to the choice's index buffer in place (line 204). That buffer belongs to the `MTSDFText` cached under the choice's text, size, alignment and width (lines 31-36). When the same choice key recurs, in a later `updateText` or twice on one page, the cached indices are shifted once more on top of the earlier shift. They then point past the merged vertices. The model shifts fresh indices every time and does not model that cumulative shift.
- Dialog.AppendBuffer: works on elements instead of raw bytes. `DialogRenderer.js` copies whole typed arrays of one element type, so the two readings agree.
- Text: characters are UTF-16 code units taken one at a time as `char`. The font is reduced to its advance table and the lengths of its kerning lists.
- Text.Run: the layout loop runs on an iteration budget (`Budget`) and fails with "iteration budget exhausted" when the budget runs out. That failure belongs to the model alone; `MTSDFText.js` has no such error. The lemmas show that the budget covers every text whose newline runs stay below the loop guard.
- Text.WordBreakLayout: proved only for word breaking with a font that has no kerning data. The kerning lookup throws "Not implemented" whenever there is data. Without word breaking, a line can be laid out again from the word's start, and no all-inputs result is proved for that mode.
- Characters.CharacterUpdate: the ledge search of the Jump state (`Character.js` lines 170-206) walks the tile map cell by cell. Its outcome is an `Option` parameter, and `SeeksLedge` states when it is consulted.
- Characters.CharacterUpdate: the animator calls (`play`, `setSpeed`) and the debug drawing are left out.
- Characters.LockedInputs: returns a new set. `Character.js` deletes the locked directions from the engine's shared `inputs` set in place (lines 149 and 153), so every later reader of that set, such as the dialog's `updateSelection` (`engine.js` line 184), sees them removed until the set is refilled. The model does not follow that sharing.
- Characters.CharacterInit: the constructor (`Character.js` lines 11-37) is not modelled. It only wires up sub-objects; `characterInit` sets the fields the model uses.
- Characters.CharacterInit: the model starts with a defined `scale`. In `Character.js` neither the constructor nor `characterInit` sets `scale`; only a ScaleUp or ScaleDown key press does (lines 58-61). The `mScale` set at `MovingObject.js` line 19 is a different field. So until a scale key is pressed, Walk and Jump with exactly one direction held throw a `TypeError` reading `this.scale[0]` (lines 94, 100, 139 and 145). The model leaves out that error path.
- MovingPlatforms: the platform's `mPS` position state is read in `MovingPlatform.js` but assigned in none of the modelled files, so it is modelled as a field of the platform.
- Areas.UpdateAreas: an area outside the 5 x 4 grid gives `Failure("area outside the grid")`, a failure of the model alone. `Map.js` would index a missing bucket, or alias another bucket when the key still falls in 0..19. Positions inside the map never produce such areas.
- Areas: of `CollisionData`, only `other` and `overlap` are kept, as values. `CollisionData.js` stores the overlap vector by reference, so the first-side records of one `checkCollisions` call share `out.overlap`; the mirroring results compare the overlap values at the time each record is pushed. Speeds and positions are left out.
- Areas.CheckCollisions: `overlapsSigned` and `hasCollisionDataFor` are methods outside the modelled files, so they are function parameters.
- TileMap: the random level generation (`Math.random`) is left out, and the tile grid is an input.
- Enums: `enums.js` lacks `TileCollisionType`, `ObjectType` and several `KeyInput` members that the other files use. These are modelled as abstract datatypes with exactly the members referenced. `initMap`'s `if (tile)` is read as "not `Empty`".
- MovingObjects: `updatePhysicsP2` and `tickPosition` are defined outside the modelled files.
- Engine.FramesKeepTime: `getTime` and the frame rate are inputs. Each frame's delta, in fixed steps, is a non-negative real, since the clock does not run backwards.
- Engine.Update: key codes are abstract `Key` values. The two key tables, GLFW and browser, are left out.
- Engine.CollectCollisions: the order of the tally lines is not stated. `Object.keys` keeps insertion order for non-numeric keys, and the type names are not numbers, so the lines come in order of first collision.
- Dialog.UpdateStory: the ink story runtime is an input page of paragraphs and choices.
- Atlas.SortByWidth: `Array.prototype.sort` is stable, but stability is not stated; the model only promises a permutation ordered by decreasing width.
- Atlas.PlaceOne: resizing a rotated node (`n.w`, `n.h`) changes no later search, because the node is already used. The model leaves the node as split.
- Engine and Sprites: the FPS counter, `requestAnimationFrame` and window polling are left out.

=== FILE: aabb.dfy ===
/** The two axis-aligned bounding boxes: `scripts/component/AABB.js` (plain
    half-size, used by moving objects) and `scripts/object/AABB.js` (half-size
    scaled componentwise by `scale`). */
module Aabb {
  import opened Vec

  datatype Box = Box(center: Vec2, halfSize: Vec2)

  /** The constructor: centre and half-size both zero. */
  function NewBox(): (b: Box)
    ensures b.center == Zero && b.halfSize == Zero
  {
    Box(Zero, Zero)
  }

  /** The closed intervals [c1 - h1, c1 + h1] and [c2 - h2, c2 + h2] meet. */
  predicate IntervalsMeet(c1: real, h1: real, c2: real, h2: real) {
    c1 - h1 <= c2 + h2 && c2 - h2 <= c1 + h1
  }

  /** The overlap test shared by both classes: the boxes are apart only when the
      centre distance exceeds the sum of the half-sizes on some axis. */
  predicate Apart(c1: Vec2, h1: Vec2, c2: Vec2, h2: Vec2) {
    Abs(c1.x - c2.x) > h1.x + h2.x || Abs(c1.y - c2.y) > h1.y + h2.y
  }

  /** `overlaps(other)`. With non-negative half-sizes it holds exactly when the
      closed extents meet on both axes, so touching boxes overlap. */
  function Overlaps(a: Box, b: Box): (r: bool)
    ensures r <==> !Apart(a.center, a.halfSize, b.center, b.halfSize)
    ensures a.halfSize.x + b.halfSize.x >= 0.0 && a.halfSize.y + b.halfSize.y >= 0.0 ==>
              (r <==> (IntervalsMeet(a.center.x, a.halfSize.x, b.center.x, b.halfSize.x)
                       && IntervalsMeet(a.center.y, a.halfSize.y, b.center.y, b.halfSize.y)))
  {
    if Abs(a.center.x - b.center.x) > a.halfSize.x + b.halfSize.x then false
    else if Abs(a.center.y - b.center.y) > a.halfSize.y + b.halfSize.y then false
    else true
  }

  lemma OverlapsSymmetric(a: Box, b: Box)
    ensures Overlaps(a, b) == Overlaps(b, a)
  {
  }

  /** Boxes that touch along an edge, with the other axis overlapping, overlap. */
  lemma TouchingOverlaps(a: Box, b: Box)
    requires a.halfSize.x >= 0.0 && a.halfSize.y >= 0.0 && b.halfSize.x >= 0.0 && b.halfSize.y >= 0.0
    requires b.center.x - a.center.x == a.halfSize.x + b.halfSize.x
    requires Abs(a.center.y - b.center.y) <= a.halfSize.y + b.halfSize.y
    ensures Overlaps(a, b)
  {
  }

  /** A gap on either axis means no overlap. */
  lemma SeparatedDoesNotOverlap(a: Box, b: Box)
    requires a.center.x + a.halfSize.x < b.center.x - b.halfSize.x
          || a.center.y + a.halfSize.y < b.center.y - b.halfSize.y
    ensures !Overlaps(a, b)
  {
  }

  function Translate(b: Box, t: Vec2): Box { b.(center := Add(b.center, t)) }

  /** Overlap depends only on the relative position of the centres and the
      half-sizes: moving both boxes by the same vector changes nothing. */
  lemma OverlapsTranslationInvariant(a: Box, b: Box, t: Vec2)
    ensures Overlaps(Translate(a, t), Translate(b, t)) == Overlaps(a, b)
  {
  }

  /* ---------- the scaled box of `scripts/object/AABB.js` ---------- */

  datatype ScaledBox = ScaledBox(scale: Vec2, center: Vec2, storedHalfSize: Vec2)

  /** The constructor: scale (1, 1), centre and stored half-size zero. */
  function NewScaledBox(): (b: ScaledBox)
    ensures b.scale == Vec2(1.0, 1.0) && b.center == Zero && HalfSize(b) == Zero
  {
    ScaledBox(Vec2(1.0, 1.0), Zero, Zero)
  }

  /** The `halfSize` getter: the stored half-size times the scale, componentwise
      and signed (no absolute value is taken). */
  function HalfSize(b: ScaledBox): (h: Vec2)
    ensures b.scale.x < 0.0 && b.storedHalfSize.x > 0.0 ==> h.x < 0.0
    ensures b.scale.y < 0.0 && b.storedHalfSize.y > 0.0 ==> h.y < 0.0
    ensures b.scale == Vec2(1.0, 1.0) ==> h == b.storedHalfSize
  {
    Mul(b.storedHalfSize, b.scale)
  }

  /** The `halfSize` setter: stores a copy of v; the getter then reads v scaled. */
  function SetHalfSize(b: ScaledBox, v: Vec2): (r: ScaledBox)
    ensures HalfSize(r) == Vec2(v.x * b.scale.x, v.y * b.scale.y)
    ensures r.scale == b.scale && r.center == b.center
  {
    b.(storedHalfSize := Vec2(v.x, v.y))
  }

  /** `overlaps(other)` on the scaled half-sizes. */
  function ScaledOverlaps(a: ScaledBox, b: ScaledBox): (r: bool)
    ensures r <==> Overlaps(Box(a.center, HalfSize(a)), Box(b.center, HalfSize(b)))
  {
    if Abs(a.center.x - b.center.x) > HalfSize(a).x + HalfSize(b).x then false
    else if Abs(a.center.y - b.center.y) > HalfSize(a).y + HalfSize(b).y then false
    else true
  }

  lemma ScaledOverlapsSymmetric(a: ScaledBox, b: ScaledBox)
    ensures ScaledOverlaps(a, b) == ScaledOverlaps(b, a)
  {
    OverlapsSymmetric(Box(a.center, HalfSize(a)), Box(b.center, HalfSize(b)));
  }

  /** A box overlaps itself exactly when its scaled half-size is non-negative on
      both axes: a negative scale makes a box miss itself. */
  lemma ScaledSelfOverlap(a: ScaledBox)
    ensures ScaledOverlaps(a, a) <==> HalfSize(a).x >= 0.0 && HalfSize(a).y >= 0.0
  {
  }

  /** With the unit scale both classes agree. */
  lemma UnitScaleAgrees(a: ScaledBox, b: ScaledBox)
    requires a.scale == Vec2(1.0, 1.0) && b.scale == Vec2(1.0, 1.0)
    ensures ScaledOverlaps(a, b) == Overlaps(Box(a.center, a.storedHalfSize), Box(b.center, b.storedHalfSize))
  {
  }
}

=== FILE: areas.dfy ===
/** The spatial area grid of `scripts/object/Map.js`: the map is cut into 16 x 16
    tile areas, each holding a bucket of the objects that overlap it; every object
    records which areas it is in (`mAreas`) and its slot in each of those buckets
    (`mIdsInAreas`). Objects are named by their index in the object lists. */
module Areas {
  import opened Wrappers
  import opened Vec
  import opened TileMap

  /** `mGridAreaWidth`/`mGridAreaHeight`, in tiles. */
  const GridAreaSize: nat := 16
  /** `mHorizontalAreasCount = ceil(80 / 16)` and `mVerticalAreasCount = ceil(50 / 16)`. */
  const HCount: nat := 5
  const VCount: nat := 4

  lemma AreaCounts()
    ensures (HCount - 1) * GridAreaSize < MapWidth <= HCount * GridAreaSize
    ensures (VCount - 1) * GridAreaSize < MapHeight <= VCount * GridAreaSize
  {
  }

  type ObjId = nat

  datatype Area = Area(x: int, y: int)

  predicate ValidArea(a: Area) { 0 <= a.x < HCount && 0 <= a.y < VCount }

  /** The bucket of an area: `mObjectsInArea[y * mHorizontalAreasCount + x]`. */
  function Key(a: Area): int { a.y * HCount + a.x }

  function AreaOfKey(b: int): Area { Area(b % HCount, b / HCount) }

  lemma KeyRoundTrip(a: Area, b: int)
    ensures ValidArea(a) ==> 0 <= Key(a) < HCount * VCount && AreaOfKey(Key(a)) == a
    ensures 0 <= b < HCount * VCount ==> ValidArea(AreaOfKey(b)) && Key(AreaOfKey(b)) == b
  {
  }

  predicate NoDup<T(==)>(s: seq<T>) {
    forall i, j | 0 <= i < j < |s| :: s[i] != s[j]
  }

  /** The position of the first occurrence of a in s, or -1. */
  function IndexOf(s: seq<Area>, a: Area): (i: int)
    ensures -1 <= i < |s|
    ensures i >= 0 ==> s[i] == a && a !in s[..i]
    ensures i == -1 <==> a !in s
  {
    if |s| == 0 then -1
    else if s[0] == a then 0
    else
      var j := IndexOf(s[1..], a);
      assert s[1..][..j+1] == s[1..j+2] && s[..j+2] == [s[0]] + s[1..j+2] by {
        if j >= 0 {
          assert s[..j+2] == [s[0]] + s[1..j+2];
        }
      }
      if j == -1 then -1 else j + 1
  }

  lemma IndexOfNoDup(s: seq<Area>, k: int)
    requires NoDup(s) && 0 <= k < |s|
    ensures IndexOf(s, s[k]) == k
  {
    if k > 0 {
      assert s[1..][k - 1] == s[k];
      IndexOfNoDup(s[1..], k - 1);
    }
  }

  /** The grid's buckets, every object's area and slot lists (parallel), and the
      scratch list `mOverlappingAreas`. */
  datatype Grid = Grid(buckets: seq<seq<ObjId>>, areas: seq<seq<Area>>, ids: seq<seq<int>>, overlapping: seq<Area>)

  /** The constructor: 20 empty buckets, n objects in no area. */
  function NewGrid(n: nat): (g: Grid)
    ensures Inv(g) && |g.areas| == n && g.overlapping == []
    ensures forall o | 0 <= o < n :: g.areas[o] == []
  {
    Grid(seq(HCount * VCount, b => []), seq(n, o => []), seq(n, o => []), [])
  }

  ghost predicate Shape(g: Grid) {
    && |g.buckets| == HCount * VCount
    && |g.ids| == |g.areas|
    && (forall o | 0 <= o < |g.areas| :: |g.ids[o]| == |g.areas[o]|)
  }

  /** Every object lists valid areas, none twice. */
  ghost predicate AreasListed(g: Grid) {
    forall o | 0 <= o < |g.areas| ::
      NoDup(g.areas[o]) && forall i | 0 <= i < |g.areas[o]| :: ValidArea(g.areas[o][i])
  }

  /** Each recorded slot points back at the object: `bucket(mAreas[i])[mIdsInAreas[i]] == obj`. */
  ghost predicate BackLinks(g: Grid)
    requires Shape(g) && AreasListed(g)
  {
    forall o, i | 0 <= o < |g.areas| && 0 <= i < |g.areas[o]| ::
      && 0 <= g.ids[o][i] < |g.buckets[Key(g.areas[o][i])]|
      && g.buckets[Key(g.areas[o][i])][g.ids[o][i]] == o
  }

  /** The object p lists area a with slot k. */
  ghost predicate Listed(g: Grid, p: ObjId, a: Area, k: int)
    requires Shape(g) && p < |g.areas|
  {
    exists q | 0 <= q < |g.areas[p]| :: g.areas[p][q] == a && g.ids[p][q] == k
  }

  /** Each bucket entry is a known object that lists the bucket's area with
      exactly this slot. */
  ghost predicate Complete(g: Grid)
    requires Shape(g)
  {
    forall a, k | ValidArea(a) && 0 <= k < |g.buckets[Key(a)]| ::
      g.buckets[Key(a)][k] < |g.areas| && Listed(g, g.buckets[Key(a)][k], a, k)
  }

  ghost predicate Inv(g: Grid) {
    Shape(g) && AreasListed(g) && BackLinks(g) && Complete(g)
  }

  lemma KeyInjective(a: Area, c: Area)
    requires ValidArea(a) && ValidArea(c) && Key(a) == Key(c)
    ensures a == c
  {
  }

  /** Consequence of the invariant: an object occurs at most once per bucket. */
  lemma BucketNoDup(g: Grid, a: Area)
    requires Inv(g) && ValidArea(a)
    ensures NoDup(g.buckets[Key(a)])
  {
  }

  /* ---------- addObjectToArea ---------- */

  /** `addObjectToArea`: the object is appended to the area's bucket and the area
      with the object's slot (the bucket's old length) to its own lists. */
  function AddObjectToArea(g: Grid, a: Area, o: ObjId): (r: Grid)
    requires Shape(g) && ValidArea(a) && o < |g.areas|
    ensures Shape(r) && |r.areas| == |g.areas|
    ensures r.buckets[Key(a)] == g.buckets[Key(a)] + [o]
    ensures r.areas[o] == g.areas[o] + [a] && r.ids[o] == g.ids[o] + [|g.buckets[Key(a)]|]
    ensures r.buckets[Key(a)][r.ids[o][|r.ids[o]| - 1]] == o
    ensures forall b | 0 <= b < |g.buckets| && b != Key(a) :: r.buckets[b] == g.buckets[b]
    ensures forall p | 0 <= p < |g.areas| && p != o :: r.areas[p] == g.areas[p] && r.ids[p] == g.ids[p]
  {
    KeyRoundTrip(a, 0);
    var b := Key(a);
    g.(buckets := g.buckets[b := g.buckets[b] + [o]],
       areas := g.areas[o := g.areas[o] + [a]],
       ids := g.ids[o := g.ids[o] + [|g.buckets[b]|]])
  }

  lemma IndexOfAppend(s: seq<Area>, x: Area, a: Area)
    ensures IndexOf(s + [x], a) == if a in s then IndexOf(s, a) else if a == x then |s| else -1
  {
    if |s| > 0 && s[0] != a {
      assert (s + [x])[1..] == s[1..] + [x];
      IndexOfAppend(s[1..], x, a);
    }
  }

  /** Adding an area the object does not yet list keeps the grid consistent. */
  lemma AddKeepsInv(g: Grid, a: Area, o: ObjId)
    requires Inv(g) && ValidArea(a) && o < |g.areas| && a !in g.areas[o]
    ensures Inv(AddObjectToArea(g, a, o))
  {
    var r := AddObjectToArea(g, a, o);
    KeyRoundTrip(a, 0);
    assert AreasListed(r) by {
      forall p | 0 <= p < |r.areas| ensures NoDup(r.areas[p]) {
        if p == o {
          assert r.areas[p] == g.areas[p] + [a];
        }
      }
    }
    AddKeepsBackLinks(g, a, o);
    AddKeepsComplete(g, a, o);
  }

  lemma AddKeepsBackLinks(g: Grid, a: Area, o: ObjId)
    requires Inv(g) && ValidArea(a) && o < |g.areas| && a !in g.areas[o]
    requires AreasListed(AddObjectToArea(g, a, o))
    ensures BackLinks(AddObjectToArea(g, a, o))
  {
    var r := AddObjectToArea(g, a, o);
    forall p, i | 0 <= p < |r.areas| && 0 <= i < |r.areas[p]|
      ensures 0 <= r.ids[p][i] < |r.buckets[Key(r.areas[p][i])]|
      ensures r.buckets[Key(r.areas[p][i])][r.ids[p][i]] == p
    {
      if p != o || i < |g.areas[o]| {
        assert r.areas[p][i] == g.areas[p][i] && r.ids[p][i] == g.ids[p][i];
        KeyRoundTrip(g.areas[p][i], 0);
      }
    }
  }

  lemma AddKeepsComplete(g: Grid, a: Area, o: ObjId)
    requires Inv(g) && ValidArea(a) && o < |g.areas| && a !in g.areas[o]
    ensures Complete(AddObjectToArea(g, a, o))
  {
    var r := AddObjectToArea(g, a, o);
    forall c, k | ValidArea(c) && 0 <= k < |r.buckets[Key(c)]|
      ensures r.buckets[Key(c)][k] < |r.areas| && Listed(r, r.buckets[Key(c)][k], c, k)
    {
      KeyRoundTrip(c, 0);
      var p := r.buckets[Key(c)][k];
      if c == a && k == |g.buckets[Key(a)]| {
        assert r.areas[o][|g.areas[o]|] == a;
      } else {
        if c != a {
          KeyRoundTrip(a, 0);
          if Key(c) == Key(a) { KeyInjective(a, c); }
        }
        assert p == g.buckets[Key(c)][k];
        var q :| 0 <= q < |g.areas[p]| && g.areas[p][q] == c && g.ids[p][q] == k;
        assert r.areas[p][q] == c && r.ids[p][q] == k;
      }
    }
  }

  /* ---------- removeObjectFromArea ---------- */

  /** `removeObjectFromArea`: the bucket's last entry is moved into the slot
      `id`, that moved object's recorded slot for this area (its first listing of
      the area) is rewritten to `id`, and the last entry is popped. */
  function RemoveObjectFromArea(g: Grid, a: Area, id: int, o: ObjId): (r: Grid)
    requires Shape(g) && ValidArea(a)
    requires 0 <= id < |g.buckets[Key(a)]|
    requires g.buckets[Key(a)][|g.buckets[Key(a)]| - 1] < |g.areas|
    ensures Shape(r) && r.areas == g.areas && r.overlapping == g.overlapping
    ensures var bucket, last := g.buckets[Key(a)], |g.buckets[Key(a)]| - 1;
      && |r.buckets[Key(a)]| == last
      && (id < last ==> r.buckets[Key(a)][id] == bucket[last])
      && (forall k | 0 <= k < last && k != id :: r.buckets[Key(a)][k] == bucket[k])
    ensures forall b | 0 <= b < |g.buckets| && b != Key(a) :: r.buckets[b] == g.buckets[b]
    ensures var moved := g.buckets[Key(a)][|g.buckets[Key(a)]| - 1];
            var j := IndexOf(g.areas[moved], a);
      && (forall p | 0 <= p < |g.ids| && p != moved :: r.ids[p] == g.ids[p])
      && |r.ids[moved]| == |g.ids[moved]|
      && (forall q | 0 <= q < |g.ids[moved]| && q != j :: r.ids[moved][q] == g.ids[moved][q])
      && (j >= 0 ==> r.ids[moved][j] == id)
  {
    KeyRoundTrip(a, 0);
    var b := Key(a);
    var bucket := g.buckets[b];
    var last := |bucket| - 1;
    var moved := bucket[last];
    var swapped := bucket[last := o][id := moved];
    var j := IndexOf(g.areas[moved], a);
    var ids := if j >= 0 then g.ids[moved := g.ids[moved][j := id]] else g.ids;
    g.(buckets := g.buckets[b := swapped[..last]], ids := ids)
  }

  function Without<T>(s: seq<T>, i: int): (r: seq<T>)
    requires 0 <= i < |s|
    ensures |r| == |s| - 1
    ensures forall k | 0 <= k < i :: r[k] == s[k]
    ensures forall k | i <= k < |r| :: r[k] == s[k + 1]
  {
    s[..i] + s[i + 1..]
  }

  /** `areas.splice(i, 1); ids.splice(i, 1)`. */
  function DropArea(g: Grid, o: ObjId, i: int): (r: Grid)
    requires Shape(g) && o < |g.areas| && 0 <= i < |g.areas[o]|
    ensures Shape(r) && r.buckets == g.buckets && r.overlapping == g.overlapping
    ensures r.areas == g.areas[o := Without(g.areas[o], i)] && r.ids == g.ids[o := Without(g.ids[o], i)]
  {
    g.(areas := g.areas[o := Without(g.areas[o], i)], ids := g.ids[o := Without(g.ids[o], i)])
  }

  lemma WithoutNoDup(s: seq<Area>, i: int)
    requires NoDup(s) && 0 <= i < |s|
    ensures NoDup(Without(s, i))
    ensures forall c :: c in Without(s, i) <==> c in s && c != s[i]
  {
    var r := Without(s, i);
    forall c | c in s && c != s[i] ensures c in r {
      var k := IndexOf(s, c);
      if k < i {
        assert r[k] == c;
      } else {
        assert r[k - 1] == c;
      }
    }
  }

  /** Where an area other than the dropped one ends up in the spliced list. */
  lemma IndexOfWithout(s: seq<Area>, i: int, q: int)
    requires NoDup(s) && 0 <= i < |s| && 0 <= q < |s| && q != i
    ensures IndexOf(Without(s, i), s[q]) == if q < i then q else q - 1
  {
    WithoutNoDup(s, i);
    var r := Without(s, i);
    if q < i {
      IndexOfNoDup(r, q);
    } else {
      IndexOfNoDup(r, q - 1);
    }
  }

  /** What a removal of object o's i-th area reads: the area is valid, the
      object sits at its recorded slot of the bucket, the bucket's last entry is
      a known object listing the area, and that last entry is another object
      exactly when the slot is not the last. */
  ghost predicate Removable(g: Grid, o: ObjId, i: int) {
    && Shape(g) && o < |g.areas| && 0 <= i < |g.areas[o]| && ValidArea(g.areas[o][i])
    && var a := g.areas[o][i];
       var bucket := g.buckets[Key(a)];
       var id := g.ids[o][i];
       && 0 <= id < |bucket| && bucket[id] == o
       && bucket[|bucket| - 1] < |g.areas|
       && IndexOf(g.areas[o], a) == i
       && a in g.areas[bucket[|bucket| - 1]]
       && (id < |bucket| - 1 <==> bucket[|bucket| - 1] != o)
  }

  function RemoveAt(g: Grid, o: ObjId, i: int): (r: Grid)
    requires Removable(g, o, i)
    ensures Shape(r) && r.overlapping == g.overlapping
    ensures r.areas == g.areas[o := Without(g.areas[o], i)]
  {
    KeyRoundTrip(g.areas[o][i], Key(g.areas[o][i]));
    DropArea(RemoveObjectFromArea(g, g.areas[o][i], g.ids[o][i], o), o, i)
  }

  /** Under the invariant every listed area of every object can be removed. */
  lemma RemovalFacts(g: Grid, o: ObjId, i: int)
    requires Inv(g) && o < |g.areas| && 0 <= i < |g.areas[o]|
    ensures Removable(g, o, i)
  {
    var a := g.areas[o][i];
    assert ValidArea(a) && NoDup(g.areas[o]);
    KeyRoundTrip(a, 0);
    IndexOfNoDup(g.areas[o], i);
    var id := g.ids[o][i];
    assert 0 <= id < |g.buckets[Key(a)]| && g.buckets[Key(a)][id] == o;
    var q := LastEntryListed(g, a);
    LastEntrySlot(g, o, i, q);
  }

  /** The last entry of a non-empty bucket lists the bucket's area with the last slot. */
  lemma LastEntryListed(g: Grid, a: Area) returns (q: int)
    requires Shape(g) && Complete(g) && ValidArea(a) && |g.buckets[Key(a)]| > 0
    ensures var bucket := g.buckets[Key(a)]; var moved := bucket[|bucket| - 1];
            && moved < |g.areas| && 0 <= q < |g.areas[moved]|
            && g.areas[moved][q] == a && g.ids[moved][q] == |bucket| - 1
  {
    var bucket := g.buckets[Key(a)];
    assert Listed(g, bucket[|bucket| - 1], a, |bucket| - 1);
    q :| 0 <= q < |g.areas[bucket[|bucket| - 1]]| && g.areas[bucket[|bucket| - 1]][q] == a
         && g.ids[bucket[|bucket| - 1]][q] == |bucket| - 1;
  }

  /** The removed slot is the last one exactly when the object is the bucket's last entry. */
  lemma LastEntrySlot(g: Grid, o: ObjId, i: int, q: int)
    requires Shape(g) && o < |g.areas| && 0 <= i < |g.areas[o]| && ValidArea(g.areas[o][i])
    requires NoDup(g.areas[o])
    requires var a := g.areas[o][i]; var bucket := g.buckets[Key(a)]; var id := g.ids[o][i];
             && 0 <= id < |bucket| && bucket[id] == o
             && var moved := bucket[|bucket| - 1];
             && moved < |g.areas| && 0 <= q < |g.areas[moved]|
             && g.areas[moved][q] == a && g.ids[moved][q] == |bucket| - 1
    ensures var a := g.areas[o][i]; var bucket := g.buckets[Key(a)];
            g.ids[o][i] < |bucket| - 1 <==> bucket[|bucket| - 1] != o
  {
    var bucket := g.buckets[Key(g.areas[o][i])];
    if bucket[|bucket| - 1] == o {
      assert q == i;
    }
  }

  lemma RemoveKeepsInv(g: Grid, o: ObjId, i: int)
    requires Inv(g) && o < |g.areas| && 0 <= i < |g.areas[o]|
    ensures Removable(g, o, i) && Inv(RemoveAt(g, o, i))
  {
    RemovalFacts(g, o, i);
    var r := RemoveAt(g, o, i);
    assert AreasListed(r) by {
      forall p | 0 <= p < |r.areas| ensures NoDup(r.areas[p]) && forall q | 0 <= q < |r.areas[p]| :: ValidArea(r.areas[p][q]) {
        if p == o {
          WithoutNoDup(g.areas[o], i);
        }
      }
    }
    RemoveKeepsBackLinks(g, o, i);
    RemoveKeepsComplete(g, o, i);
  }

  lemma RemoveKeepsBackLinks(g: Grid, o: ObjId, i: int)
    requires Shape(g) && AreasListed(g) && BackLinks(g) && Removable(g, o, i)
    requires AreasListed(RemoveAt(g, o, i))
    ensures BackLinks(RemoveAt(g, o, i))
  {
    var r := RemoveAt(g, o, i);
    forall p, q | 0 <= p < |r.areas| && 0 <= q < |r.areas[p]|
      ensures 0 <= r.ids[p][q] < |r.buckets[Key(r.areas[p][q])]|
      ensures r.buckets[Key(r.areas[p][q])][r.ids[p][q]] == p
    {
      BackLinkAfterRemove(g, o, i, p, q);
    }
  }

  /** One recorded slot after the removal still points back at its object. */
  lemma BackLinkAfterRemove(g: Grid, o: ObjId, i: int, p: ObjId, q: int)
    requires Shape(g) && AreasListed(g) && BackLinks(g) && Removable(g, o, i)
    requires AreasListed(RemoveAt(g, o, i))
    requires p < |RemoveAt(g, o, i).areas| && 0 <= q < |RemoveAt(g, o, i).areas[p]|
    ensures var r := RemoveAt(g, o, i);
            && 0 <= r.ids[p][q] < |r.buckets[Key(r.areas[p][q])]|
            && r.buckets[Key(r.areas[p][q])][r.ids[p][q]] == p
  {
    var bucket := g.buckets[Key(g.areas[o][i])];
    if p == o {
      RemovedBackLink(g, o, i, q);
    } else if p == bucket[|bucket| - 1] {
      MovedBackLink(g, o, i, p, q);
    } else {
      OtherBackLink(g, o, i, p, q);
    }
  }

  /** The removed object's remaining slots: other areas, untouched buckets. */
  lemma RemovedBackLink(g: Grid, o: ObjId, i: int, q: int)
    requires Shape(g) && AreasListed(g) && BackLinks(g) && Removable(g, o, i)
    requires AreasListed(RemoveAt(g, o, i))
    requires 0 <= q < |RemoveAt(g, o, i).areas[o]|
    ensures var r := RemoveAt(g, o, i);
            && 0 <= r.ids[o][q] < |r.buckets[Key(r.areas[o][q])]|
            && r.buckets[Key(r.areas[o][q])][r.ids[o][q]] == o
  {
    var r := RemoveAt(g, o, i);
    var a := g.areas[o][i];
    RemoveAtBuckets(g, o, i);
    RemoveAtIds(g, o, i);
    KeyRoundTrip(a, 0);
    var c := r.areas[o][q];
    KeyRoundTrip(c, 0);
    var q0 := if q < i then q else q + 1;
    assert c == g.areas[o][q0] && q0 != i;
    assert c != a;
    if Key(c) == Key(a) { KeyInjective(a, c); }
    assert r.ids[o][q] == g.ids[o][q0];
  }

  /** The moved object: its slot for the area is the freed one, where the
      bucket now holds it. */
  lemma MovedBackLink(g: Grid, o: ObjId, i: int, p: ObjId, q: int)
    requires Shape(g) && AreasListed(g) && BackLinks(g) && Removable(g, o, i)
    requires AreasListed(RemoveAt(g, o, i))
    requires p < |RemoveAt(g, o, i).areas| && 0 <= q < |RemoveAt(g, o, i).areas[p]|
    requires var bucket := g.buckets[Key(g.areas[o][i])]; p == bucket[|bucket| - 1] && p != o
    ensures var r := RemoveAt(g, o, i);
            && 0 <= r.ids[p][q] < |r.buckets[Key(r.areas[p][q])]|
            && r.buckets[Key(r.areas[p][q])][r.ids[p][q]] == p
  {
    var r := RemoveAt(g, o, i);
    var a := g.areas[o][i];
    RemoveAtBuckets(g, o, i);
    RemoveAtMovedIds(g, o, i);
    KeyRoundTrip(a, 0);
    var c := r.areas[p][q];
    KeyRoundTrip(c, 0);
    var j := IndexOf(g.areas[p], a);
    if q == j {
      assert c == a;
    } else {
      assert c != a by { IndexOfNoDup(g.areas[p], q); }
      if Key(c) == Key(a) { KeyInjective(a, c); }
    }
  }

  /** Any other object: its lists are unchanged, and so is every bucket slot it
      records. */
  lemma OtherBackLink(g: Grid, o: ObjId, i: int, p: ObjId, q: int)
    requires Shape(g) && AreasListed(g) && BackLinks(g) && Removable(g, o, i)
    requires AreasListed(RemoveAt(g, o, i))
    requires p < |RemoveAt(g, o, i).areas| && 0 <= q < |RemoveAt(g, o, i).areas[p]|
    requires var bucket := g.buckets[Key(g.areas[o][i])]; p != bucket[|bucket| - 1] && p != o
    ensures var r := RemoveAt(g, o, i);
            && 0 <= r.ids[p][q] < |r.buckets[Key(r.areas[p][q])]|
            && r.buckets[Key(r.areas[p][q])][r.ids[p][q]] == p
  {
    var r := RemoveAt(g, o, i);
    var a := g.areas[o][i];
    var bucket := g.buckets[Key(a)];
    RemoveAtBuckets(g, o, i);
    RemoveAtIds(g, o, i);
    KeyRoundTrip(a, 0);
    var c := r.areas[p][q];
    KeyRoundTrip(c, 0);
    assert c == g.areas[p][q] && r.ids[p][q] == g.ids[p][q];
    if c == a {
      assert bucket[g.ids[p][q]] == p;
    } else if Key(c) == Key(a) {
      KeyInjective(a, c);
    }
  }

  lemma RemoveKeepsComplete(g: Grid, o: ObjId, i: int)
    requires Inv(g) && Removable(g, o, i)
    ensures Complete(RemoveAt(g, o, i))
  {
    var r := RemoveAt(g, o, i);
    forall c, k | ValidArea(c) && 0 <= k < |r.buckets[Key(c)]|
      ensures r.buckets[Key(c)][k] < |r.areas| && Listed(r, r.buckets[Key(c)][k], c, k)
    {
      RemoveCompleteAt(g, o, i, c, k);
    }
  }

  /** What the removal does to the buckets: in the shrunk bucket only the freed
      slot changes (to the moved object, when it is not the last); every other
      bucket is unchanged. */
  lemma RemoveAtBuckets(g: Grid, o: ObjId, i: int)
    requires Removable(g, o, i)
    ensures var r := RemoveAt(g, o, i);
            var a := g.areas[o][i];
            var id := g.ids[o][i];
            var bucket := g.buckets[Key(a)];
            var moved := bucket[|bucket| - 1];
      && 0 <= Key(a) < |g.buckets|
      && |r.buckets[Key(a)]| == |bucket| - 1
      && (id < |bucket| - 1 ==> r.buckets[Key(a)][id] == moved)
      && (forall k | 0 <= k < |bucket| - 1 && k != id :: r.buckets[Key(a)][k] == bucket[k])
      && (forall b | 0 <= b < |g.buckets| && b != Key(a) :: r.buckets[b] == g.buckets[b])
  {
    KeyRoundTrip(g.areas[o][i], 0);
  }

  /** The removed object's recorded slots after the removal: the one at i is
      gone, the others keep their values; objects other than o and the moved
      one keep theirs. */
  lemma RemoveAtIds(g: Grid, o: ObjId, i: int)
    requires Removable(g, o, i)
    ensures var r := RemoveAt(g, o, i);
            var bucket := g.buckets[Key(g.areas[o][i])];
            var moved := bucket[|bucket| - 1];
      && (forall p | 0 <= p < |g.ids| && p != o && p != moved :: r.ids[p] == g.ids[p])
      && |r.ids[o]| == |g.ids[o]| - 1
      && (forall q | 0 <= q < |r.ids[o]| :: r.ids[o][q] == g.ids[o][if q < i then q else q + 1])
  {
    var a, id := g.areas[o][i], g.ids[o][i];
    var r1 := RemoveObjectFromArea(g, a, id, o);
    var r := RemoveAt(g, o, i);
    assert r == DropArea(r1, o, i);
    forall q | 0 <= q < |r.ids[o]|
      ensures r.ids[o][q] == g.ids[o][if q < i then q else q + 1]
    {
      var q0 := if q < i then q else q + 1;
      assert r.ids[o][q] == r1.ids[o][q0];
    }
  }

  /** The moved object's recorded slots after the removal: its first listing of
      the area now records the freed slot, the rest are unchanged. */
  lemma RemoveAtMovedIds(g: Grid, o: ObjId, i: int)
    requires Removable(g, o, i)
    ensures var r := RemoveAt(g, o, i);
            var a := g.areas[o][i];
            var bucket := g.buckets[Key(a)];
            var moved := bucket[|bucket| - 1];
            var j := IndexOf(g.areas[moved], a);
      && 0 <= j < |g.areas[moved]|
      && (moved != o ==> |r.ids[moved]| == |g.ids[moved]|)
      && (moved != o ==> (forall q | 0 <= q < |g.ids[moved]| && q != j :: r.ids[moved][q] == g.ids[moved][q]))
      && (moved != o ==> r.ids[moved][j] == g.ids[o][i])
  {
    var a, id := g.areas[o][i], g.ids[o][i];
    assert RemoveAt(g, o, i) == DropArea(RemoveObjectFromArea(g, a, id, o), o, i);
  }

  /** One bucket entry after the removal: the moved object at the freed slot, or
      an entry that did not move. */
  lemma RemoveCompleteAt(g: Grid, o: ObjId, i: int, c: Area, k: int)
    requires Inv(g) && Removable(g, o, i)
    requires ValidArea(c) && 0 <= k < |RemoveAt(g, o, i).buckets[Key(c)]|
    ensures var r := RemoveAt(g, o, i);
            r.buckets[Key(c)][k] < |r.areas| && Listed(r, r.buckets[Key(c)][k], c, k)
  {
    if c == g.areas[o][i] {
      BucketNoDup(g, c);
      RemoveCompleteSameArea(g, o, i, k);
    } else {
      RemoveCompleteOtherArea(g, o, i, c, k);
    }
  }

  lemma RemoveCompleteSameArea(g: Grid, o: ObjId, i: int, k: int)
    requires Removable(g, o, i) && Complete(g) && NoDup(g.buckets[Key(g.areas[o][i])])
    requires 0 <= k < |RemoveAt(g, o, i).buckets[Key(g.areas[o][i])]|
    ensures var r := RemoveAt(g, o, i);
            var c := g.areas[o][i];
            r.buckets[Key(c)][k] < |r.areas| && Listed(r, r.buckets[Key(c)][k], c, k)
  {
    var r := RemoveAt(g, o, i);
    var a := g.areas[o][i];
    var id := g.ids[o][i];
    var bucket := g.buckets[Key(a)];
    var moved := bucket[|bucket| - 1];
    RemoveAtBuckets(g, o, i);
    RemoveAtIds(g, o, i);
    RemoveAtMovedIds(g, o, i);
    var p := r.buckets[Key(a)][k];
    if k == id {
      var j := IndexOf(g.areas[moved], a);
      assert r.areas[moved][j] == a && r.ids[moved][j] == k;
    } else {
      assert p == bucket[k] && p != o && p != moved;
      assert Listed(g, p, a, k);
      var q :| 0 <= q < |g.areas[p]| && g.areas[p][q] == a && g.ids[p][q] == k;
      assert r.areas[p][q] == a && r.ids[p][q] == k;
    }
  }

  lemma RemoveCompleteOtherArea(g: Grid, o: ObjId, i: int, c: Area, k: int)
    requires Removable(g, o, i) && Complete(g)
    requires ValidArea(c) && c != g.areas[o][i] && 0 <= k < |RemoveAt(g, o, i).buckets[Key(c)]|
    ensures var r := RemoveAt(g, o, i);
            r.buckets[Key(c)][k] < |r.areas| && Listed(r, r.buckets[Key(c)][k], c, k)
  {
    var r := RemoveAt(g, o, i);
    var a := g.areas[o][i];
    RemoveAtBuckets(g, o, i);
    RemoveAtIds(g, o, i);
    RemoveAtMovedIds(g, o, i);
    KeyRoundTrip(c, 0);
    if Key(c) == Key(a) { KeyInjective(a, c); }
    var p := g.buckets[Key(c)][k];
    assert r.buckets[Key(c)][k] == p;
    assert p < |g.areas| && Listed(g, p, c, k);
    var q :| 0 <= q < |g.areas[p]| && g.areas[p][q] == c && g.ids[p][q] == k;
    UnmovedEntry(g, o, i, c, p, q);
  }

  /** An entry (p, q) listing another area than the removed one is still listed
      after the removal, shifted down by one past i when p is the removed object. */
  lemma UnmovedEntry(g: Grid, o: ObjId, i: int, c: Area, p: ObjId, q: int)
    requires Removable(g, o, i)
    requires p < |g.areas| && 0 <= q < |g.areas[p]| && g.areas[p][q] == c && c != g.areas[o][i]
    ensures Listed(RemoveAt(g, o, i), p, c, g.ids[p][q])
  {
    var r := RemoveAt(g, o, i);
    var a := g.areas[o][i];
    var bucket := g.buckets[Key(a)];
    var moved := bucket[|bucket| - 1];
    RemoveAtBuckets(g, o, i);
    RemoveAtIds(g, o, i);
    RemoveAtMovedIds(g, o, i);
    if p == o {
      assert q != i;
      var q1 := if q < i then q else q - 1;
      assert r.areas[o][q1] == c && r.ids[o][q1] == g.ids[p][q];
    } else if p == moved {
      assert q != IndexOf(g.areas[moved], a);
      assert r.areas[p][q] == c && r.ids[p][q] == g.ids[p][q];
    } else {
      assert r.areas[p][q] == c && r.ids[p][q] == g.ids[p][q];
    }
  }

  /* ---------- updateAreas ---------- */

  /** The area of the tile containing a point: the tile indices divided by 16 and
      floored (`/` on integers with a positive divisor floors). */
  function AreaAtPoint(origin: Vec2, p: Vec2): (a: Area)
    ensures var t := TileAtPoint(origin, p);
            && GridAreaSize * a.x <= t.x < GridAreaSize * (a.x + 1)
            && GridAreaSize * a.y <= t.y < GridAreaSize * (a.y + 1)
  {
    var t := TileAtPoint(origin, p);
    Area(t.x / GridAreaSize, t.y / GridAreaSize)
  }

  datatype Corners = Corners(topLeft: Area, topRight: Area, bottomLeft: Area, bottomRight: Area)

  /** The areas of the box's corners; the bottom-right one is assembled from the
      top-right column and the bottom-left row. */
  function CornerAreas(origin: Vec2, center: Vec2, halfSize: Vec2): (c: Corners)
    ensures c.topLeft.x == c.bottomLeft.x && c.topLeft.y == c.topRight.y
    ensures c.bottomRight == Area(c.topRight.x, c.bottomLeft.y)
  {
    var topLeft := AreaAtPoint(origin, Add(center, Vec2(-halfSize.x, halfSize.y)));
    var topRight := AreaAtPoint(origin, Add(center, halfSize));
    var bottomLeft := AreaAtPoint(origin, Vec2(center.x - halfSize.x, center.y - halfSize.y));
    Corners(topLeft, topRight, bottomLeft, Area(topRight.x, bottomLeft.y))
  }

  /** The areas pushed onto `mOverlappingAreas`: one, two or four distinct
      areas, exactly those of the four corners. */
  function OverlappingAreas(c: Corners): (s: seq<Area>)
    requires c.topLeft.x == c.bottomLeft.x && c.topLeft.y == c.topRight.y
    requires c.bottomRight == Area(c.topRight.x, c.bottomLeft.y)
    ensures NoDup(s) && (|s| == 1 || |s| == 2 || |s| == 4)
    ensures forall a :: a in s <==> a == c.topLeft || a == c.topRight || a == c.bottomLeft || a == c.bottomRight
  {
    if c.topLeft.x == c.topRight.x && c.topLeft.y == c.bottomLeft.y then [c.topLeft]
    else if c.topLeft.x == c.topRight.x then [c.topLeft, c.bottomLeft]
    else if c.topLeft.y == c.bottomLeft.y then [c.topLeft, c.topRight]
    else [c.topLeft, c.bottomLeft, c.topRight, c.bottomRight]
  }

  /** `updateAreas(obj)`: the object leaves every area its box no longer
      overlaps (swap-removing it from the bucket) and joins the ones it newly
      overlaps; the scratch list is emptied. A corner area outside the 5 x 4 grid
      is reported as a failure. */
  method UpdateAreas(g: Grid, o: ObjId, origin: Vec2, center: Vec2, halfSize: Vec2) returns (r: Result<Grid>)
    requires Inv(g) && o < |g.areas|
    ensures var ov := g.overlapping + OverlappingAreas(CornerAreas(origin, center, halfSize));
            r.Failure? <==> exists a :: a in ov && !ValidArea(a)
    ensures var ov := g.overlapping + OverlappingAreas(CornerAreas(origin, center, halfSize));
            r.Success? ==>
              && Inv(r.value) && r.value.overlapping == [] && |r.value.areas| == |g.areas|
              && (forall a :: a in r.value.areas[o] <==> a in ov)
              && (forall p | 0 <= p < |g.areas| && p != o :: r.value.areas[p] == g.areas[p])
  {
    var ov := g.overlapping + OverlappingAreas(CornerAreas(origin, center, halfSize));
    if !forall a | a in ov :: ValidArea(a) {
      return Failure("area outside the grid");
    }
    var s := LeaveStaleAreas(g.(overlapping := ov), o);
    s := JoinNewAreas(s, o);
    return Success(s.(overlapping := []));
  }

  /** What the first loop of `updateAreas` keeps about the object's list l
      (initially `before`) once it has looked at the first i entries: those are
      all overlapping, nothing was added, and no overlapping area was lost. */
  ghost predicate Scanned(l: seq<Area>, i: int, before: seq<Area>, ov: seq<Area>) {
    && 0 <= i <= |l|
    && (forall k | 0 <= k < i :: l[k] in ov)
    && (forall a :: a in l ==> a in before)
    && (forall a :: a in before && a in ov ==> a in l)
  }

  /** Dropping a stale entry at i keeps the scan's facts at the same i. */
  lemma DropStale(l: seq<Area>, i: int, before: seq<Area>, ov: seq<Area>)
    requires NoDup(l) && Scanned(l, i, before, ov) && i < |l| && l[i] !in ov
    ensures Scanned(Without(l, i), i, before, ov)
  {
    WithoutNoDup(l, i);
  }

  /** Keeping an overlapping entry moves the scan one step on. */
  lemma KeepFresh(l: seq<Area>, i: int, before: seq<Area>, ov: seq<Area>)
    requires Scanned(l, i, before, ov) && i < |l| && l[i] in ov
    ensures Scanned(l, i + 1, before, ov)
  {
  }

  /** A finished scan leaves exactly the listed areas that overlap. */
  lemma ScanDone(l: seq<Area>, before: seq<Area>, ov: seq<Area>)
    requires Scanned(l, |l|, before, ov)
    ensures forall a :: a in l <==> a in before && a in ov
  {
    forall a | a in l ensures a in ov {
      var k :| 0 <= k < |l| && l[k] == a;
    }
  }

  /** The first loop of `updateAreas`: every listed area that is not among the
      overlapping ones is removed, both from the bucket and from the lists. */
  method LeaveStaleAreas(g: Grid, o: ObjId) returns (s: Grid)
    requires Inv(g) && o < |g.areas|
    ensures Inv(s) && |s.areas| == |g.areas| && s.overlapping == g.overlapping
    ensures forall a :: a in s.areas[o] <==> a in g.areas[o] && a in g.overlapping
    ensures forall p | 0 <= p < |g.areas| && p != o :: s.areas[p] == g.areas[p]
  {
    s := g;
    var i := 0;
    while i < |s.areas[o]|
      invariant Leaving(s, g, o, i)
      decreases |s.areas[o]| - i
    {
      if s.areas[o][i] !in s.overlapping {
        LeaveDrop(s, g, o, i);
        s := RemoveAt(s, o, i);
        // `updateAreas`' `--i` cancels the loop's `++i`
      } else {
        LeaveKeep(s, g, o, i);
        i := i + 1;
      }
    }
    LeaveDone(s, g, o);
  }

  /** The invariant of the first loop of `updateAreas` after i kept entries. */
  ghost predicate Leaving(s: Grid, g: Grid, o: ObjId, i: int) {
    && Inv(s) && |s.areas| == |g.areas| && s.overlapping == g.overlapping && o < |g.areas|
    && Scanned(s.areas[o], i, g.areas[o], g.overlapping)
    && forall p | 0 <= p < |g.areas| && p != o :: s.areas[p] == g.areas[p]
  }

  lemma LeaveDrop(s: Grid, g: Grid, o: ObjId, i: int)
    requires Leaving(s, g, o, i) && i < |s.areas[o]| && s.areas[o][i] !in s.overlapping
    ensures Removable(s, o, i) && Leaving(RemoveAt(s, o, i), g, o, i)
    ensures |RemoveAt(s, o, i).areas[o]| == |s.areas[o]| - 1
  {
    DropStale(s.areas[o], i, g.areas[o], g.overlapping);
    RemoveKeepsInv(s, o, i);
  }

  lemma LeaveKeep(s: Grid, g: Grid, o: ObjId, i: int)
    requires Leaving(s, g, o, i) && i < |s.areas[o]| && s.areas[o][i] in s.overlapping
    ensures Leaving(s, g, o, i + 1)
  {
    KeepFresh(s.areas[o], i, g.areas[o], g.overlapping);
  }

  lemma LeaveDone(s: Grid, g: Grid, o: ObjId)
    requires o < |s.areas| && Leaving(s, g, o, |s.areas[o]|)
    ensures Inv(s) && |s.areas| == |g.areas| && s.overlapping == g.overlapping
    ensures forall a :: a in s.areas[o] <==> a in g.areas[o] && a in g.overlapping
    ensures forall p | 0 <= p < |g.areas| && p != o :: s.areas[p] == g.areas[p]
  {
    ScanDone(s.areas[o], g.areas[o], g.overlapping);
  }

  /** The second loop: every overlapping area the object does not list yet is
      added. */
  method JoinNewAreas(g: Grid, o: ObjId) returns (s: Grid)
    requires Inv(g) && o < |g.areas|
    requires forall a | a in g.overlapping :: ValidArea(a)
    ensures Inv(s) && |s.areas| == |g.areas| && s.overlapping == g.overlapping
    ensures forall a :: a in s.areas[o] <==> a in g.areas[o] || a in g.overlapping
    ensures forall p | 0 <= p < |g.areas| && p != o :: s.areas[p] == g.areas[p]
  {
    s := g;
    var ov := g.overlapping;
    var j := 0;
    while j < |ov|
      invariant Inv(s) && |s.areas| == |g.areas| && s.overlapping == ov
      invariant 0 <= j <= |ov|
      invariant forall a :: a in s.areas[o] <==> a in g.areas[o] || a in ov[..j]
      invariant forall p | 0 <= p < |g.areas| && p != o :: s.areas[p] == g.areas[p]
    {
      var a := ov[j];
      if a !in s.areas[o] {
        AddKeepsInv(s, a, o);
        s := AddObjectToArea(s, a, o);
      }
      assert ov[..j + 1] == ov[..j] + [a];
      j := j + 1;
    }
    assert ov[..j] == ov;
  }

  /* ---------- checkCollisions ---------- */

  /** A `CollisionData` as far as the grid is concerned: the other object and
      the overlap vector. */
  datatype CollisionData = CollisionData(other: ObjId, overlap: Vec2)

  /** Every record has a mirror: the other object holds a record naming this one
      with the negated overlap. */
  ghost predicate Mirrored(recs: seq<seq<CollisionData>>) {
    forall p, k | 0 <= p < |recs| && 0 <= k < |recs[p]| ::
      recs[p][k].other < |recs| && CollisionData(p, Neg(recs[p][k].overlap)) in recs[recs[p][k].other]
  }

  /** Records are only ever appended. */
  ghost predicate Grows(before: seq<seq<CollisionData>>, after: seq<seq<CollisionData>>) {
    |after| == |before| && forall p | 0 <= p < |before| :: before[p] <= after[p]
  }

  lemma GrowsTransitive(a: seq<seq<CollisionData>>, b: seq<seq<CollisionData>>, c: seq<seq<CollisionData>>)
    requires Grows(a, b) && Grows(b, c)
    ensures Grows(a, c)
  {
    forall p | 0 <= p < |a| ensures a[p] <= c[p] {
      assert b[p][..|a[p]|] == a[p];
      assert c[p][..|b[p]|] == b[p];
      assert c[p][..|a[p]|] == b[p][..|b[p]|][..|a[p]|];
    }
  }

  /** One pair (obj1, obj2) of a bucket. `overlapOf` stands for `overlapsSigned`
      (no value when the boxes do not overlap) and `hasData` for
      `hasCollisionDataFor`, given obj1's records so far. When the boxes overlap
      and obj1 has no record for obj2, obj1 gets a record naming obj2 with the
      overlap and obj2 one naming obj1 with the negated overlap. */
  function HandlePair(recs: seq<seq<CollisionData>>, o1: ObjId, o2: ObjId,
                      overlapOf: (ObjId, ObjId) -> Option<Vec2>,
                      hasData: (seq<CollisionData>, ObjId) -> bool): (r: seq<seq<CollisionData>>)
    requires o1 < |recs| && o2 < |recs|
    ensures |r| == |recs|
    ensures overlapOf(o1, o2).None? || hasData(recs[o1], o2) ==> r == recs
    ensures overlapOf(o1, o2).Some? && !hasData(recs[o1], o2) && o1 != o2 ==>
              var v := overlapOf(o1, o2).value;
              && r[o1] == recs[o1] + [CollisionData(o2, v)]
              && r[o2] == recs[o2] + [CollisionData(o1, Neg(v))]
              && forall p | 0 <= p < |recs| && p != o1 && p != o2 :: r[p] == recs[p]
  {
    match overlapOf(o1, o2)
    case None => recs
    case Some(v) =>
      if hasData(recs[o1], o2) then recs
      else
        var r1 := recs[o1 := recs[o1] + [CollisionData(o2, v)]];
        r1[o2 := r1[o2] + [CollisionData(o1, Neg(v))]]
  }

  /** Handling a pair only appends records. */
  lemma HandlePairGrows(recs: seq<seq<CollisionData>>, o1: ObjId, o2: ObjId,
                        overlapOf: (ObjId, ObjId) -> Option<Vec2>,
                        hasData: (seq<CollisionData>, ObjId) -> bool)
    requires o1 < |recs| && o2 < |recs|
    ensures Grows(recs, HandlePair(recs, o1, o2, overlapOf, hasData))
  {
    var r := HandlePair(recs, o1, o2, overlapOf, hasData);
    if r != recs {
      var v := overlapOf(o1, o2).value;
      var r1 := recs[o1 := recs[o1] + [CollisionData(o2, v)]];
      assert r == r1[o2 := r1[o2] + [CollisionData(o1, Neg(v))]];
      forall p | 0 <= p < |recs| ensures recs[p] <= r[p] {
        assert recs[p] <= r1[p];
      }
    } else {
      GrowsRefl(recs);
    }
  }

  lemma NegNeg(v: Vec2)
    ensures Neg(Neg(v)) == v
  {
  }

  /** A record that was already there keeps its mirror once records only grow. */
  lemma KeptRecordMirrored(recs: seq<seq<CollisionData>>, r: seq<seq<CollisionData>>, p: int, k: int)
    requires Mirrored(recs) && Grows(recs, r) && 0 <= p < |recs| && 0 <= k < |recs[p]|
    ensures r[p][k].other < |r| && CollisionData(p, Neg(r[p][k].overlap)) in r[r[p][k].other]
  {
    var d := recs[p][k];
    assert r[p][..|recs[p]|] == recs[p];
    assert r[p][k] == d;
    var m := CollisionData(p, Neg(d.overlap));
    assert m in recs[d.other];
    var idx :| 0 <= idx < |recs[d.other]| && recs[d.other][idx] == m;
    assert r[d.other][..|recs[d.other]|] == recs[d.other];
    assert r[d.other][idx] == m;
  }

  lemma HandlePairMirrored(recs: seq<seq<CollisionData>>, o1: ObjId, o2: ObjId,
                           overlapOf: (ObjId, ObjId) -> Option<Vec2>,
                           hasData: (seq<CollisionData>, ObjId) -> bool)
    requires o1 < |recs| && o2 < |recs| && Mirrored(recs)
    ensures Mirrored(HandlePair(recs, o1, o2, overlapOf, hasData))
  {
    var r: seq<seq<CollisionData>> := HandlePair(recs, o1, o2, overlapOf, hasData);
    HandlePairGrows(recs, o1, o2, overlapOf, hasData);
    if r != recs {
      var v := overlapOf(o1, o2).value;
      NegNeg(v);
      var r1 := recs[o1 := recs[o1] + [CollisionData(o2, v)]];
      assert r == r1[o2 := r1[o2] + [CollisionData(o1, Neg(v))]];
      assert CollisionData(o2, v) in r[o1];
      assert CollisionData(o1, Neg(v)) in r[o2];
    }
    forall p: int, k: int | 0 <= p < |r| && 0 <= k < |r[p]|
      ensures r[p][k].other < |r| && CollisionData(p, Neg(r[p][k].overlap)) in r[r[p][k].other]
    {
      if k < |recs[p]| {
        KeptRecordMirrored(recs, r, p, k);
      }
    }
  }

  /* ---------- the pairs checkCollisions visits ---------- */

  /** The pairs (bucket[i], bucket[j]) for i < j < n, in order of j. */
  function RowPairs(bucket: seq<ObjId>, i: nat, n: nat): (ps: seq<(ObjId, ObjId)>)
    requires i < n <= |bucket|
    ensures |ps| == n - i - 1
    ensures forall k | 0 <= k < |ps| :: ps[k] == (bucket[i], bucket[i + 1 + k])
  {
    seq(n - i - 1, k requires 0 <= k < n - i - 1 => (bucket[i], bucket[i + 1 + k]))
  }

  /** The pairs of one bucket whose first index is below m, in visiting order. */
  function BucketPairs(bucket: seq<ObjId>, m: nat): seq<(ObjId, ObjId)>
    requires m <= |bucket|
  {
    if m == 0 then [] else BucketPairs(bucket, m - 1) + RowPairs(bucket, m - 1, |bucket|)
  }

  /** The pairs of the first b buckets, in visiting order. */
  function AllPairs(buckets: seq<seq<ObjId>>, b: nat): seq<(ObjId, ObjId)>
    requires b <= |buckets|
  {
    if b == 0 then [] else AllPairs(buckets, b - 1) + BucketPairs(buckets[b - 1], |buckets[b - 1]|)
  }

  predicate PairsIn(ps: seq<(ObjId, ObjId)>, n: nat) {
    forall k | 0 <= k < |ps| :: ps[k].0 < n && ps[k].1 < n
  }

  /** The pairs handled one after the other: the reference for the loops of
      `checkCollisions` (a pair naming an object without records is skipped;
      the loops never meet one). */
  function Fold(recs: seq<seq<CollisionData>>, ps: seq<(ObjId, ObjId)>,
                overlapOf: (ObjId, ObjId) -> Option<Vec2>,
                hasData: (seq<CollisionData>, ObjId) -> bool): (r: seq<seq<CollisionData>>)
    ensures |r| == |recs|
    decreases |ps|
  {
    if |ps| == 0 then recs
    else
      var r0 := Fold(recs, ps[..|ps| - 1], overlapOf, hasData);
      var q := ps[|ps| - 1];
      if q.0 < |r0| && q.1 < |r0| then HandlePair(r0, q.0, q.1, overlapOf, hasData) else r0
  }

  /** Records only grow along the pairs. */
  lemma {:induction false} FoldGrows(recs: seq<seq<CollisionData>>, ps: seq<(ObjId, ObjId)>,
                                     overlapOf: (ObjId, ObjId) -> Option<Vec2>,
                                     hasData: (seq<CollisionData>, ObjId) -> bool)
    ensures Grows(recs, Fold(recs, ps, overlapOf, hasData))
    decreases |ps|
  {
    if |ps| > 0 {
      var r0 := Fold(recs, ps[..|ps| - 1], overlapOf, hasData);
      var q := ps[|ps| - 1];
      FoldGrows(recs, ps[..|ps| - 1], overlapOf, hasData);
      if q.0 < |r0| && q.1 < |r0| {
        HandlePairGrows(r0, q.0, q.1, overlapOf, hasData);
      } else {
        GrowsRefl(r0);
      }
      GrowsTransitive(recs, r0, Fold(recs, ps, overlapOf, hasData));
    } else {
      GrowsRefl(recs);
    }
  }

  lemma GrowsRefl(a: seq<seq<CollisionData>>)
    ensures Grows(a, a)
  {
    forall p | 0 <= p < |a| ensures a[p] <= a[p] {
      assert a[p][..|a[p]|] == a[p];
    }
  }

  /** The last pair, when it names objects with records, is handled after
      the others. */
  lemma FoldLast(recs: seq<seq<CollisionData>>, ps: seq<(ObjId, ObjId)>,
                 overlapOf: (ObjId, ObjId) -> Option<Vec2>,
                 hasData: (seq<CollisionData>, ObjId) -> bool)
    requires |ps| > 0 && ps[|ps| - 1].0 < |recs| && ps[|ps| - 1].1 < |recs|
    ensures Fold(recs, ps, overlapOf, hasData)
            == HandlePair(Fold(recs, ps[..|ps| - 1], overlapOf, hasData), ps[|ps| - 1].0, ps[|ps| - 1].1, overlapOf, hasData)
  {
  }

  lemma PairsInPrefix(ps: seq<(ObjId, ObjId)>, n: nat, m: nat)
    requires PairsIn(ps, n) && m <= |ps|
    ensures PairsIn(ps[..m], n)
  {
    forall k | 0 <= k < m ensures ps[..m][k].0 < n && ps[..m][k].1 < n {
      assert ps[..m][k] == ps[k];
    }
  }

  /** Appending one pair handles it after the others. */
  lemma FoldAppend(recs: seq<seq<CollisionData>>, ps: seq<(ObjId, ObjId)>, q: (ObjId, ObjId),
                   overlapOf: (ObjId, ObjId) -> Option<Vec2>,
                   hasData: (seq<CollisionData>, ObjId) -> bool)
    requires q.0 < |recs| && q.1 < |recs|
    ensures Fold(recs, ps + [q], overlapOf, hasData)
            == HandlePair(Fold(recs, ps, overlapOf, hasData), q.0, q.1, overlapOf, hasData)
  {
    assert (ps + [q])[..|ps|] == ps;
    FoldLast(recs, ps + [q], overlapOf, hasData);
  }

  /** The pairs visited are exactly the pairs i < j of the buckets. */
  lemma {:induction false} BucketPairsExact(bucket: seq<ObjId>, m: nat)
    requires m <= |bucket|
    ensures forall p :: p in BucketPairs(bucket, m) <==>
                        exists i, j | 0 <= i < m && i < j < |bucket| :: p == (bucket[i], bucket[j])
  {
    if m > 0 {
      BucketPairsExact(bucket, m - 1);
      var row := RowPairs(bucket, m - 1, |bucket|);
      forall p ensures p in BucketPairs(bucket, m) <==>
                       exists i, j | 0 <= i < m && i < j < |bucket| :: p == (bucket[i], bucket[j])
      {
        if p in row {
          var k :| 0 <= k < |row| && row[k] == p;
          assert p == (bucket[m - 1], bucket[m + k]);
        }
        if exists i, j | 0 <= i < m && i < j < |bucket| :: p == (bucket[i], bucket[j]) {
          var i, j :| 0 <= i < m && i < j < |bucket| && p == (bucket[i], bucket[j]);
          if i == m - 1 {
            assert row[j - m] == p;
          }
        }
      }
    }
  }

  lemma {:induction false} AllPairsExact(buckets: seq<seq<ObjId>>, b: nat)
    requires b <= |buckets|
    ensures forall p :: p in AllPairs(buckets, b) <==>
                        exists c, i, j | 0 <= c < b && 0 <= i < j < |buckets[c]| :: p == (buckets[c][i], buckets[c][j])
  {
    if b > 0 {
      AllPairsExact(buckets, b - 1);
      var last := buckets[b - 1];
      BucketPairsExact(last, |last|);
      forall p ensures p in AllPairs(buckets, b) <==>
                       exists c, i, j | 0 <= c < b && 0 <= i < j < |buckets[c]| :: p == (buckets[c][i], buckets[c][j])
      {
        if exists c, i, j | 0 <= c < b && 0 <= i < j < |buckets[c]| :: p == (buckets[c][i], buckets[c][j]) {
          var c, i, j :| 0 <= c < b && 0 <= i < j < |buckets[c]| && p == (buckets[c][i], buckets[c][j]);
          if c == b - 1 {
            assert p == (last[i], last[j]);
          }
        }
      }
    }
  }

  /** Every pair visited names objects that have records. */
  lemma AllPairsIn(buckets: seq<seq<ObjId>>, n: nat)
    requires forall c | 0 <= c < |buckets| :: InRange(buckets[c], n)
    ensures PairsIn(AllPairs(buckets, |buckets|), n)
  {
    var ps := AllPairs(buckets, |buckets|);
    AllPairsExact(buckets, |buckets|);
    forall k | 0 <= k < |ps| ensures ps[k].0 < n && ps[k].1 < n {
      assert ps[k] in ps;
    }
  }

  /* ---------- what checkCollisions records ---------- */

  /** Some record in l names o. */
  predicate Names(l: seq<CollisionData>, o: ObjId) {
    exists d | d in l :: d.other == o
  }

  /** Each of the two objects holds a record naming the other. */
  predicate Covered(recs: seq<seq<CollisionData>>, a: ObjId, b: ObjId) {
    a < |recs| && b < |recs| && Names(recs[a], b) && Names(recs[b], a)
  }

  /** `hasCollisionDataFor` read as "some record names the other object". */
  ghost predicate HasDataExact(hasData: (seq<CollisionData>, ObjId) -> bool) {
    forall l, o :: hasData(l, o) <==> Names(l, o)
  }

  /** d is one of the two records the overlapping pair (o1, o2) produces, the
      one that object p holds. */
  predicate PairRecord(o1: ObjId, o2: ObjId, overlapOf: (ObjId, ObjId) -> Option<Vec2>, p: ObjId, d: CollisionData) {
    && overlapOf(o1, o2).Some?
    && ((p == o1 && d == CollisionData(o2, overlapOf(o1, o2).value))
        || (p == o2 && d == CollisionData(o1, Neg(overlapOf(o1, o2).value))))
  }

  predicate FromPairs(ps: seq<(ObjId, ObjId)>, overlapOf: (ObjId, ObjId) -> Option<Vec2>, p: ObjId, d: CollisionData) {
    exists k | 0 <= k < |ps| :: PairRecord(ps[k].0, ps[k].1, overlapOf, p, d)
  }

  predicate FromBucketPair(buckets: seq<seq<ObjId>>, overlapOf: (ObjId, ObjId) -> Option<Vec2>, p: ObjId, d: CollisionData) {
    exists b, i, j | 0 <= b < |buckets| && 0 <= i < j < |buckets[b]| ::
      PairRecord(buckets[b][i], buckets[b][j], overlapOf, p, d)
  }

  /** The records the pairs add, each with its origin. */
  ghost predicate NewFromPairs(recs: seq<seq<CollisionData>>, r: seq<seq<CollisionData>>,
                               ps: seq<(ObjId, ObjId)>, overlapOf: (ObjId, ObjId) -> Option<Vec2>) {
    |r| == |recs| && forall p, k | 0 <= p < |recs| && |recs[p]| <= k < |r[p]| :: FromPairs(ps, overlapOf, p, r[p][k])
  }

  lemma CoveredGrows(r0: seq<seq<CollisionData>>, r: seq<seq<CollisionData>>, a: ObjId, b: ObjId)
    requires Grows(r0, r) && Covered(r0, a, b)
    ensures Covered(r, a, b)
  {
    var d :| d in r0[a] && d.other == b;
    var x :| 0 <= x < |r0[a]| && r0[a][x] == d;
    assert r[a][..|r0[a]|] == r0[a];
    assert r[a][x] == d;
    var e :| e in r0[b] && e.other == a;
    var y :| 0 <= y < |r0[b]| && r0[b][y] == e;
    assert r[b][..|r0[b]|] == r0[b];
    assert r[b][y] == e;
  }

  /** Handling an overlapping pair leaves both objects naming each other:
      either they already did (the record and its mirror), or the two new
      records do. */
  lemma LastPairCovered(r0: seq<seq<CollisionData>>, o1: ObjId, o2: ObjId,
                        overlapOf: (ObjId, ObjId) -> Option<Vec2>,
                        hasData: (seq<CollisionData>, ObjId) -> bool)
    requires o1 < |r0| && o2 < |r0| && Mirrored(r0) && HasDataExact(hasData) && overlapOf(o1, o2).Some?
    ensures Covered(HandlePair(r0, o1, o2, overlapOf, hasData), o1, o2)
  {
    var r := HandlePair(r0, o1, o2, overlapOf, hasData);
    var v := overlapOf(o1, o2).value;
    if hasData(r0[o1], o2) {
      var d :| d in r0[o1] && d.other == o2;
      var x :| 0 <= x < |r0[o1]| && r0[o1][x] == d;
      assert CollisionData(o1, Neg(d.overlap)) in r0[o2];
    } else {
      var r1 := r0[o1 := r0[o1] + [CollisionData(o2, v)]];
      assert r == r1[o2 := r1[o2] + [CollisionData(o1, Neg(v))]];
      assert CollisionData(o2, v) in r1[o1];
      assert CollisionData(o2, v) in r[o1];
      assert CollisionData(o1, Neg(v)) in r[o2];
    }
  }

  /** The records one pair adds are that pair's two records. */
  lemma LastPairRecords(r0: seq<seq<CollisionData>>, o1: ObjId, o2: ObjId,
                        overlapOf: (ObjId, ObjId) -> Option<Vec2>,
                        hasData: (seq<CollisionData>, ObjId) -> bool)
    requires o1 < |r0| && o2 < |r0|
    ensures var r := HandlePair(r0, o1, o2, overlapOf, hasData);
            forall p, k | 0 <= p < |r0| && |r0[p]| <= k < |r[p]| :: PairRecord(o1, o2, overlapOf, p, r[p][k])
  {
    var r := HandlePair(r0, o1, o2, overlapOf, hasData);
    if r != r0 {
      var v := overlapOf(o1, o2).value;
      var r1 := r0[o1 := r0[o1] + [CollisionData(o2, v)]];
      assert r == r1[o2 := r1[o2] + [CollisionData(o1, Neg(v))]];
    }
  }

  lemma {:induction false} FoldMirrored(recs: seq<seq<CollisionData>>, ps: seq<(ObjId, ObjId)>,
                                        overlapOf: (ObjId, ObjId) -> Option<Vec2>,
                                        hasData: (seq<CollisionData>, ObjId) -> bool)
    requires PairsIn(ps, |recs|) && Mirrored(recs)
    ensures Mirrored(Fold(recs, ps, overlapOf, hasData))
    decreases |ps|
  {
    if |ps| > 0 {
      var n := |ps| - 1;
      PairsInPrefix(ps, |recs|, n);
      FoldLast(recs, ps, overlapOf, hasData);
      FoldGrows(recs, ps[..n], overlapOf, hasData);
      FoldMirrored(recs, ps[..n], overlapOf, hasData);
      HandlePairMirrored(Fold(recs, ps[..n], overlapOf, hasData), ps[n].0, ps[n].1, overlapOf, hasData);
    }
  }

  /** Every overlapping pair of ps ends with both objects naming each other. */
  predicate CoversAll(r: seq<seq<CollisionData>>, ps: seq<(ObjId, ObjId)>, overlapOf: (ObjId, ObjId) -> Option<Vec2>) {
    forall k | 0 <= k < |ps| && overlapOf(ps[k].0, ps[k].1).Some? :: Covered(r, ps[k].0, ps[k].1)
  }

  /** Coverage of the earlier pairs survives growth, and the last pair adds its own. */
  lemma CoversStep(r0: seq<seq<CollisionData>>, r: seq<seq<CollisionData>>, ps: seq<(ObjId, ObjId)>,
                   overlapOf: (ObjId, ObjId) -> Option<Vec2>)
    requires |ps| > 0 && CoversAll(r0, ps[..|ps| - 1], overlapOf) && Grows(r0, r)
    requires overlapOf(ps[|ps| - 1].0, ps[|ps| - 1].1).Some? ==> Covered(r, ps[|ps| - 1].0, ps[|ps| - 1].1)
    ensures CoversAll(r, ps, overlapOf)
  {
    var n := |ps| - 1;
    forall k | 0 <= k < |ps| && overlapOf(ps[k].0, ps[k].1).Some?
      ensures Covered(r, ps[k].0, ps[k].1)
    {
      if k < n {
        assert ps[..n][k] == ps[k];
        CoveredGrows(r0, r, ps[k].0, ps[k].1);
      }
    }
  }

  /** With mirrored records and `hasCollisionDataFor` as a lookup, every
      overlapping pair handled ends with each object naming the other. */
  lemma {:induction false} FoldCovers(recs: seq<seq<CollisionData>>, ps: seq<(ObjId, ObjId)>,
                                      overlapOf: (ObjId, ObjId) -> Option<Vec2>,
                                      hasData: (seq<CollisionData>, ObjId) -> bool)
    requires PairsIn(ps, |recs|) && Mirrored(recs) && HasDataExact(hasData)
    ensures CoversAll(Fold(recs, ps, overlapOf, hasData), ps, overlapOf)
    decreases |ps|
  {
    if |ps| > 0 {
      var n := |ps| - 1;
      PairsInPrefix(ps, |recs|, n);
      FoldLast(recs, ps, overlapOf, hasData);
      var r0 := Fold(recs, ps[..n], overlapOf, hasData);
      FoldGrows(recs, ps[..n], overlapOf, hasData);
      FoldCovers(recs, ps[..n], overlapOf, hasData);
      FoldMirrored(recs, ps[..n], overlapOf, hasData);
      if overlapOf(ps[n].0, ps[n].1).Some? {
        LastPairCovered(r0, ps[n].0, ps[n].1, overlapOf, hasData);
      }
      CoversStep(r0, Fold(recs, ps, overlapOf, hasData), ps, overlapOf);
    }
  }

  /** Every record the pairs add is one of the two records of an overlapping
      pair among them. */
  lemma {:induction false} FoldOnlyPairs(recs: seq<seq<CollisionData>>, ps: seq<(ObjId, ObjId)>,
                                         overlapOf: (ObjId, ObjId) -> Option<Vec2>,
                                         hasData: (seq<CollisionData>, ObjId) -> bool)
    requires PairsIn(ps, |recs|)
    ensures NewFromPairs(recs, Fold(recs, ps, overlapOf, hasData), ps, overlapOf)
    decreases |ps|
  {
    if |ps| > 0 {
      var n := |ps| - 1;
      PairsInPrefix(ps, |recs|, n);
      FoldLast(recs, ps, overlapOf, hasData);
      var r0 := Fold(recs, ps[..n], overlapOf, hasData);
      var r := Fold(recs, ps, overlapOf, hasData);
      FoldGrows(recs, ps[..n], overlapOf, hasData);
      FoldGrows(recs, ps, overlapOf, hasData);
      FoldOnlyPairs(recs, ps[..n], overlapOf, hasData);
      LastPairRecords(r0, ps[n].0, ps[n].1, overlapOf, hasData);
      forall p, k | 0 <= p < |recs| && |recs[p]| <= k < |r[p]|
        ensures FromPairs(ps, overlapOf, p, r[p][k])
      {
        if k < |r0[p]| {
          assert r[p][..|r0[p]|] == r0[p];
          assert r[p][k] == r0[p][k];
          var x :| 0 <= x < n && PairRecord(ps[..n][x].0, ps[..n][x].1, overlapOf, p, r0[p][k]);
          assert ps[..n][x] == ps[x];
        } else {
          assert PairRecord(ps[n].0, ps[n].1, overlapOf, p, r[p][k]);
        }
      }
    }
  }

  /* ---------- the three loops of checkCollisions ---------- */

  predicate InRange(bucket: seq<ObjId>, n: nat) {
    forall k | 0 <= k < |bucket| :: bucket[k] < n
  }

  /** The inner loop up to (excluding) j: bucket[i] against bucket[i+1..j]. */
  function RowFold(r: seq<seq<CollisionData>>, bucket: seq<ObjId>, i: nat, j: nat,
                   overlapOf: (ObjId, ObjId) -> Option<Vec2>,
                   hasData: (seq<CollisionData>, ObjId) -> bool): (out: seq<seq<CollisionData>>)
    requires i < j <= |bucket| && InRange(bucket, |r|)
    ensures |out| == |r|
    decreases j
  {
    if j == i + 1 then r
    else HandlePair(RowFold(r, bucket, i, j - 1, overlapOf, hasData), bucket[i], bucket[j - 1], overlapOf, hasData)
  }

  /** The middle loop up to (excluding) row m. */
  function BucketFold(r: seq<seq<CollisionData>>, bucket: seq<ObjId>, m: nat,
                      overlapOf: (ObjId, ObjId) -> Option<Vec2>,
                      hasData: (seq<CollisionData>, ObjId) -> bool): (out: seq<seq<CollisionData>>)
    requires m <= |bucket| && InRange(bucket, |r|)
    ensures |out| == |r|
  {
    if m == 0 then r
    else RowFold(BucketFold(r, bucket, m - 1, overlapOf, hasData), bucket, m - 1, |bucket|, overlapOf, hasData)
  }

  /** The outer loops up to (excluding) bucket b. */
  function BucketsFold(r: seq<seq<CollisionData>>, buckets: seq<seq<ObjId>>, b: nat,
                       overlapOf: (ObjId, ObjId) -> Option<Vec2>,
                       hasData: (seq<CollisionData>, ObjId) -> bool): (out: seq<seq<CollisionData>>)
    requires b <= |buckets| && forall c | 0 <= c < |buckets| :: InRange(buckets[c], |r|)
    ensures |out| == |r|
  {
    if b == 0 then r
    else BucketFold(BucketsFold(r, buckets, b - 1, overlapOf, hasData), buckets[b - 1], |buckets[b - 1]|, overlapOf, hasData)
  }

  lemma RowPairsGrow(ps: seq<(ObjId, ObjId)>, bucket: seq<ObjId>, i: nat, j: nat)
    requires i + 1 < j <= |bucket|
    ensures ps + RowPairs(bucket, i, j) == (ps + RowPairs(bucket, i, j - 1)) + [(bucket[i], bucket[j - 1])]
  {
  }

  lemma BucketPairsGrow(ps: seq<(ObjId, ObjId)>, bucket: seq<ObjId>, m: nat)
    requires 0 < m <= |bucket|
    ensures ps + BucketPairs(bucket, m) == (ps + BucketPairs(bucket, m - 1)) + RowPairs(bucket, m - 1, |bucket|)
  {
  }

  /** The inner loop handles the pairs of one row, continuing the pair fold. */
  lemma {:induction false} RowFoldIsFold(recs: seq<seq<CollisionData>>, ps: seq<(ObjId, ObjId)>, bucket: seq<ObjId>,
                                         i: nat, j: nat,
                                         overlapOf: (ObjId, ObjId) -> Option<Vec2>,
                                         hasData: (seq<CollisionData>, ObjId) -> bool)
    requires i < j <= |bucket| && InRange(bucket, |recs|)
    ensures RowFold(Fold(recs, ps, overlapOf, hasData), bucket, i, j, overlapOf, hasData)
            == Fold(recs, ps + RowPairs(bucket, i, j), overlapOf, hasData)
    decreases j
  {
    if j == i + 1 {
      assert ps + RowPairs(bucket, i, j) == ps;
    } else {
      var before := ps + RowPairs(bucket, i, j - 1);
      RowFoldIsFold(recs, ps, bucket, i, j - 1, overlapOf, hasData);
      FoldAppend(recs, before, (bucket[i], bucket[j - 1]), overlapOf, hasData);
      RowPairsGrow(ps, bucket, i, j);
    }
  }

  /** Before the first row nothing more has been handled. */
  lemma NoPairsYet(recs: seq<seq<CollisionData>>, ps: seq<(ObjId, ObjId)>, bucket: seq<ObjId>,
                   overlapOf: (ObjId, ObjId) -> Option<Vec2>,
                   hasData: (seq<CollisionData>, ObjId) -> bool)
    ensures Fold(recs, ps + BucketPairs(bucket, 0), overlapOf, hasData) == Fold(recs, ps, overlapOf, hasData)
  {
    assert ps + BucketPairs(bucket, 0) == ps;
  }

  /** One more row of the middle loop, given the rows before it. */
  lemma BucketFoldStep(recs: seq<seq<CollisionData>>, ps: seq<(ObjId, ObjId)>, bucket: seq<ObjId>, m: nat,
                       overlapOf: (ObjId, ObjId) -> Option<Vec2>,
                       hasData: (seq<CollisionData>, ObjId) -> bool)
    requires 0 < m <= |bucket| && InRange(bucket, |recs|)
    requires BucketFold(Fold(recs, ps, overlapOf, hasData), bucket, m - 1, overlapOf, hasData)
             == Fold(recs, ps + BucketPairs(bucket, m - 1), overlapOf, hasData)
    ensures BucketFold(Fold(recs, ps, overlapOf, hasData), bucket, m, overlapOf, hasData)
            == Fold(recs, ps + BucketPairs(bucket, m), overlapOf, hasData)
  {
    var before := ps + BucketPairs(bucket, m - 1);
    var x := BucketFold(Fold(recs, ps, overlapOf, hasData), bucket, m - 1, overlapOf, hasData);
    assert BucketFold(Fold(recs, ps, overlapOf, hasData), bucket, m, overlapOf, hasData)
           == RowFold(x, bucket, m - 1, |bucket|, overlapOf, hasData);
    RowFoldIsFold(recs, before, bucket, m - 1, |bucket|, overlapOf, hasData);
    BucketPairsGrow(ps, bucket, m);
  }

  /** The middle loop handles the pairs of one bucket, continuing the pair fold. */
  lemma {:induction false} BucketFoldIsFold(recs: seq<seq<CollisionData>>, ps: seq<(ObjId, ObjId)>, bucket: seq<ObjId>,
                                            m: nat,
                                            overlapOf: (ObjId, ObjId) -> Option<Vec2>,
                                            hasData: (seq<CollisionData>, ObjId) -> bool)
    requires m <= |bucket| && InRange(bucket, |recs|)
    ensures BucketFold(Fold(recs, ps, overlapOf, hasData), bucket, m, overlapOf, hasData)
            == Fold(recs, ps + BucketPairs(bucket, m), overlapOf, hasData)
  {
    if m == 0 {
      NoPairsYet(recs, ps, bucket, overlapOf, hasData);
    } else {
      BucketFoldIsFold(recs, ps, bucket, m - 1, overlapOf, hasData);
      BucketFoldStep(recs, ps, bucket, m, overlapOf, hasData);
    }
  }

  /** The loops of `checkCollisions` compute the pair fold over the pairs they visit. */
  lemma {:induction false} BucketsFoldIsFold(recs: seq<seq<CollisionData>>, buckets: seq<seq<ObjId>>, b: nat,
                                             overlapOf: (ObjId, ObjId) -> Option<Vec2>,
                                             hasData: (seq<CollisionData>, ObjId) -> bool)
    requires b <= |buckets| && forall c | 0 <= c < |buckets| :: InRange(buckets[c], |recs|)
    ensures BucketsFold(recs, buckets, b, overlapOf, hasData) == Fold(recs, AllPairs(buckets, b), overlapOf, hasData)
  {
    if b > 0 {
      BucketsFoldIsFold(recs, buckets, b - 1, overlapOf, hasData);
      BucketFoldIsFold(recs, AllPairs(buckets, b - 1), buckets[b - 1], |buckets[b - 1]|, overlapOf, hasData);
    }
  }

  /** Every overlapping pair i < j of a bucket ends with both objects naming each other. */
  predicate BucketsCovered(r: seq<seq<CollisionData>>, buckets: seq<seq<ObjId>>, overlapOf: (ObjId, ObjId) -> Option<Vec2>) {
    forall b, i, j | 0 <= b < |buckets| && 0 <= i < j < |buckets[b]| && overlapOf(buckets[b][i], buckets[b][j]).Some? ::
      Covered(r, buckets[b][i], buckets[b][j])
  }

  /** Every record added is one of the two records of an overlapping bucket pair. */
  predicate FromBuckets(recs: seq<seq<CollisionData>>, r: seq<seq<CollisionData>>, buckets: seq<seq<ObjId>>,
                        overlapOf: (ObjId, ObjId) -> Option<Vec2>)
    requires |r| == |recs|
  {
    forall p, k | 0 <= p < |recs| && |recs[p]| <= k < |r[p]| :: FromBucketPair(buckets, overlapOf, p, r[p][k])
  }

  /** Folding over the pairs of the buckets covers every overlapping bucket pair. */
  lemma FoldCoversBuckets(recs: seq<seq<CollisionData>>, buckets: seq<seq<ObjId>>,
                          overlapOf: (ObjId, ObjId) -> Option<Vec2>,
                          hasData: (seq<CollisionData>, ObjId) -> bool)
    requires forall c | 0 <= c < |buckets| :: InRange(buckets[c], |recs|)
    requires Mirrored(recs) && HasDataExact(hasData)
    ensures BucketsCovered(Fold(recs, AllPairs(buckets, |buckets|), overlapOf, hasData), buckets, overlapOf)
  {
    var ps := AllPairs(buckets, |buckets|);
    var r := Fold(recs, ps, overlapOf, hasData);
    AllPairsIn(buckets, |recs|);
    AllPairsExact(buckets, |buckets|);
    FoldCovers(recs, ps, overlapOf, hasData);
    forall b, i, j | 0 <= b < |buckets| && 0 <= i < j < |buckets[b]| && overlapOf(buckets[b][i], buckets[b][j]).Some?
      ensures Covered(r, buckets[b][i], buckets[b][j])
    {
      assert (buckets[b][i], buckets[b][j]) in ps;
      var k :| 0 <= k < |ps| && ps[k] == (buckets[b][i], buckets[b][j]);
    }
  }

  /** Folding over the pairs of the buckets adds only records of overlapping bucket pairs. */
  lemma FoldFromBuckets(recs: seq<seq<CollisionData>>, buckets: seq<seq<ObjId>>,
                        overlapOf: (ObjId, ObjId) -> Option<Vec2>,
                        hasData: (seq<CollisionData>, ObjId) -> bool)
    requires forall c | 0 <= c < |buckets| :: InRange(buckets[c], |recs|)
    ensures FromBuckets(recs, Fold(recs, AllPairs(buckets, |buckets|), overlapOf, hasData), buckets, overlapOf)
  {
    var ps := AllPairs(buckets, |buckets|);
    var r := Fold(recs, ps, overlapOf, hasData);
    AllPairsIn(buckets, |recs|);
    AllPairsExact(buckets, |buckets|);
    FoldOnlyPairs(recs, ps, overlapOf, hasData);
    forall p, k | 0 <= p < |recs| && |recs[p]| <= k < |r[p]|
      ensures FromBucketPair(buckets, overlapOf, p, r[p][k])
    {
      var x :| 0 <= x < |ps| && PairRecord(ps[x].0, ps[x].1, overlapOf, p, r[p][k]);
      assert ps[x] in ps;
      var c, i, j :| 0 <= c < |buckets| && 0 <= i < j < |buckets[c]| && ps[x] == (buckets[c][i], buckets[c][j]);
    }
  }

  /** The inner loop of `checkCollisions`: bucket[i] against every later
      object of the bucket. */
  method HandleRow(r0: seq<seq<CollisionData>>, bucket: seq<ObjId>, i: nat,
                   overlapOf: (ObjId, ObjId) -> Option<Vec2>,
                   hasData: (seq<CollisionData>, ObjId) -> bool) returns (r: seq<seq<CollisionData>>)
    requires i < |bucket| && InRange(bucket, |r0|)
    ensures r == RowFold(r0, bucket, i, |bucket|, overlapOf, hasData)
  {
    r := r0;
    var j := i + 1;
    while j < |bucket|
      invariant i + 1 <= j <= |bucket|
      invariant r == RowFold(r0, bucket, i, j, overlapOf, hasData)
    {
      r := HandlePair(r, bucket[i], bucket[j], overlapOf, hasData);
      j := j + 1;
    }
  }

  /** The middle loop of `checkCollisions`: every row of one bucket. The last
      object starts no row (`i < length - 1`); its row would hold no pair. */
  method HandleBucket(r0: seq<seq<CollisionData>>, bucket: seq<ObjId>,
                      overlapOf: (ObjId, ObjId) -> Option<Vec2>,
                      hasData: (seq<CollisionData>, ObjId) -> bool) returns (r: seq<seq<CollisionData>>)
    requires InRange(bucket, |r0|)
    ensures r == BucketFold(r0, bucket, |bucket|, overlapOf, hasData)
  {
    r := r0;
    var i := 0;
    while i + 1 < |bucket|
      invariant 0 <= i <= |bucket|
      invariant |bucket| > 0 ==> i < |bucket|
      invariant r == BucketFold(r0, bucket, i, overlapOf, hasData)
    {
      r := HandleRow(r, bucket, i, overlapOf, hasData);
      i := i + 1;
    }
    if |bucket| > 0 {
      assert BucketFold(r0, bucket, i + 1, overlapOf, hasData) == r;
    }
  }

  /** `checkCollisions`: every bucket in row-major order, every pair i < j in
      it, in order. Records only grow and stay mirrored; when
      `hasCollisionDataFor` is a lookup of the records, every overlapping pair
      of a bucket ends with each object holding a record naming the other; and
      every record added is one of the two records of an overlapping pair. */
  method CheckCollisions(buckets: seq<seq<ObjId>>, recs: seq<seq<CollisionData>>,
                         overlapOf: (ObjId, ObjId) -> Option<Vec2>,
                         hasData: (seq<CollisionData>, ObjId) -> bool) returns (r: seq<seq<CollisionData>>)
    requires forall c | 0 <= c < |buckets| :: InRange(buckets[c], |recs|)
    ensures PairsIn(AllPairs(buckets, |buckets|), |recs|)
    ensures r == Fold(recs, AllPairs(buckets, |buckets|), overlapOf, hasData)
    ensures Grows(recs, r)
    ensures Mirrored(recs) ==> Mirrored(r)
    ensures Mirrored(recs) && HasDataExact(hasData) ==>
              forall b, i, j | 0 <= b < |buckets| && 0 <= i < j < |buckets[b]|
                             && overlapOf(buckets[b][i], buckets[b][j]).Some? ::
                Covered(r, buckets[b][i], buckets[b][j])
    ensures forall p, k | 0 <= p < |recs| && |recs[p]| <= k < |r[p]| :: FromBucketPair(buckets, overlapOf, p, r[p][k])
  {
    r := recs;
    var b := 0;
    while b < |buckets|
      invariant 0 <= b <= |buckets|
      invariant r == BucketsFold(recs, buckets, b, overlapOf, hasData)
    {
      r := HandleBucket(r, buckets[b], overlapOf, hasData);
      b := b + 1;
    }
    BucketsFoldIsFold(recs, buckets, |buckets|, overlapOf, hasData);
    AllPairsIn(buckets, |recs|);
    FoldGrows(recs, AllPairs(buckets, |buckets|), overlapOf, hasData);
    if Mirrored(recs) {
      FoldMirrored(recs, AllPairs(buckets, |buckets|), overlapOf, hasData);
      if HasDataExact(hasData) {
        FoldCoversBuckets(recs, buckets, overlapOf, hasData);
      }
    }
    FoldFromBuckets(recs, buckets, overlapOf, hasData);
  }
}

=== FILE: atlas.dfy ===
/** `scripts/object/atlas.js`: the guillotine packer that places images in a
    128 x 128 texture atlas (`findNode`, `splitNode`) and the bookkeeping of
    `buildAtlas` (width order, rotation, y flip, "Atlas is full"). */
module Atlas {
  import opened Wrappers

  const AtlasSize: int := 128
  const Padding: nat := 1

  /** The region [x, x + w) x [y, y + h); empty when w <= 0 or h <= 0. */
  datatype Rect = Rect(x: int, y: int, w: int, h: int)

  /** A free node, or a used one with the two children `splitNode` gave it. */
  datatype Node = Free(r: Rect) | Used(r: Rect, first: Node, second: Node)

  const Whole := Rect(0, 0, AtlasSize, AtlasSize)

  /* ---------- regions ---------- */

  predicate IsEmpty(a: Rect) { a.w <= 0 || a.h <= 0 }

  predicate Disjoint(a: Rect, b: Rect) {
    IsEmpty(a) || IsEmpty(b)
    || a.x + a.w <= b.x || b.x + b.w <= a.x || a.y + a.h <= b.y || b.y + b.h <= a.y
  }

  predicate Within(a: Rect, outer: Rect) {
    IsEmpty(a)
    || (outer.x <= a.x && a.x + a.w <= outer.x + outer.w && outer.y <= a.y && a.y + a.h <= outer.y + outer.h)
  }

  lemma WithinDisjoint(a: Rect, outer: Rect, b: Rect)
    requires Within(a, outer) && Disjoint(outer, b)
    ensures Disjoint(a, b) && Disjoint(b, a)
  {
  }

  lemma WithinTransitive(a: Rect, b: Rect, c: Rect)
    requires Within(a, b) && Within(b, c)
    ensures Within(a, c)
  {
  }

  predicate PairwiseDisjoint(s: seq<Rect>) {
    forall i, j | 0 <= i < j < |s| :: Disjoint(s[i], s[j])
  }

  /* ---------- the tree ---------- */

  predicate Fits(r: Rect, w: int, h: int) { w <= r.w && h <= r.h }

  /** The region a w x h image takes in the top-left corner of r. */
  function Placed(r: Rect, w: int, h: int): Rect { Rect(r.x, r.y, w, h) }

  /** The two free children `splitNode` creates: right of the image (as tall as
      the image) and below it (as wide as the node), both past the padding. */
  function Children(r: Rect, w: int, h: int, pad: int): seq<Rect> {
    [Rect(r.x + w + pad, r.y, r.w - w - pad, h), Rect(r.x, r.y + h + pad, r.w, r.h - h - pad)]
  }

  /** The free nodes of a tree in the order `findNode` visits them. */
  function FreeRects(t: Node): seq<Rect> {
    match t
    case Free(r) => [r]
    case Used(_, a, b) => FreeRects(a) + FreeRects(b)
  }

  /** `splitNode`: the node becomes used, with two free children. */
  function SplitNode(r: Rect, w: int, h: int, pad: int): (n: Node)
    ensures n.Used? && n.r == r && FreeRects(n) == Children(r, w, h, pad)
  {
    Used(r, Free(Children(r, w, h, pad)[0]), Free(Children(r, w, h, pad)[1]))
  }

  /** For an image that fits, the image and the two children are pairwise
      disjoint and all lie inside the split node. */
  lemma SplitPieces(r: Rect, w: nat, h: nat, pad: nat)
    requires Fits(r, w, h)
    ensures Within(Placed(r, w, h), r)
    ensures Within(Children(r, w, h, pad)[0], r) && Within(Children(r, w, h, pad)[1], r)
    ensures Disjoint(Children(r, w, h, pad)[0], Placed(r, w, h))
    ensures Disjoint(Children(r, w, h, pad)[1], Placed(r, w, h))
    ensures Disjoint(Children(r, w, h, pad)[0], Children(r, w, h, pad)[1])
  {
  }

  /** The index of the first rectangle a w x h image fits in, |rs| if none. */
  function FirstFit(rs: seq<Rect>, w: int, h: int): (i: nat)
    ensures i <= |rs|
    ensures i < |rs| ==> Fits(rs[i], w, h)
    ensures forall j | 0 <= j < i :: !Fits(rs[j], w, h)
    decreases |rs|
  {
    if |rs| == 0 then 0
    else if Fits(rs[0], w, h) then 0
    else 1 + FirstFit(rs[1..], w, h)
  }

  lemma {:induction false} FirstFitAppend(a: seq<Rect>, b: seq<Rect>, w: int, h: int)
    ensures FirstFit(a + b, w, h) == if FirstFit(a, w, h) < |a| then FirstFit(a, w, h) else |a| + FirstFit(b, w, h)
    decreases |a|
  {
    if |a| == 0 {
      assert a + b == b;
    } else {
      assert (a + b)[0] == a[0];
      assert (a + b)[1..] == a[1..] + b;
      if !Fits(a[0], w, h) {
        FirstFitAppend(a[1..], b, w, h);
      }
    }
  }

  /** `findNode`: splits and returns the first free node, first child before
      second, that a w x h image fits in; `None` stands for `null`. */
  function FindNode(t: Node, w: int, h: int, pad: int): (res: (Node, Option<Rect>))
    ensures res.1.Some? ==> Fits(res.1.value, w, h)
  {
    match t
    case Free(r) =>
      if w <= r.w && h <= r.h then (SplitNode(r, w, h, pad), Some(r)) else (t, None)
    case Used(r, a, b) =>
      var (a', found) := FindNode(a, w, h, pad);
      if found.Some? then (Used(r, a', b), found)
      else
        var (b', found') := FindNode(b, w, h, pad);
        (Used(r, a, b'), found')
  }

  /** The first-fit characterisation of `findNode` on a tree t. */
  predicate FirstFitResult(t: Node, w: int, h: int, pad: int, res: (Node, Option<Rect>)) {
    var rs := FreeRects(t);
    var i := FirstFit(rs, w, h);
    && (res.1.None? <==> i == |rs|)
    && (res.1.None? ==> res.0 == t)
    && (res.1.Some? ==> i < |rs| && res.1.value == rs[i]
                        && FreeRects(res.0) == rs[..i] + Children(rs[i], w, h, pad) + rs[i + 1..])
  }

  /** `findNode` is first fit over the free nodes in visiting order: it finds
      nothing exactly when no free node fits, and then leaves the tree as it
      was; otherwise it returns the first free node that fits, and that node is
      replaced by its two children. */
  lemma {:induction false} FindNodeFirstFit(t: Node, w: int, h: int, pad: int)
    ensures FirstFitResult(t, w, h, pad, FindNode(t, w, h, pad))
  {
    match t
    case Free(r) =>
    case Used(r, a, b) =>
      FindNodeFirstFit(a, w, h, pad);
      FindNodeFirstFit(b, w, h, pad);
      if FindNode(a, w, h, pad).1.Some? {
        FoundInFirst(r, a, b, w, h, pad);
      } else {
        FoundInSecond(r, a, b, w, h, pad);
      }
  }

  /** Splicing pieces into the first part of a concatenation. */
  lemma SpliceFirst(ra: seq<Rect>, rb: seq<Rect>, i: int, kids: seq<Rect>)
    requires 0 <= i < |ra|
    ensures (ra + rb)[i] == ra[i]
    ensures (ra + rb)[..i] + kids + (ra + rb)[i + 1..] == (ra[..i] + kids + ra[i + 1..]) + rb
  {
  }

  /** Splicing pieces into the second part of a concatenation. */
  lemma SpliceSecond(ra: seq<Rect>, rb: seq<Rect>, i: int, kids: seq<Rect>)
    requires 0 <= i < |rb|
    ensures (ra + rb)[|ra| + i] == rb[i]
    ensures (ra + rb)[..|ra| + i] + kids + (ra + rb)[|ra| + i + 1..] == ra + (rb[..i] + kids + rb[i + 1..])
  {
  }

  lemma FoundInFirst(r: Rect, a: Node, b: Node, w: int, h: int, pad: int)
    requires FirstFitResult(a, w, h, pad, FindNode(a, w, h, pad)) && FindNode(a, w, h, pad).1.Some?
    ensures FirstFitResult(Used(r, a, b), w, h, pad, FindNode(Used(r, a, b), w, h, pad))
  {
    var resA := FindNode(a, w, h, pad);
    CombineFirst(r, a, b, w, h, pad, resA);
    assert FindNode(Used(r, a, b), w, h, pad) == (Used(r, resA.0, b), resA.1);
  }

  /** The first child's search succeeded: its result is the whole tree's. */
  lemma CombineFirst(r: Rect, a: Node, b: Node, w: int, h: int, pad: int, resA: (Node, Option<Rect>))
    requires FirstFitResult(a, w, h, pad, resA) && resA.1.Some?
    ensures FirstFitResult(Used(r, a, b), w, h, pad, (Used(r, resA.0, b), resA.1))
  {
    var ra, rb := FreeRects(a), FreeRects(b);
    FirstFitAppend(ra, rb, w, h);
    var ia := FirstFit(ra, w, h);
    SpliceFirst(ra, rb, ia, Children(ra[ia], w, h, pad));
  }

  lemma FoundInSecond(r: Rect, a: Node, b: Node, w: int, h: int, pad: int)
    requires FirstFitResult(a, w, h, pad, FindNode(a, w, h, pad)) && FindNode(a, w, h, pad).1.None?
    requires FirstFitResult(b, w, h, pad, FindNode(b, w, h, pad))
    ensures FirstFitResult(Used(r, a, b), w, h, pad, FindNode(Used(r, a, b), w, h, pad))
  {
    var resA, resB := FindNode(a, w, h, pad), FindNode(b, w, h, pad);
    CombineSecond(r, a, b, w, h, pad, resA, resB);
    assert FindNode(Used(r, a, b), w, h, pad) == (Used(r, a, resB.0), resB.1);
  }

  /** The first child's search failed: the second child's result, after the
      first child's free nodes, is the whole tree's. */
  lemma CombineSecond(r: Rect, a: Node, b: Node, w: int, h: int, pad: int,
                      resA: (Node, Option<Rect>), resB: (Node, Option<Rect>))
    requires FirstFitResult(a, w, h, pad, resA) && resA.1.None?
    requires FirstFitResult(b, w, h, pad, resB)
    ensures FirstFitResult(Used(r, a, b), w, h, pad, (Used(r, a, resB.0), resB.1))
  {
    var ra, rb := FreeRects(a), FreeRects(b);
    FirstFitAppend(ra, rb, w, h);
    var ib := FirstFit(rb, w, h);
    if ib < |rb| {
      SpliceSecond(ra, rb, ib, Children(rb[ib], w, h, pad));
    }
  }

  /** A used node never reads its own size again, so `buildAtlas` resizing a
      returned node (for a rotated image) does not change later searches. */
  lemma UsedSizeIrrelevant(r: Rect, r': Rect, a: Node, b: Node, w: int, h: int, pad: int)
    ensures FindNode(Used(r, a, b), w, h, pad).1 == FindNode(Used(r', a, b), w, h, pad).1
  {
  }

  /* ---------- packing invariant ---------- */

  /** The free nodes and the placed images are pairwise disjoint regions of the
      atlas. */
  predicate Packed(t: Node, placed: seq<Rect>) {
    PairwiseDisjoint(FreeRects(t) + placed)
    && forall k | 0 <= k < |FreeRects(t) + placed| :: Within((FreeRects(t) + placed)[k], Whole)
  }

  /** Replacing element i of a pairwise-disjoint sequence by pieces of it that
      are pairwise disjoint, and adding one more piece at the end, keeps the
      sequence pairwise disjoint. */
  lemma {:induction false} Refine(s: seq<Rect>, i: nat, c0: Rect, c1: Rect, p: Rect)
    requires i < |s| && PairwiseDisjoint(s)
    requires Within(c0, s[i]) && Within(c1, s[i]) && Within(p, s[i])
    requires Disjoint(c0, c1) && Disjoint(c0, p) && Disjoint(c1, p)
    ensures PairwiseDisjoint(s[..i] + [c0, c1] + s[i + 1..] + [p])
  {
    var s' := s[..i] + [c0, c1] + s[i + 1..] + [p];
    assert |s'| == |s| + 2;
    forall a, b | 0 <= a < b < |s'|
      ensures Disjoint(s'[a], s'[b])
    {
      if a < i {
        assert s'[a] == s[a];
        if b < i {
          assert s'[b] == s[b];
        } else if b == i {
          WithinDisjoint(c0, s[i], s[a]);
        } else if b == i + 1 {
          WithinDisjoint(c1, s[i], s[a]);
        } else if b < |s'| - 1 {
          assert s'[b] == s[b - 1];
        } else {
          WithinDisjoint(p, s[i], s[a]);
        }
      } else if a == i {
        if b == i + 1 {
        } else if b < |s'| - 1 {
          assert s'[b] == s[b - 1];
          WithinDisjoint(c0, s[i], s[b - 1]);
        } else {
        }
      } else if a == i + 1 {
        if b < |s'| - 1 {
          assert s'[b] == s[b - 1];
          WithinDisjoint(c1, s[i], s[b - 1]);
        } else {
        }
      } else {
        assert s'[a] == s[a - 1];
        if b < |s'| - 1 {
          assert s'[b] == s[b - 1];
        } else {
          WithinDisjoint(p, s[i], s[a - 1]);
        }
      }
    }
  }

  /** Placing an image with `findNode` keeps the packing invariant: the new free
      nodes and the new image are disjoint from each other and from everything
      placed before. */
  lemma FindKeepsPacked(t: Node, placed: seq<Rect>, w: nat, h: nat)
    requires Packed(t, placed)
    requires FindNode(t, w, h, Padding).1.Some?
    ensures Packed(FindNode(t, w, h, Padding).0, placed + [Placed(FindNode(t, w, h, Padding).1.value, w, h)])
  {
    FindNodeFirstFit(t, w, h, Padding);
    var (t', found) := FindNode(t, w, h, Padding);
    var rs := FreeRects(t);
    var i := FirstFit(rs, w, h);
    var r := rs[i];
    var c := Children(r, w, h, Padding);
    var p := Placed(r, w, h);
    var s := rs + placed;
    assert s[i] == r;
    SplitPieces(r, w, h, Padding);
    Refine(s, i, c[0], c[1], p);
    var s' := FreeRects(t') + (placed + [p]);
    assert s' == s[..i] + [c[0], c[1]] + s[i + 1..] + [p] by {
      assert s[..i] == rs[..i];
      assert s[i + 1..] == rs[i + 1..] + placed;
      assert c == [c[0], c[1]];
    }
    assert Within(r, Whole);
    WithinTransitive(c[0], r, Whole);
    WithinTransitive(c[1], r, Whole);
    WithinTransitive(p, r, Whole);
    forall k | 0 <= k < |s'|
      ensures Within(s'[k], Whole)
    {
      if k < i {
        assert s'[k] == s[k];
      } else if k < i + 2 {
      } else if k < |s'| - 1 {
        assert s'[k] == s[k - 1];
      }
    }
  }

  /* ---------- buildAtlas ---------- */

  datatype Image = Image(name: string, width: nat, height: nat)

  /** An `atlasData` entry: the rectangle in the flipped (bottom-up) y axis and
      whether the image was placed turned by 90 degrees. */
  datatype Entry = Entry(x: int, y: int, width: int, height: int, rotated: bool)

  /** The y flip of a region: y measured from the bottom of the atlas. */
  function Flip(a: Rect): Rect { Rect(a.x, AtlasSize - a.y - a.h, a.w, a.h) }

  function EntryRect(e: Entry): Rect { Rect(e.x, e.y, e.width, e.height) }

  lemma FlipPreserves(a: Rect, b: Rect)
    ensures Disjoint(Flip(a), Flip(b)) == Disjoint(a, b)
    ensures Within(Flip(a), Whole) == Within(a, Whole)
    ensures Flip(Flip(a)) == a
  {
  }

  predicate WidthOrdered(s: seq<Image>) {
    forall i, j | 0 <= i < j < |s| :: s[i].width >= s[j].width
  }

  /** Stable insertion of one image before the first that is not wider. */
  function Insert(x: Image, s: seq<Image>): (r: seq<Image>)
    requires WidthOrdered(s)
    ensures WidthOrdered(r) && multiset(r) == multiset(s) + multiset{x}
    ensures |r| == |s| + 1 && (r[0] == x || (|s| > 0 && r[0] == s[0]))
    decreases |s|
  {
    if |s| == 0 || s[0].width <= x.width then [x] + s
    else
      var rest := Insert(x, s[1..]);
      assert s == [s[0]] + s[1..];
      assert rest[0].width <= s[0].width;
      [s[0]] + rest
  }

  /** `images.sort((a, b) => b.width - a.width)`: widest first, keeping the
      order of equally wide images. */
  function SortByWidth(s: seq<Image>): (r: seq<Image>)
    ensures WidthOrdered(r) && multiset(r) == multiset(s)
    decreases |s|
  {
    if |s| == 0 then []
    else
      assert s == [s[0]] + s[1..];
      Insert(s[0], SortByWidth(s[1..]))
  }

  /** Where one image goes: tried as w x h first, then as h x w (rotated). The
      recorded entry is the region in flipped y, with the rotated image's width
      and height swapped. */
  function PlaceOne(root: Node, img: Image): (res: Option<(Node, Rect, Entry)>)
    ensures res.None? <==> FindNode(root, img.width, img.height, Padding).1.None?
                           && FindNode(root, img.height, img.width, Padding).1.None?
    ensures res.Some? ==>
      var (t, region, e) := res.value;
      var straight := FindNode(root, img.width, img.height, Padding);
      && (straight.1.Some? ==> !e.rotated && t == straight.0
                               && region == Placed(straight.1.value, img.width, img.height))
      && (straight.1.None? ==> e.rotated
                               && t == FindNode(root, img.height, img.width, Padding).0
                               && region == Placed(FindNode(root, img.height, img.width, Padding).1.value, img.height, img.width))
      && EntryRect(e) == Flip(region)
      && (e.rotated ==> e.width == img.height && e.height == img.width)
      && (!e.rotated ==> e.width == img.width && e.height == img.height)
  {
    var (t, n) := FindNode(root, img.width, img.height, Padding);
    if n.Some? then
      var e := Entry(n.value.x, AtlasSize - n.value.y - img.height, img.width, img.height, false);
      Some((t, Placed(n.value, img.width, img.height), e))
    else
      var (t', n') := FindNode(root, img.height, img.width, Padding);
      if n'.Some? then
        var e := Entry(n'.value.x, AtlasSize - n'.value.y - img.width, img.height, img.width, true);
        Some((t', Placed(n'.value, img.height, img.width), e))
      else None
  }

  /** The entry records the image's size, swapped when it was rotated. */
  predicate Records(e: Entry, img: Image) {
    if e.rotated then e.width == img.height && e.height == img.width
    else e.width == img.width && e.height == img.height
  }

  function Names(s: seq<Image>, i: nat): set<string>
    requires i <= |s|
  {
    set k | 0 <= k < i :: s[k].name
  }

  lemma NamesStep(s: seq<Image>, i: nat)
    requires i < |s|
    ensures Names(s, i + 1) == Names(s, i) + {s[i].name}
  {
    assert s[i].name in Names(s, i + 1);
  }

  /** The packing loop as a fold: each image in turn placed with `PlaceOne`
      on the tree the earlier ones left, its entry stored under its name; no
      value once an image finds no room. */
  function PackFold(images: seq<Image>): Option<(Node, map<string, Entry>)>
    decreases |images|
  {
    if |images| == 0 then Some((Free(Whole), map[]))
    else
      match PackFold(images[..|images| - 1])
      case None => None
      case Some((root, data)) =>
        var img := images[|images| - 1];
        match PlaceOne(root, img)
        case None => None
        case Some((t, _, e)) => Some((t, data[img.name := e]))
  }

  /** Once an image finds no room the whole fold fails. */
  lemma {:induction false} PackFoldStaysFull(images: seq<Image>, j: nat)
    requires j <= |images| && PackFold(images[..j]).None?
    ensures PackFold(images).None?
    decreases |images| - j
  {
    if j < |images| {
      var s := images[..j + 1];
      assert s[..|s| - 1] == images[..j];
      assert PackFold(s).None?;
      PackFoldStaysFull(images, j + 1);
    } else {
      assert images[..j] == images;
    }
  }

  /** Image k finds no room on the tree the images before it left. */
  predicate FullAt(images: seq<Image>, k: nat)
    requires k < |images|
  {
    PackFold(images[..k]).Some? && PlaceOne(PackFold(images[..k]).value.0, images[k]).None?
  }

  /** The prefixes of the images without the last one are its own prefixes. */
  lemma FullAtInit(images: seq<Image>, k: nat)
    requires k < |images| - 1
    ensures FullAt(images[..|images| - 1], k) == FullAt(images, k)
  {
    var init := images[..|images| - 1];
    assert init[..k] == images[..k] && init[k] == images[k];
  }

  /** A failing fold has an image that found no room. */
  lemma {:induction false} PackFoldFullWitness(images: seq<Image>)
    requires PackFold(images).None?
    ensures exists k | 0 <= k < |images| :: FullAt(images, k)
    decreases |images|
  {
    var n := |images| - 1;
    var init := images[..n];
    if PackFold(init).None? {
      PackFoldFullWitness(init);
      var k :| 0 <= k < |init| && FullAt(init, k);
      FullAtInit(images, k);
    } else {
      assert FullAt(images, n);
    }
  }

  /** A succeeding fold has no image that found no room. */
  lemma {:induction false} PackFoldNoFull(images: seq<Image>, k: nat)
    requires PackFold(images).Some? && k < |images|
    ensures !FullAt(images, k)
    decreases |images|
  {
    var n := |images| - 1;
    if k < n {
      PackFoldNoFull(images[..n], k);
      FullAtInit(images, k);
    }
  }

  /** The fold fails exactly when some image finds no room on the tree the
      images before it left. */
  lemma PackFoldFullAt(images: seq<Image>)
    ensures PackFold(images).None? <==> exists k | 0 <= k < |images| :: FullAt(images, k)
  {
    if PackFold(images).None? {
      PackFoldFullWitness(images);
    } else {
      forall k | 0 <= k < |images| ensures !FullAt(images, k) {
        PackFoldNoFull(images, k);
      }
    }
  }

  /** One more image: the fold of the longer prefix places it on the tree
      the shorter one left. */
  lemma PackFoldStep(images: seq<Image>, i: nat, root: Node, data: map<string, Entry>)
    requires i < |images| && PackFold(images[..i]) == Some((root, data))
    ensures PlaceOne(root, images[i]).None? ==> PackFold(images[..i + 1]).None? && FullAt(images, i)
    ensures PlaceOne(root, images[i]).Some? ==>
              PackFold(images[..i + 1])
              == Some((PlaceOne(root, images[i]).value.0, data[images[i].name := PlaceOne(root, images[i]).value.2]))
  {
    assert images[..i + 1][..i] == images[..i];
  }

  /** What the packing loop keeps after i images: the placements are packed,
      and each name's entry records the last image of that name so far and is
      the flipped placement of that image. */
  ghost predicate PackInv(images: seq<Image>, i: nat, root: Node, placed: seq<Rect>,
                          data: map<string, Entry>, origin: map<string, nat>) {
    && i <= |images| && |placed| == i
    && Packed(root, placed)
    && data.Keys == Names(images, i) && origin.Keys == data.Keys
    && (forall n | n in data :: origin[n] < i && images[origin[n]].name == n)
    && (forall n | n in data :: EntryRect(data[n]) == Flip(placed[origin[n]]))
    && (forall n | n in data :: Records(data[n], images[origin[n]]))
  }

  /** Placing one image keeps the packing and records its entry. */
  lemma PlaceKeepsPacked(root: Node, placed: seq<Rect>, img: Image, t: Node, region: Rect, e: Entry)
    requires Packed(root, placed) && PlaceOne(root, img) == Some((t, region, e))
    ensures Packed(t, placed + [region]) && EntryRect(e) == Flip(region) && Records(e, img)
  {
    if e.rotated {
      FindKeepsPacked(root, placed, img.height, img.width);
    } else {
      FindKeepsPacked(root, placed, img.width, img.height);
    }
  }

  /** Placing image i keeps the loop's facts. */
  lemma PackInvStep(images: seq<Image>, i: nat, root: Node, placed: seq<Rect>,
                    data: map<string, Entry>, origin: map<string, nat>, t: Node, region: Rect, e: Entry)
    requires PackInv(images, i, root, placed, data, origin) && i < |images|
    requires PlaceOne(root, images[i]) == Some((t, region, e))
    ensures PackInv(images, i + 1, t, placed + [region], data[images[i].name := e], origin[images[i].name := i])
  {
    var img := images[i];
    PlaceKeepsPacked(root, placed, img, t, region, e);
    NamesStep(images, i);
    var placed', data', origin' := placed + [region], data[img.name := e], origin[img.name := i];
    forall n | n in data'
      ensures origin'[n] < i + 1 && images[origin'[n]].name == n
      ensures EntryRect(data'[n]) == Flip(placed'[origin'[n]])
      ensures Records(data'[n], images[origin'[n]])
    {
      if n != img.name {
        assert placed'[origin[n]] == placed[origin[n]];
      }
    }
  }

  /** After the last image the entries are what `buildAtlas` promises. */
  lemma PackInvDone(images: seq<Image>, root: Node, placed: seq<Rect>,
                    data: map<string, Entry>, origin: map<string, nat>)
    requires PackInv(images, |images|, root, placed, data, origin)
    ensures data.Keys == Names(images, |images|)
    ensures forall n | n in data ::
              exists k | 0 <= k < |images| :: images[k].name == n && Records(data[n], images[k])
    ensures forall a, b | a in data && b in data && a != b :: Disjoint(EntryRect(data[a]), EntryRect(data[b]))
    ensures forall a | a in data :: Within(EntryRect(data[a]), Whole)
  {
    forall n | n in data
      ensures exists k | 0 <= k < |images| :: images[k].name == n && Records(data[n], images[k])
    {
      var k := origin[n];
      assert images[k].name == n && Records(data[n], images[k]);
    }
    PackedEntries(placed, data, origin, root);
  }

  /** The packing loop of `buildAtlas` over the images in the order given. It
      computes the packing fold. On success every image name has an entry
      describing one of the images of that name, and the entries are disjoint
      regions of the atlas; a later image of the same name overwrites the entry
      of an earlier one. On failure some image found no room. */
  method PackImages(images: seq<Image>) returns (r: Result<map<string, Entry>>)
    ensures r.Success? <==> PackFold(images).Some?
    ensures r.Success? ==> r.value == PackFold(images).value.1
    ensures r.Failure? ==> exists k | 0 <= k < |images| :: FullAt(images, k)
    ensures r.Failure? ==> r.error == "Atlas is full"
    ensures r.Success? ==> r.value.Keys == Names(images, |images|)
    ensures r.Success? ==> forall n | n in r.value ::
              exists k | 0 <= k < |images| :: images[k].name == n && Records(r.value[n], images[k])
    ensures r.Success? ==> forall a, b | a in r.value && b in r.value && a != b ::
                             Disjoint(EntryRect(r.value[a]), EntryRect(r.value[b]))
    ensures r.Success? ==> forall a | a in r.value :: Within(EntryRect(r.value[a]), Whole)
  {
    var root := Free(Whole);
    var placed: seq<Rect> := [];
    var data: map<string, Entry> := map[];
    ghost var origin: map<string, nat> := map[];
    var i := 0;
    while i < |images|
      invariant 0 <= i <= |images|
      invariant PackFold(images[..i]) == Some((root, data))
      invariant PackInv(images, i, root, placed, data, origin)
    {
      var img := images[i];
      var res := PlaceOne(root, img);
      PackFoldStep(images, i, root, data);
      if res.None? {
        PackFoldStaysFull(images, i + 1);
        return Failure("Atlas is full");
      }
      var (t, region, e) := res.value;
      PackInvStep(images, i, root, placed, data, origin, t, region, e);
      root, placed := t, placed + [region];
      data, origin := data[img.name := e], origin[img.name := i];
      i := i + 1;
    }
    PackInvDone(images, root, placed, data, origin);
    assert images[..|images|] == images;
    return Success(data);
  }

  /** Entries recorded for pairwise-disjoint placements are disjoint too. */
  lemma PackedEntries(placed: seq<Rect>, data: map<string, Entry>, origin: map<string, nat>, root: Node)
    requires Packed(root, placed) && origin.Keys == data.Keys
    requires forall n | n in data :: origin[n] < |placed| && EntryRect(data[n]) == Flip(placed[origin[n]])
    requires forall a, b | a in data && b in data && a != b :: origin[a] != origin[b]
    ensures forall a, b | a in data && b in data && a != b :: Disjoint(EntryRect(data[a]), EntryRect(data[b]))
    ensures forall a | a in data :: Within(EntryRect(data[a]), Whole)
  {
    var f := FreeRects(root);
    forall a, b | a in data && b in data && a != b
      ensures Disjoint(EntryRect(data[a]), EntryRect(data[b]))
    {
      var ka, kb := origin[a], origin[b];
      FlipPreserves(placed[ka], placed[kb]);
      assert (f + placed)[|f| + ka] == placed[ka];
      assert (f + placed)[|f| + kb] == placed[kb];
    }
    forall a | a in data
      ensures Within(EntryRect(data[a]), Whole)
    {
      var ka := origin[a];
      FlipPreserves(placed[ka], placed[ka]);
      assert (f + placed)[|f| + ka] == placed[ka];
    }
  }

  /** The names of a sequence depend only on its elements, not their order. */
  lemma NamesOfPermutation(s: seq<Image>, r: seq<Image>)
    requires multiset(r) == multiset(s)
    ensures Names(r, |r|) == Names(s, |s|)
  {
    forall n | n in Names(r, |r|)
      ensures n in Names(s, |s|)
    {
      var k :| 0 <= k < |r| && r[k].name == n;
      assert r[k] in multiset(s);
      var a :| 0 <= a < |s| && s[a] == r[k];
    }
    forall n | n in Names(s, |s|)
      ensures n in Names(r, |r|)
    {
      var k :| 0 <= k < |s| && s[k].name == n;
      assert s[k] in multiset(r);
      var a :| 0 <= a < |r| && r[a] == s[k];
    }
  }

  /** `buildAtlas`: the images widest first, then packed from an empty root. */
  method BuildAtlas(images: seq<Image>) returns (r: Result<map<string, Entry>>)
    ensures r.Success? <==> PackFold(SortByWidth(images)).Some?
    ensures r.Success? ==> r.value == PackFold(SortByWidth(images)).value.1
    ensures r.Failure? ==> r.error == "Atlas is full"
    ensures r.Success? ==> r.value.Keys == Names(images, |images|)
    ensures r.Success? ==> forall n | n in r.value ::
              exists k | 0 <= k < |images| :: images[k].name == n && Records(r.value[n], images[k])
    ensures r.Success? ==> forall a, b | a in r.value && b in r.value && a != b ::
                             Disjoint(EntryRect(r.value[a]), EntryRect(r.value[b]))
    ensures r.Success? ==> forall a | a in r.value :: Within(EntryRect(r.value[a]), Whole)
  {
    var sorted := SortByWidth(images);
    NamesOfPermutation(images, sorted);
    r := PackImages(sorted);
    if r.Success? {
      forall n | n in r.value
        ensures exists k | 0 <= k < |images| :: images[k].name == n && Records(r.value[n], images[k])
      {
        var k :| 0 <= k < |sorted| && sorted[k].name == n && Records(r.value[n], sorted[k]);
        assert sorted[k] in multiset(images);
        var a :| 0 <= a < |images| && images[a] == sorted[k];
      }
    }
  }
}

=== FILE: character.dfy ===
/** `scripts/object/Character.js`: the player's state machine (Stand, Walk,
    Jump, GrabLedge) driven by the held keys, followed by one physics step. */
module Characters {
  import opened Vec
  import opened Wrappers
  import opened Enums
  import opened Constants
  import opened TileMap
  import opened MovingObjects

  /** Frames during which the key towards a released ledge is ignored. */
  const LedgeLockFrames: int := 3

  datatype Character = Character(
    body: Body,
    inputs: set<KeyInput>, prevInputs: set<KeyInput>,
    state: CharacterState,
    jumpSpeed: real, walkSpeed: real,
    /** The `scale` property the state machine flips to face left or right;
        distinct from the body's `mScale`. */
    scale: Vec2,
    /** The `aabbOffset` property written by `characterInit`; distinct from
        the body's box offset, which `updatePhysics` uses. */
    aabbOffset: Vec2,
    ledgeTile: TileIndex,
    cannotGoLeftFrames: int, cannotGoRightFrames: int,
    framesFromJumpStart: int,
    onOneWayPlatform: bool)

  /** The result of the ledge search of the Jump state: the ledge tile and the
      height the character snaps to. */
  datatype Ledge = Ledge(tile: TileIndex, y: real)

  /* ---------- input edges ---------- */

  predicate KeyState(c: Character, k: KeyInput) { k in c.inputs }

  /** `pressed(k)`: held now and not in the previous frame. */
  function Pressed(c: Character, k: KeyInput): (r: bool)
    ensures r ==> KeyState(c, k)
  {
    k in c.inputs && k !in c.prevInputs
  }

  /** `released(k)`: not held now but held in the previous frame. */
  function Released(c: Character, k: KeyInput): (r: bool)
    ensures r ==> !KeyState(c, k)
  {
    k !in c.inputs && k in c.prevInputs
  }

  /** A key is never pressed and released in the same frame, and it changed
      between the frames exactly when it is one or the other. */
  lemma PressedReleasedExclusive(c: Character, k: KeyInput)
    ensures !(Pressed(c, k) && Released(c, k))
    ensures (Pressed(c, k) || Released(c, k)) <==> ((k in c.inputs) != (k in c.prevInputs))
  {
  }

  /** `updatePrevInputs`: the previous-frame set becomes a copy of the current
      one, so right afterwards no key is pressed or released. */
  function UpdatePrevInputs(c: Character): (r: Character)
    ensures r.prevInputs == c.inputs && r.inputs == c.inputs
    ensures forall k :: !Pressed(r, k) && !Released(r, k)
    ensures r.body == c.body && r.state == c.state
  {
    c.(prevInputs := c.inputs)
  }

  /* ---------- the four states ---------- */

  /** The scale keys checked before the state switch. */
  function ScaleKeys(c: Character): (r: Character)
    ensures KeyState(c, ScaleUp) ==> r.scale == Vec2(2.0, 2.0)
    ensures !KeyState(c, ScaleUp) && KeyState(c, ScaleDown) ==> r.scale == Vec2(0.5, 0.5)
    ensures !KeyState(c, ScaleUp) && !KeyState(c, ScaleDown) ==> r.scale == c.scale
    ensures r.(scale := c.scale) == c
  {
    if KeyState(c, ScaleUp) then c.(scale := Vec2(2.0, 2.0))
    else if KeyState(c, ScaleDown) then c.(scale := Vec2(0.5, 0.5))
    else c
  }

  function WithSpeed(c: Character, v: Vec2): Character { c.(body := c.body.(speed := v)) }

  /** Dropping through a one-way platform: GoDown held while standing on one. */
  function DropThrough(c: Character): (r: Character)
    ensures KeyState(c, GoDown) && c.onOneWayPlatform ==> r.body.position.y == c.body.position.y - OneWayPlatformThreshold
    ensures !(KeyState(c, GoDown) && c.onOneWayPlatform) ==> r == c
    ensures r.(body := c.body) == c
    ensures r.body.speed == c.body.speed && r.body.position.x == c.body.position.x
  {
    if KeyState(c, GoDown) && c.onOneWayPlatform
    then c.(body := c.body.(position := c.body.position.(y := c.body.position.y - OneWayPlatformThreshold)))
    else c
  }

  /** Stand: the speed is zeroed; off the ground the character falls (Jump);
      exactly one of GoRight/GoLeft starts a walk; otherwise Jump jumps. */
  function StandStep(c: Character): (r: Character)
    requires c.state == Stand
    ensures r.state != GrabLedge && r.inputs == c.inputs
    ensures r.cannotGoLeftFrames == c.cannotGoLeftFrames && r.cannotGoRightFrames == c.cannotGoRightFrames
    ensures !c.body.onGround ==> r.state == Jump && r.body.speed == Zero
    ensures c.body.onGround && KeyState(c, GoRight) != KeyState(c, GoLeft) ==>
              r.state == Walk && r.body.speed == Zero
    ensures c.body.onGround && KeyState(c, GoRight) == KeyState(c, GoLeft) && KeyState(c, JumpKey) ==>
              r.state == Jump && r.body.speed == Vec2(0.0, c.jumpSpeed)
    ensures r.state == Stand ==> r.body.speed == Zero && r.body.position.x == c.body.position.x
  {
    var c0 := WithSpeed(c, Zero);
    if !c.body.onGround then c0.(state := Jump)
    else if KeyState(c, GoRight) != KeyState(c, GoLeft) then c0.(state := Walk)
    else if KeyState(c, JumpKey) then WithSpeed(c0, Vec2(0.0, c.jumpSpeed)).(state := Jump)
    else DropThrough(c0)
  }

  /** The horizontal speed towards a held side: the walk speed, or 0 when the
      character already pushes the wall on that side. */
  function Towards(c: Character, right: bool): (vx: real)
    ensures right ==> vx == (if c.body.pushesRightWall then 0.0 else c.walkSpeed)
    ensures !right ==> vx == (if c.body.pushesLeftWall then 0.0 else -c.walkSpeed)
  {
    if right then (if c.body.pushesRightWall then 0.0 else c.walkSpeed)
    else (if c.body.pushesLeftWall then 0.0 else -c.walkSpeed)
  }

  /** Walk: with both or neither direction held the character stops (Stand,
      zero speed); otherwise it walks towards the held side, facing it. A held
      Jump then jumps, even right after stopping; leaving the ground falls. */
  function WalkStep(c: Character): (r: Character)
    requires c.state == Walk
    ensures r.state != GrabLedge && r.inputs == c.inputs
    ensures r.cannotGoLeftFrames == c.cannotGoLeftFrames && r.cannotGoRightFrames == c.cannotGoRightFrames
    ensures KeyState(c, GoRight) == KeyState(c, GoLeft) ==> r.body.speed.x == 0.0
    ensures KeyState(c, GoRight) != KeyState(c, GoLeft) ==>
              r.body.speed.x == Towards(c, KeyState(c, GoRight))
    ensures KeyState(c, GoRight) && !KeyState(c, GoLeft) ==> r.scale.x >= 0.0
    ensures KeyState(c, GoLeft) && !KeyState(c, GoRight) ==> r.scale.x <= 0.0
    ensures KeyState(c, JumpKey) ==> r.state == Jump && r.body.speed.y == c.jumpSpeed
    ensures !KeyState(c, JumpKey) && !c.body.onGround ==> r.state == Jump
    ensures !KeyState(c, JumpKey) && c.body.onGround ==>
              r.state == (if KeyState(c, GoRight) == KeyState(c, GoLeft) then Stand else Walk)
  {
    var right := KeyState(c, GoRight);
    var left := KeyState(c, GoLeft);
    var c1 :=
      if right == left then WithSpeed(c, Zero).(state := Stand)
      else if right then WithSpeed(c, c.body.speed.(x := Towards(c, true))).(scale := c.scale.(x := Abs(c.scale.x)))
      else WithSpeed(c, c.body.speed.(x := Towards(c, false))).(scale := c.scale.(x := -Abs(c.scale.x)));
    if KeyState(c, JumpKey) then WithSpeed(c1, c1.body.speed.(y := c.jumpSpeed)).(state := Jump)
    else if !c.body.onGround then c1.(state := Jump)
    else DropThrough(c1)
  }

  /** The vertical speed of a jump frame and the updated jump-frame counter:
      during the first frames a held Jump keeps the jump speed (unless the
      character hits the ceiling or already rises); then gravity, the fall-speed
      floor, and the cap for a released Jump key. */
  function JumpVertical(c: Character): (r: (real, int))
    ensures r.0 >= MaxFallingSpeed
    ensures !KeyState(c, JumpKey) && r.0 > 0.0 ==> r.0 <= MinJumpSpeed
    ensures r.1 == c.framesFromJumpStart + 1 || r.1 == JumpFramesThreshold + 1
    ensures var early := c.framesFromJumpStart + 1 <= JumpFramesThreshold;
            var blocked := c.body.atCeiling || c.body.speed.y > 0.0;
            var v0 := if early && !blocked && KeyState(c, JumpKey) then c.jumpSpeed else c.body.speed.y;
            var v := v0 + Gravity * c.body.deltaTime;
            && r.0 == (if !KeyState(c, JumpKey) && v > 0.0 then Min(v, MinJumpSpeed) else Max(v, MaxFallingSpeed))
            && r.1 == (if early && blocked then JumpFramesThreshold + 1 else c.framesFromJumpStart + 1)
  {
    var frames := c.framesFromJumpStart + 1;
    var (frames, vy) :=
      if frames <= JumpFramesThreshold then
        if c.body.atCeiling || c.body.speed.y > 0.0 then (JumpFramesThreshold + 1, c.body.speed.y)
        else if KeyState(c, JumpKey) then (frames, c.jumpSpeed)
        else (frames, c.body.speed.y)
      else (frames, c.body.speed.y);
    var vy := Max(vy + Gravity * c.body.deltaTime, MaxFallingSpeed);
    var vy := if !KeyState(c, JumpKey) && vy > 0.0 then Min(vy, MinJumpSpeed) else vy;
    (vy, frames)
  }

  /** Without a held Jump key gravity never speeds a jump frame upward: the
      new vertical speed is at most the old one, or the fall-speed floor. */
  lemma JumpReleasedNeverRises(c: Character)
    requires !KeyState(c, JumpKey) && c.body.deltaTime >= 0.0
    ensures JumpVertical(c).0 <= Max(c.body.speed.y, MaxFallingSpeed)
  {
    var v := c.body.speed.y + Gravity * c.body.deltaTime;
    assert Gravity * c.body.deltaTime <= 0.0;
    assert v <= c.body.speed.y;
  }

  /** Holding Jump during the first frames of a jump that is not blocked keeps
      the launch speed, less one gravity step. */
  lemma JumpHeldKeepsLaunchSpeed(c: Character)
    requires KeyState(c, JumpKey) && c.framesFromJumpStart + 1 <= JumpFramesThreshold
    requires !c.body.atCeiling && c.body.speed.y <= 0.0
    requires c.jumpSpeed + Gravity * c.body.deltaTime >= MaxFallingSpeed
    ensures JumpVertical(c) == (c.jumpSpeed + Gravity * c.body.deltaTime, c.framesFromJumpStart + 1)
  {
  }

  /** Counts a lock down while it is positive; each such frame the locked
      direction is dropped from the held keys. */
  function Unlock(frames: int): (r: int)
    ensures frames > 0 ==> r == frames - 1
    ensures frames <= 0 ==> r == frames
  {
    if frames > 0 then frames - 1 else frames
  }

  /** Whether the Jump state searches for a ledge: falling, not at the ceiling,
      and pushing a wall in the held direction. */
  predicate SeeksLedge(c: Character) {
    c.body.speed.y <= 0.0 && !c.body.atCeiling
    && ((c.body.pushesRightWall && KeyState(c, GoRight)) || (c.body.pushesLeftWall && KeyState(c, GoLeft)))
  }

  /** The held keys with the locked directions dropped. */
  function LockedInputs(c: Character): (r: set<KeyInput>)
    ensures r <= c.inputs
    ensures c.cannotGoLeftFrames > 0 ==> GoLeft !in r
    ensures c.cannotGoRightFrames > 0 ==> GoRight !in r
    ensures forall k :: (k != GoLeft || c.cannotGoLeftFrames <= 0) && (k != GoRight || c.cannotGoRightFrames <= 0)
                        ==> (k in r <==> k in c.inputs)
  {
    var inputs := if c.cannotGoLeftFrames > 0 then c.inputs - {GoLeft} else c.inputs;
    if c.cannotGoRightFrames > 0 then inputs - {GoRight} else inputs
  }

  /** The facing of Jump: away from the one held direction. */
  function FacingAway(c: Character): (r: Vec2)
    ensures KeyState(c, GoRight) && !KeyState(c, GoLeft) ==> r.x <= 0.0
    ensures KeyState(c, GoLeft) && !KeyState(c, GoRight) ==> r.x >= 0.0
    ensures KeyState(c, GoRight) == KeyState(c, GoLeft) ==> r == c.scale
  {
    if KeyState(c, GoRight) == KeyState(c, GoLeft) then c.scale
    else if KeyState(c, GoRight) then c.scale.(x := -Abs(c.scale.x))
    else c.scale.(x := Abs(c.scale.x))
  }

  /** The airborne part of Jump: the vertical speed of `JumpVertical`, the
      horizontal control of Walk with the facing set the other way round, and
      the locked directions dropped from the held keys while the locks count
      down. */
  function JumpAir(c: Character): (r: Character)
    ensures r.state == c.state && r.ledgeTile == c.ledgeTile
    ensures r.body == c.body.(speed := r.body.speed)
    ensures r.body.speed.y >= MaxFallingSpeed
    ensures !KeyState(c, JumpKey) ==> r.body.speed.y <= MinJumpSpeed
    ensures r.body.speed.x == (if KeyState(c, GoRight) == KeyState(c, GoLeft) then 0.0
                               else Towards(c, KeyState(c, GoRight)))
    ensures r.cannotGoLeftFrames == Unlock(c.cannotGoLeftFrames)
    ensures r.cannotGoRightFrames == Unlock(c.cannotGoRightFrames)
    ensures r.inputs == LockedInputs(c) && r.scale == FacingAway(c)
    ensures (r.body.speed.y, r.framesFromJumpStart) == JumpVertical(c)
  {
    var v := JumpVertical(c);
    var vx := if KeyState(c, GoRight) == KeyState(c, GoLeft) then 0.0 else Towards(c, KeyState(c, GoRight));
    var c1 := c.(framesFromJumpStart := v.1, scale := FacingAway(c), inputs := LockedInputs(c),
                 cannotGoLeftFrames := Unlock(c.cannotGoLeftFrames),
                 cannotGoRightFrames := Unlock(c.cannotGoRightFrames));
    c1.(body := c.body.(speed := Vec2(vx, v.0)))
  }

  /** Jump. `ledge` is what `Character.js`'s tile search finds (it is only
      consulted when the character seeks a ledge). After the airborne part,
      landing stands or walks, and a ledge found while seeking one is grabbed. */
  function JumpStep(c: Character, ledge: Option<Ledge>): (r: Character)
    requires c.state == Jump
    ensures r.state != Stand ==> r.body.speed.y >= MaxFallingSpeed
    ensures !KeyState(c, JumpKey) ==> r.body.speed.y <= MinJumpSpeed
    ensures r.cannotGoLeftFrames == Unlock(c.cannotGoLeftFrames)
    ensures r.cannotGoRightFrames == Unlock(c.cannotGoRightFrames)
    ensures r.inputs <= c.inputs
    ensures c.cannotGoLeftFrames > 0 ==> GoLeft !in r.inputs
    ensures c.cannotGoRightFrames > 0 ==> GoRight !in r.inputs
    ensures forall k :: k != GoLeft && k != GoRight ==> (k in r.inputs <==> k in c.inputs)
    ensures c.body.onGround ==>
              r.state == (if (GoRight in r.inputs) == (GoLeft in r.inputs) then Stand else Walk)
              && r.body.speed.y == 0.0
    ensures r.state == Stand ==> r.body.speed == Zero
    ensures r.state == GrabLedge <==> !c.body.onGround && ledge.Some? && SeeksLedge(r)
    ensures r.state == GrabLedge ==> r.body.speed == Zero && r.ledgeTile == ledge.value.tile
                                     && r.body.position.y == ledge.value.y
    ensures KeyState(c, GoRight) && !KeyState(c, GoLeft) ==> r.scale.x <= 0.0
    ensures KeyState(c, GoLeft) && !KeyState(c, GoRight) ==> r.scale.x >= 0.0
    ensures r.framesFromJumpStart == JumpVertical(c).1
    ensures !c.body.onGround && r.state == Jump ==> r.body.speed.y == JumpVertical(c).0 && r == JumpAir(c)
    ensures c.body.onGround && r.state == Walk ==> r.body.speed.x == JumpAir(c).body.speed.x
  {
    var c1 := JumpAir(c);
    if c.body.onGround then
      if (GoRight in c1.inputs) == (GoLeft in c1.inputs) then WithSpeed(c1, Zero).(state := Stand)
      else WithSpeed(c1, Vec2(c1.body.speed.x, 0.0)).(state := Walk)
    else if SeeksLedge(c1) && ledge.Some? then
      var b := c1.body.(position := c1.body.position.(y := ledge.value.y), speed := Zero);
      c1.(body := b, ledgeTile := ledge.value.tile, state := GrabLedge)
    else c1
  }

  /** Whether the grabbed ledge lies left of the character. */
  predicate LedgeOnLeft(c: Character) {
    (c.ledgeTile.x * TileSize) as real < c.body.position.x
  }

  /** GrabLedge: GoDown, or a key pointing away from the ledge, lets go (Jump)
      and locks the key towards the ledge for three frames; otherwise Jump
      jumps off; otherwise the character keeps hanging. */
  function GrabLedgeStep(c: Character): (r: Character)
    requires c.state == GrabLedge
    ensures r.state == GrabLedge || r.state == Jump
    ensures r.inputs == c.inputs && r.body.position == c.body.position
    ensures r.cannotGoLeftFrames == c.cannotGoLeftFrames || r.cannotGoLeftFrames == LedgeLockFrames
    ensures r.cannotGoRightFrames == c.cannotGoRightFrames || r.cannotGoRightFrames == LedgeLockFrames
    ensures var letGo := GoDown in c.inputs || (GoLeft in c.inputs && !LedgeOnLeft(c))
                         || (GoRight in c.inputs && LedgeOnLeft(c));
            && (letGo ==> r.state == Jump && r.body.speed == c.body.speed
                          && (LedgeOnLeft(c) ==> r.cannotGoLeftFrames == LedgeLockFrames
                                                 && r.cannotGoRightFrames == c.cannotGoRightFrames)
                          && (!LedgeOnLeft(c) ==> r.cannotGoRightFrames == LedgeLockFrames
                                                  && r.cannotGoLeftFrames == c.cannotGoLeftFrames))
            && (!letGo && JumpKey in c.inputs ==> r.state == Jump && r.body.speed.y == c.jumpSpeed)
            && (!letGo && JumpKey !in c.inputs ==> r == c)
  {
    var onLeft := LedgeOnLeft(c);
    if GoDown in c.inputs || (GoLeft in c.inputs && !onLeft) || (GoRight in c.inputs && onLeft) then
      (if onLeft then c.(cannotGoLeftFrames := LedgeLockFrames) else c.(cannotGoRightFrames := LedgeLockFrames)).(state := Jump)
    else if JumpKey in c.inputs then WithSpeed(c, c.body.speed.(y := c.jumpSpeed)).(state := Jump)
    else c
  }

  /* ---------- one frame ---------- */

  /** The transitions the state machine can make in one frame. */
  predicate Allowed(from: CharacterState, to: CharacterState) {
    match from
    case Stand => to != GrabLedge
    case Walk => to != GrabLedge
    case Jump => true
    case GrabLedge => to == GrabLedge || to == Jump
  }

  function StateStep(c: Character, ledge: Option<Ledge>): Character {
    match c.state
    case Stand => StandStep(c)
    case Walk => WalkStep(c)
    case Jump => JumpStep(c, ledge)
    case GrabLedge => GrabLedgeStep(c)
  }

  /** `characterUpdate`: scale keys, the state's step, one physics step, the
      jump-frame counter reset on leaving the ground, and the input copy. */
  function CharacterUpdate(c: Character, ledge: Option<Ledge>): (r: Character)
    ensures Allowed(c.state, r.state)
    ensures r.state == GrabLedge && c.state != GrabLedge ==> c.state == Jump && ledge.Some?
    ensures r.prevInputs == r.inputs && r.inputs <= c.inputs
    ensures c.state != Jump ==> r.inputs == c.inputs
    ensures r.body.position.y >= 0.0 && r.body.wasOnGround == StateStep(ScaleKeys(c), ledge).body.onGround
    ensures r.body.wasOnGround && !r.body.onGround ==> r.framesFromJumpStart == 0
  {
    var c1 := StateStep(ScaleKeys(c), ledge);
    var b := UpdatePhysics(c1.body);
    var frames := if b.wasOnGround && !b.onGround then 0 else c1.framesFromJumpStart;
    UpdatePrevInputs(c1.(body := b, framesFromJumpStart := frames))
  }

  /** The locks stay within [0, 3] from frame to frame. */
  predicate LocksInRange(c: Character) {
    0 <= c.cannotGoLeftFrames <= LedgeLockFrames && 0 <= c.cannotGoRightFrames <= LedgeLockFrames
  }

  lemma LocksStayInRange(c: Character, ledge: Option<Ledge>)
    requires LocksInRange(c)
    ensures LocksInRange(CharacterUpdate(c, ledge))
  {
    var c0 := ScaleKeys(c);
    assert LocksInRange(c0);
    var c1 := StateStep(c0, ledge);
    assert LocksInRange(c1);
    assert CharacterUpdate(c, ledge).cannotGoLeftFrames == c1.cannotGoLeftFrames;
    assert CharacterUpdate(c, ledge).cannotGoRightFrames == c1.cannotGoRightFrames;
  }


  /** The facing the state machine gives a held direction: Walk faces it, Jump
      faces away from it. */
  lemma FacingWalkVersusJump(c: Character, ledge: Option<Ledge>)
    requires KeyState(c, GoRight) && !KeyState(c, GoLeft) && c.scale.x != 0.0
    ensures WalkStep(c.(state := Walk)).scale.x > 0.0
    ensures JumpStep(c.(state := Jump), ledge).scale.x < 0.0
  {
  }

  /** `characterInit`: the position is rounded, the box gets the character's
      half-size, the inputs are taken over and the speeds reset. The offset is
      written to `aabbOffset`, which the physics step does not read, so the box
      offset of the body is left as it was. */
  function CharacterInit(c: Character, inputs: set<KeyInput>, prevInputs: set<KeyInput>): (r: Character)
    ensures r.body.position.x == Round(c.body.position.x) as real
    ensures r.body.position.y == Round(c.body.position.y) as real
    ensures r.body.box.halfSize == Vec2(HalfSizeX, HalfSizeY)
    ensures r.aabbOffset == Vec2(0.0, HalfSizeY) && r.body.boxOffset == c.body.boxOffset
    ensures r.inputs == inputs && r.prevInputs == prevInputs
    ensures r.jumpSpeed == JumpSpeed && r.walkSpeed == WalkSpeed && r.state == c.state
  {
    var p := DisplayPosition(c.body);
    var b := c.body.(position := Vec2(p.x as real, p.y as real),
                     box := c.body.box.(halfSize := Vec2(HalfSizeX, HalfSizeY)));
    c.(body := b, aabbOffset := Vec2(0.0, HalfSizeY), inputs := inputs, prevInputs := prevInputs,
       jumpSpeed := JumpSpeed, walkSpeed := WalkSpeed)
  }
}

=== FILE: constants.dfy ===
/** Numeric constants of `scripts/misc/constants.js`. */
module Constants {
  const TileSize: int := 16
  const Gravity: real := -1000.0
  const MaxFallingSpeed: real := -500.0
  const WalkSpeed: real := 160.0
  const JumpSpeed: real := 410.0
  const MinJumpSpeed: real := 200.0
  const HalfSizeY: real := 20.0
  const HalfSizeX: real := 6.0
  const OneWayPlatformThreshold: real := 2.0
  const JumpFramesThreshold: int := 4
}

=== FILE: dialog.dfy ===
/** `scripts/component/DialogRenderer.js`: buffer concatenation, the choice
    menu's selection, the shaping of a story page into messages and labelled
    choices, and where each choice's indices land in the merged buffer. The
    ink story runtime and the GL uploads are outside the model. */
module Dialog {
  import opened Wrappers
  import opened Enums
  import opened MathUtil

  /* ---------- appendBuffer ---------- */

  /** `appendBuffer`: a buffer holding the first buffer's elements followed by
      the second's. */
  method AppendBuffer<T>(a: seq<T>, b: seq<T>) returns (r: seq<T>)
    ensures |r| == |a| + |b|
    ensures forall i | 0 <= i < |a| :: r[i] == a[i]
    ensures forall i | 0 <= i < |b| :: r[|a| + i] == b[i]
  {
    r := [];
    var i := 0;
    while i < |a|
      invariant 0 <= i <= |a| && |r| == i
      invariant forall k | 0 <= k < i :: r[k] == a[k]
    {
      r := r + [a[i]];
      i := i + 1;
    }
    i := 0;
    while i < |b|
      invariant 0 <= i <= |b| && |r| == |a| + i
      invariant forall k | 0 <= k < |a| :: r[k] == a[k]
      invariant forall k | 0 <= k < i :: r[|a| + k] == b[k]
    {
      r := r + [b[i]];
      i := i + 1;
    }
  }

  /* ---------- selection ---------- */

  /** A key that is held now and was not held on the previous frame. */
  predicate Edge(inputs: set<KeyInput>, prevInputs: set<KeyInput>, k: KeyInput) {
    k in inputs && k !in prevInputs
  }

  datatype Action = Next | Prev | Confirm | Idle

  /** The one action a frame's key edges ask for: down before up before jump. */
  function SelectionAction(inputs: set<KeyInput>, prevInputs: set<KeyInput>): (a: Action)
    ensures a == Next <==> Edge(inputs, prevInputs, GoDown)
    ensures a == Prev <==> !Edge(inputs, prevInputs, GoDown) && Edge(inputs, prevInputs, Up)
    ensures a == Confirm <==> (&& !Edge(inputs, prevInputs, GoDown) && !Edge(inputs, prevInputs, Up)
                               && Edge(inputs, prevInputs, JumpKey))
  {
    if Edge(inputs, prevInputs, GoDown) then Next
    else if Edge(inputs, prevInputs, Up) then Prev
    else if Edge(inputs, prevInputs, JumpKey) then Confirm
    else Idle
  }

  /** -1 for no selection, otherwise a choice; with no choices the selection
      can also be 0, where moving down leaves it. */
  predicate ValidSelection(sel: int, len: nat) {
    -1 <= sel && (sel < len || sel == 0)
  }

  /** Moving down: one further, wrapping to the first choice. */
  function NextSelection(sel: int, len: nat): (r: int)
    ensures -1 <= sel ==> (if len == 0 then r == 0 else 0 <= r < len)
    ensures sel + 1 < len ==> r == sel + 1
  {
    if sel + 1 >= len then 0 else sel + 1
  }

  /** Moving up: one back, wrapping to the last choice (to -1 when there are none). */
  function PrevSelection(sel: int, len: nat): (r: int)
    ensures sel <= len ==> -1 <= r < len
    ensures (sel == -1 || sel == 0) ==> r == len - 1
    ensures sel >= 1 ==> r == sel - 1
  {
    if sel - 1 < 0 then len - 1 else sel - 1
  }

  /** On a menu of choices, moving down and moving up undo each other. */
  lemma NextPrevInverse(sel: int, len: nat)
    requires 0 <= sel < len
    ensures PrevSelection(NextSelection(sel, len), len) == sel
    ensures NextSelection(PrevSelection(sel, len), len) == sel
  {
  }

  function NextTimes(sel: int, len: nat, k: nat): int
    decreases k
  {
    if k == 0 then sel else NextSelection(NextTimes(sel, len, k - 1), len)
  }

  /** Moving down k times from a choice lands k choices further, modulo the
      number of choices. */
  lemma {:induction false} NextTimesCycles(sel: int, len: nat, k: nat)
    requires 0 <= sel < len
    ensures NextTimes(sel, len, k) == (sel + k) % len
    decreases k
  {
    if k == 0 {
      ModOfMultiple(0, len, sel);
    } else {
      NextTimesCycles(sel, len, k - 1);
      var p := (sel + k - 1) % len;
      ModSucc(sel + k - 1, len);
      if p + 1 < len {
        ModOfMultiple(0, len, p + 1);
      } else {
        ModOfMultiple(1, len, 0);
      }
    }
  }

  /** Whether a choice was taken, and which. */
  datatype Selection = Selection(selection: int, chosen: Option<nat>)

  /** `select`: without a story it throws; a selection on a choice takes that
      choice, rebuilds the page and clears the selection; otherwise nothing
      happens. `textUpdate` is the outcome of the `updateText` call that rebuilds
      the page: `None` when it succeeds, `Some(msg)` for the error it throws
      (a missing font or GL object, or a layout error of the new text). That
      throw escapes `select` before the selection is cleared. */
  function Select(sel: int, len: nat, hasStory: bool, textUpdate: Option<string>): (r: Result<Selection>)
    ensures r.Failure? <==> !hasStory || (0 <= sel < len && textUpdate.Some?)
    ensures !hasStory ==> r == Failure("Story not initialized")
    ensures hasStory && 0 <= sel < len && textUpdate.Some? ==> r == Failure(textUpdate.value)
    ensures r.Success? && 0 <= sel < len ==> r.value == Selection(-1, Some(sel as nat))
    ensures r.Success? && !(0 <= sel < len) ==> r.value == Selection(sel, None)
  {
    if !hasStory then Failure("Story not initialized")
    else if 0 <= sel < len then
      (match textUpdate
       case Some(msg) => Failure(msg)
       case None => Success(Selection(-1, Some(sel as nat))))
    else Success(Selection(sel, None))
  }

  /** `updateSelection`: at most one action per frame, driven by key edges. */
  function UpdateSelection(inputs: set<KeyInput>, prevInputs: set<KeyInput>, sel: int, len: nat,
                           hasStory: bool, textUpdate: Option<string>): (r: Result<Selection>)
    ensures SelectionAction(inputs, prevInputs) == Idle ==> r == Success(Selection(sel, None))
    ensures r.Failure? <==> (&& SelectionAction(inputs, prevInputs) == Confirm
                             && (!hasStory || (0 <= sel < len && textUpdate.Some?)))
    ensures r.Success? && r.value.chosen.Some? <==> (&& SelectionAction(inputs, prevInputs) == Confirm
                                                    && hasStory && 0 <= sel < len && textUpdate.None?)
    ensures r.Success? && r.value.chosen.Some? ==> r.value.chosen.value == sel && r.value.selection == -1
    ensures ValidSelection(sel, len) && r.Success? ==> ValidSelection(r.value.selection, len)
  {
    match SelectionAction(inputs, prevInputs)
    case Next => Success(Selection(NextSelection(sel, len), None))
    case Prev => Success(Selection(PrevSelection(sel, len), None))
    case Confirm => Select(sel, len, hasStory, textUpdate)
    case Idle => Success(Selection(sel, None))
  }

  /* ---------- choice labels ---------- */

  function DigitChar(d: nat): (c: char)
    requires d < 10
    ensures '0' <= c <= '9'
  {
    ['0', '1', '2', '3', '4', '5', '6', '7', '8', '9'][d]
  }

  function DigitValue(c: char): nat
    requires '0' <= c <= '9'
  {
    (c - '0') as nat
  }

  /** The decimal numeral of n, as JavaScript's template literal writes it. */
  function NatToString(n: nat): (s: string)
    ensures |s| > 0 && forall i | 0 <= i < |s| :: '0' <= s[i] <= '9'
    decreases n
  {
    if n < 10 then [DigitChar(n)] else NatToString(n / 10) + [DigitChar(n % 10)]
  }

  /** The value of a string of decimal digits. */
  function DigitsValue(s: string): nat
    requires forall i | 0 <= i < |s| :: '0' <= s[i] <= '9'
    decreases |s|
  {
    if |s| == 0 then 0 else 10 * DigitsValue(s[..|s| - 1]) + DigitValue(s[|s| - 1])
  }

  lemma DigitRoundTrip(d: nat)
    requires d < 10
    ensures DigitValue(DigitChar(d)) == d
  {
  }

  /** Reading a numeral back gives the number. */
  lemma {:induction false} NatToStringRoundTrip(n: nat)
    ensures DigitsValue(NatToString(n)) == n
    decreases n
  {
    if n < 10 {
      DigitRoundTrip(n);
    } else {
      var s := NatToString(n);
      NatToStringRoundTrip(n / 10);
      DigitRoundTrip(n % 10);
      assert s[..|s| - 1] == NatToString(n / 10);
    }
  }

  /** The label of choice number n (counting from 1). */
  function Label(n: nat, text: string): (s: string)
    ensures |s| >= |NatToString(n)| + 2 && s[|NatToString(n)|] == '.'
  {
    NatToString(n) + ". " + text
  }

  /** The leading digits of a string. */
  function DigitsPrefix(s: string): (p: nat)
    ensures p <= |s| && forall i | 0 <= i < p :: '0' <= s[i] <= '9'
    ensures p < |s| ==> !('0' <= s[p] <= '9')
    decreases |s|
  {
    if |s| > 0 && '0' <= s[0] <= '9' then 1 + DigitsPrefix(s[1..]) else 0
  }

  /** Reading a label: its number and its text. */
  function ParseLabel(s: string): Option<(nat, string)> {
    var p := DigitsPrefix(s);
    if p > 0 && p + 2 <= |s| && s[p..p + 2] == ". " then Some((DigitsValue(s[..p]), s[p + 2..]))
    else None
  }

  lemma {:induction false} DigitsPrefixOfDigits(d: string, rest: string)
    requires forall i | 0 <= i < |d| :: '0' <= d[i] <= '9'
    requires |rest| > 0 && !('0' <= rest[0] <= '9')
    ensures DigitsPrefix(d + rest) == |d|
    decreases |d|
  {
    if |d| > 0 {
      assert (d + rest)[1..] == d[1..] + rest;
      DigitsPrefixOfDigits(d[1..], rest);
    }
  }

  /** A label reads back as its number and text. */
  lemma LabelRoundTrip(n: nat, text: string)
    ensures ParseLabel(Label(n, text)) == Some((n, text))
  {
    var d := NatToString(n);
    var s := Label(n, text);
    assert s == d + (". " + text);
    DigitsPrefixOfDigits(d, ". " + text);
    assert s[..|d|] == d;
    assert s[|d|..|d| + 2] == ". ";
    assert s[|d| + 2..] == text;
    NatToStringRoundTrip(n);
  }

  /* ---------- updateStory ---------- */

  datatype Choice = Choice(text: string, offset: nat, count: nat)

  /** What the story yields until it can no longer continue (None where
      `Continue()` gives null or undefined), and the texts of its current choices. */
  datatype StoryPage = StoryPage(paragraphs: seq<Option<string>>, choices: seq<string>)

  datatype Page = Page(messages: seq<string>, choices: seq<Choice>)

  /** `updateStory`: the paragraphs become messages, followed by "Choices:"
      when there are choices, and choice i is labelled with the number i + 1. */
  function UpdateStory(story: StoryPage): (r: Page)
    ensures |r.messages| == |story.paragraphs| + (if |story.choices| > 0 then 1 else 0)
    ensures forall i | 0 <= i < |story.paragraphs| ::
              r.messages[i] == (if story.paragraphs[i].Some? then story.paragraphs[i].value else "")
    ensures |story.choices| > 0 ==> r.messages[|story.paragraphs|] == "Choices:"
    ensures |r.choices| == |story.choices|
    ensures forall i | 0 <= i < |story.choices| ::
              ParseLabel(r.choices[i].text) == Some((i + 1, story.choices[i]))
              && r.choices[i].offset == 0 && r.choices[i].count == 0
  {
    var messages := seq(|story.paragraphs|, i requires 0 <= i < |story.paragraphs| =>
                          if story.paragraphs[i].Some? then story.paragraphs[i].value else "");
    var choices := seq(|story.choices|, i requires 0 <= i < |story.choices| =>
                         Choice(Label(i + 1, story.choices[i]), 0, 0));
    forall i | 0 <= i < |story.choices|
      ensures ParseLabel(choices[i].text) == Some((i + 1, story.choices[i]))
    {
      LabelRoundTrip(i + 1, story.choices[i]);
    }
    Page(if |choices| > 0 then messages + ["Choices:"] else messages, choices)
  }

  /* ---------- updateText: merging the choice meshes ---------- */

  /** A text mesh: three position components per vertex, two texture
      coordinates per vertex, and triangle indices. */
  datatype Mesh = Mesh(position: seq<real>, uv: seq<real>, index: seq<int>)

  /** The number of indices, positions and texture coordinates of meshes. */
  function IndexTotal(meshes: seq<Mesh>): nat
    decreases |meshes|
  {
    if |meshes| == 0 then 0 else IndexTotal(meshes[..|meshes| - 1]) + |meshes[|meshes| - 1].index|
  }

  function PositionTotal(meshes: seq<Mesh>): nat
    decreases |meshes|
  {
    if |meshes| == 0 then 0 else PositionTotal(meshes[..|meshes| - 1]) + |meshes[|meshes| - 1].position|
  }

  function UvTotal(meshes: seq<Mesh>): nat
    decreases |meshes|
  {
    if |meshes| == 0 then 0 else UvTotal(meshes[..|meshes| - 1]) + |meshes[|meshes| - 1].uv|
  }

  /** Where choice k's indices start: after the main text's indices and those
      of the choices before it. */
  function IndexOffset(main: Mesh, choices: seq<Mesh>, k: nat): nat
    requires k <= |choices|
  {
    |main.index| + IndexTotal(choices[..k])
  }

  function PositionOffset(main: Mesh, choices: seq<Mesh>, k: nat): nat
    requires k <= |choices|
  {
    |main.position| + PositionTotal(choices[..k])
  }

  /** How far choice k's vertex numbers are shifted: the number of vertices
      before it (the Uint32 store truncates the division). */
  function VertexBase(main: Mesh, choices: seq<Mesh>, k: nat): nat
    requires k <= |choices|
  {
    PositionOffset(main, choices, k) / 3
  }

  function Shift(index: seq<int>, base: nat): (r: seq<int>)
    ensures |r| == |index| && forall t | 0 <= t < |index| :: r[t] == index[t] + base
  {
    seq(|index|, t requires 0 <= t < |index| => index[t] + base)
  }

  /** Where a choice's indices sit in the merged buffer. */
  datatype Range = Range(offset: nat, count: nat)

  /** The merged buffers and the choices' index ranges, choice by choice. */
  function Merge(main: Mesh, choices: seq<Mesh>): (r: (Mesh, seq<Range>))
    ensures |r.1| == |choices|
    decreases |choices|
  {
    if |choices| == 0 then (main, [])
    else
      var (m, ranges) := Merge(main, choices[..|choices| - 1]);
      var c := choices[|choices| - 1];
      (Mesh(m.position + c.position, m.uv + c.uv, m.index + Shift(c.index, |m.position| / 3)),
       ranges + [Range(|m.index|, |c.index|)])
  }

  /** The buffers grow by each choice's buffers. */
  lemma {:induction false} MergeSizes(main: Mesh, choices: seq<Mesh>)
    ensures |Merge(main, choices).0.index| == |main.index| + IndexTotal(choices)
    ensures |Merge(main, choices).0.position| == |main.position| + PositionTotal(choices)
    ensures |Merge(main, choices).0.uv| == |main.uv| + UvTotal(choices)
    decreases |choices|
  {
    if |choices| > 0 {
      MergeSizes(main, choices[..|choices| - 1]);
    }
  }

  /** Choice k's range starts where the indices before it end and is as long
      as its own indices. */
  lemma {:induction false} MergeLengths(main: Mesh, choices: seq<Mesh>)
    ensures forall k | 0 <= k < |choices| ::
              Merge(main, choices).1[k] == Range(IndexOffset(main, choices, k), |choices[k].index|)
    decreases |choices|
  {
    if |choices| > 0 {
      var n := |choices| - 1;
      var init := choices[..n];
      MergeLengths(main, init);
      MergeSizes(main, init);
      forall k | 0 <= k < n
        ensures IndexOffset(main, choices, k) == IndexOffset(main, init, k)
      {
        assert choices[..k] == init[..k];
      }
      assert choices[..n] == init;
    }
  }

  /** Choice k's part of the merged index buffer. */
  function IndexSegment(m: Mesh, main: Mesh, choices: seq<Mesh>, k: nat): seq<int>
    requires k < |choices| && IndexOffset(main, choices, k) + |choices[k].index| <= |m.index|
  {
    m.index[IndexOffset(main, choices, k)..IndexOffset(main, choices, k) + |choices[k].index|]
  }

  /** Choice k's part of the merged position buffer. */
  function PositionSegment(m: Mesh, main: Mesh, choices: seq<Mesh>, k: nat): seq<real>
    requires k < |choices| && PositionOffset(main, choices, k) + |choices[k].position| <= |m.position|
  {
    m.position[PositionOffset(main, choices, k)..PositionOffset(main, choices, k) + |choices[k].position|]
  }

  lemma IndexOffsetOfPrefix(main: Mesh, choices: seq<Mesh>, k: nat)
    requires k < |choices|
    ensures IndexOffset(main, choices[..|choices| - 1], k) == IndexOffset(main, choices, k)
    ensures PositionOffset(main, choices[..|choices| - 1], k) == PositionOffset(main, choices, k)
  {
    assert choices[..|choices| - 1][..k] == choices[..k];
  }

  /** Choice k's indices sit at its range in m, shifted by the number of
      vertices before it, and its vertex positions follow the positions
      before it. */
  predicate SegmentPlaced(m: Mesh, main: Mesh, choices: seq<Mesh>, k: nat)
    requires k < |choices|
  {
    && IndexOffset(main, choices, k) + |choices[k].index| <= |m.index|
    && PositionOffset(main, choices, k) + |choices[k].position| <= |m.position|
    && IndexSegment(m, main, choices, k) == Shift(choices[k].index, VertexBase(main, choices, k))
    && PositionSegment(m, main, choices, k) == choices[k].position
  }

  /** Appending the last choice keeps each earlier choice in place. */
  lemma MergeKeepsEarlier(main: Mesh, choices: seq<Mesh>, k: nat)
    requires k < |choices| - 1
    requires SegmentPlaced(Merge(main, choices[..|choices| - 1]).0, main, choices[..|choices| - 1], k)
    ensures SegmentPlaced(Merge(main, choices).0, main, choices, k)
  {
    var n := |choices| - 1;
    var init := choices[..n];
    var prev := Merge(main, init).0;
    var m := Merge(main, choices).0;
    var c := choices[n];
    assert m.index == prev.index + Shift(c.index, |prev.position| / 3);
    assert m.position == prev.position + c.position;
    IndexOffsetOfPrefix(main, choices, k);
    assert init[k] == choices[k];
    var lo, hi := IndexOffset(main, choices, k), IndexOffset(main, choices, k) + |choices[k].index|;
    SliceOfPrefix(prev.index, Shift(c.index, |prev.position| / 3), lo, hi);
    var plo, phi := PositionOffset(main, choices, k), PositionOffset(main, choices, k) + |choices[k].position|;
    SliceOfPrefix(prev.position, c.position, plo, phi);
  }

  lemma SliceOfPrefix<T>(a: seq<T>, b: seq<T>, lo: int, hi: int)
    requires 0 <= lo <= hi <= |a|
    ensures (a + b)[lo..hi] == a[lo..hi]
  {
  }

  /** The last choice lands right after everything merged before it. */
  lemma MergePlacesLast(main: Mesh, choices: seq<Mesh>)
    requires |choices| > 0
    ensures SegmentPlaced(Merge(main, choices).0, main, choices, |choices| - 1)
  {
    var n := |choices| - 1;
    var init := choices[..n];
    MergeSizes(main, init);
    var prev := Merge(main, init).0;
    var m := Merge(main, choices).0;
    var c := choices[n];
    assert m.index == prev.index + Shift(c.index, |prev.position| / 3);
    assert m.position == prev.position + c.position;
    assert IndexOffset(main, choices, n) == |prev.index|;
    assert PositionOffset(main, choices, n) == |prev.position|;
  }

  /** The main text's indices stay first and every choice is placed. */
  lemma {:induction false} MergeContents(main: Mesh, choices: seq<Mesh>)
    ensures var m := Merge(main, choices).0;
            && |main.index| <= |m.index| && m.index[..|main.index|] == main.index
            && forall k | 0 <= k < |choices| :: SegmentPlaced(m, main, choices, k)
    decreases |choices|
  {
    MergeSizes(main, choices);
    if |choices| > 0 {
      var n := |choices| - 1;
      MergeContents(main, choices[..n]);
      MergeSizes(main, choices[..n]);
      var prev := Merge(main, choices[..n]).0;
      assert Merge(main, choices).0.index[..|main.index|] == prev.index[..|main.index|];
      forall k | 0 <= k < |choices|
        ensures SegmentPlaced(Merge(main, choices).0, main, choices, k)
      {
        if k < n {
          MergeKeepsEarlier(main, choices, k);
        } else {
          MergePlacesLast(main, choices);
        }
      }
    } else {
      assert Merge(main, choices).0 == main;
    }
  }

  /** The merging loop of `updateText`: each choice's mesh is appended after
      the main text's, its indices shifted past the vertices before it, and
      the choice records where its indices start and how many there are. */
  method MergeChoices(main: Mesh, choices: seq<Mesh>) returns (merged: Mesh, ranges: seq<Range>)
    ensures |ranges| == |choices|
    ensures forall k | 0 <= k < |choices| ::
              ranges[k].offset == IndexOffset(main, choices, k) && ranges[k].count == |choices[k].index|
    ensures |merged.index| == |main.index| + IndexTotal(choices)
    ensures |merged.position| == |main.position| + PositionTotal(choices)
    ensures |merged.uv| == |main.uv| + UvTotal(choices)
    ensures |main.index| <= |merged.index| && merged.index[..|main.index|] == main.index
    ensures forall k | 0 <= k < |choices| :: SegmentPlaced(merged, main, choices, k)
  {
    merged := main;
    ranges := [];
    var i := 0;
    while i < |choices|
      invariant 0 <= i <= |choices|
      invariant (merged, ranges) == Merge(main, choices[..i])
    {
      var c := choices[i];
      var index := AppendBuffer(merged.index, Shift(c.index, |merged.position| / 3));
      var position := AppendBuffer(merged.position, c.position);
      var uv := AppendBuffer(merged.uv, c.uv);
      assert index == merged.index + Shift(c.index, |merged.position| / 3);
      assert position == merged.position + c.position;
      assert uv == merged.uv + c.uv;
      assert choices[..i + 1][..i] == choices[..i];
      ranges := ranges + [Range(|merged.index|, |c.index|)];
      merged := Mesh(position, uv, index);
      i := i + 1;
    }
    assert choices[..|choices|] == choices;
    MergeSizes(main, choices);
    MergeLengths(main, choices);
    MergeContents(main, choices);
  }
}

=== FILE: engine.dfy ===
/** `scripts/engine.js`: the fixed-timestep drain of the main loop, the
    program and uniform-location caches, the audio switch of `fixedUpdate`,
    the collision tally shown on screen and the keyboard-to-input mapping of
    `update`. Time, GL, audio and the keyboard are inputs to the model. */
module Engine {
  import opened Wrappers
  import opened Enums
  import Dialog

  /* ---------- the fixed-timestep drain ---------- */

  /** The inner loop of the main loop: one fixed update per whole step in the
      accumulator, which keeps the fraction for the next frame. */
  method Drain(acc: real) returns (steps: nat, rest: real)
    ensures acc >= 0.0 ==> steps == acc.Floor && 0.0 <= rest < 1.0
    ensures acc < 0.0 ==> steps == 0 && rest == acc
    ensures rest == acc - steps as real
  {
    steps := 0;
    rest := acc;
    while rest >= 1.0
      invariant rest == acc - steps as real
      invariant acc >= 0.0 ==> rest >= 0.0
      invariant acc < 0.0 ==> steps == 0
      decreases rest.Floor
    {
      steps := steps + 1;
      rest := rest - 1.0;
    }
    if acc >= 0.0 {
      FloorUnique(acc, steps);
    }
  }

  lemma FloorUnique(x: real, n: int)
    requires n as real <= x < n as real + 1.0
    ensures x.Floor == n
  {
    var f := x.Floor;
    assert f as real <= x < f as real + 1.0;
    assert (n - f) as real < 1.0 && (f - n) as real < 1.0;
  }

  /** The fixed updates of one frame whose delta (in fixed steps) is added to
      the accumulator: the number of updates and the accumulator left. */
  function Frame(acc: real, delta: real): (r: (nat, real))
    requires acc + delta >= 0.0
    ensures r.0 == (acc + delta).Floor && 0.0 <= r.1 < 1.0 && r.1 == acc + delta - r.0 as real
  {
    var total := acc + delta;
    (total.Floor, total - total.Floor as real)
  }

  function Sum(deltas: seq<real>): real
    decreases |deltas|
  {
    if |deltas| == 0 then 0.0 else Sum(deltas[..|deltas| - 1]) + deltas[|deltas| - 1]
  }

  predicate NonNegative(deltas: seq<real>) {
    forall i | 0 <= i < |deltas| :: deltas[i] >= 0.0
  }

  /** The frames of a run, from an empty accumulator: total updates and the
      accumulator left. */
  function Frames(deltas: seq<real>): (r: (nat, real))
    requires NonNegative(deltas)
    decreases |deltas|
  {
    if |deltas| == 0 then (0, 0.0)
    else
      var (n, acc) := Frames(deltas[..|deltas| - 1]);
      if acc + deltas[|deltas| - 1] >= 0.0 then
        var (m, rest) := Frame(acc, deltas[|deltas| - 1]);
        (n + m, rest)
      else (n, acc)
  }

  /** No time is lost or invented across frames: after any run of frames the
      updates performed are the whole steps of the total time, and the
      accumulator holds its fraction. */
  lemma {:induction false} FramesKeepTime(deltas: seq<real>)
    requires NonNegative(deltas)
    ensures Frames(deltas).0 == Sum(deltas).Floor
    ensures Frames(deltas).1 == Sum(deltas) - Sum(deltas).Floor as real
    ensures 0.0 <= Frames(deltas).1 < 1.0
    decreases |deltas|
  {
    if |deltas| > 0 {
      var init := deltas[..|deltas| - 1];
      FramesKeepTime(init);
      var d := deltas[|deltas| - 1];
      var (n, acc) := Frames(init);
      assert acc + d >= 0.0;
      var total := acc + d;
      assert Sum(deltas) == n as real + total;
      assert Sum(deltas).Floor == n + total.Floor;
    }
  }

  /* ---------- program and uniform caches ---------- */

  /** A compiled program and a uniform location, as handles. */
  type Program = nat
  type Location = int

  /** `getProgram`: the cached program, or an error naming the program. */
  function GetProgram(cache: map<string, Program>, name: string): (r: Result<Program>)
    ensures r.Success? <==> name in cache
    ensures r.Success? ==> r.value == cache[name]
    ensures r.Failure? ==> r.error == "Program " + name + " not found"
  {
    if name in cache then Success(cache[name]) else Failure("Program " + name + " not found")
  }

  /** `addProgramCache`. */
  function AddProgram(cache: map<string, Program>, name: string, p: Program): (r: map<string, Program>)
    ensures r.Keys == cache.Keys + {name}
    ensures forall n | n in cache && n != name :: r[n] == cache[n]
  {
    cache[name := p]
  }

  /** A registered program is found, and registering one leaves the lookup
      of every other name as it was. */
  lemma AddThenGet(cache: map<string, Program>, name: string, p: Program, other: string)
    ensures GetProgram(AddProgram(cache, name, p), name) == Success(p)
    ensures other != name ==> GetProgram(AddProgram(cache, name, p), other) == GetProgram(cache, other)
  {
  }

  /** The cache key of a uniform: the program name and the uniform name
      joined by a hyphen. */
  function UniformKey(program: string, name: string): string {
    program + "-" + name
  }

  /** `getUniformLocationCached`: a hit returns the cached location; a miss
      asks GL (`lookup`, given the program or nothing when it is not
      registered), stores the answer and returns nothing (undefined). */
  function GetUniformLocationCached(cache: map<string, Location>, programs: map<string, Program>,
                                    lookup: (Option<Program>, string) -> Location,
                                    program: string, name: string): (r: (map<string, Location>, Option<Location>))
    ensures UniformKey(program, name) in cache ==> r == (cache, Some(cache[UniformKey(program, name)]))
    ensures UniformKey(program, name) !in cache ==>
              && r.1 == None
              && r.0 == cache[UniformKey(program, name) := lookup(if program in programs then Some(programs[program]) else None, name)]
  {
    var key := UniformKey(program, name);
    if key in cache then (cache, Some(cache[key]))
    else
      var p := if program in programs then Some(programs[program]) else None;
      (cache[key := lookup(p, name)], None)
  }

  /** The first request for a uniform yields nothing and the second yields
      the location GL gave the first time. */
  lemma SecondRequestHits(cache: map<string, Location>, programs: map<string, Program>,
                          lookup: (Option<Program>, string) -> Location, program: string, name: string)
    requires UniformKey(program, name) !in cache
    ensures var (c1, first) := GetUniformLocationCached(cache, programs, lookup, program, name);
            var (c2, second) := GetUniformLocationCached(c1, programs, lookup, program, name);
            && first == None && c2 == c1
            && second == Some(lookup(if program in programs then Some(programs[program]) else None, name))
  {
  }

  /** The key does not separate its parts: a hyphen in a program or uniform
      name lets two different pairs share one cache entry. */
  lemma UniformKeysCollide()
    ensures UniformKey("a-b", "c") == UniformKey("a", "b-c")
  {
  }

  /* ---------- audio ---------- */

  datatype AudioEffect = StopTrack | PlayTrack | NoEffect

  /** The audio switch of `fixedUpdate`: while on, a held DisableAudio stops
      track 0 and turns it off; while off, a held EnableAudio plays it and
      turns it on; otherwise nothing happens. */
  function AudioToggle(on: bool, inputs: set<KeyInput>): (r: (bool, AudioEffect))
    ensures on && DisableAudio in inputs ==> r == (false, StopTrack)
    ensures !on && EnableAudio in inputs ==> r == (true, PlayTrack)
    ensures (on && DisableAudio !in inputs) || (!on && EnableAudio !in inputs) ==> r == (on, NoEffect)
  {
    if on then (if DisableAudio in inputs then (false, StopTrack) else (true, NoEffect))
    else (if EnableAudio in inputs then (true, PlayTrack) else (false, NoEffect))
  }

  /** The effect always matches the change of state: the track is stopped
      exactly when audio goes off and played exactly when it comes on. */
  lemma AudioEffectMatchesState(on: bool, inputs: set<KeyInput>)
    ensures var (next, effect) := AudioToggle(on, inputs);
            && (effect == StopTrack <==> on && !next)
            && (effect == PlayTrack <==> !on && next)
  {
  }

  /** Holding both keys flips the switch on every fixed update. */
  lemma BothKeysFlip(on: bool, inputs: set<KeyInput>)
    requires DisableAudio in inputs && EnableAudio in inputs
    ensures AudioToggle(on, inputs).0 == !on
    ensures AudioToggle(AudioToggle(on, inputs).0, inputs).0 == on
  {
  }

  /* ---------- collision tally ---------- */

  /** `Object.keys(ObjectType)[type]`: the member's name. */
  function TypeName(t: ObjectType): string {
    match t
    case Player => "Player"
    case NPC => "NPC"
    case MovingPlatform => "MovingPlatform"
  }

  /** One line of the tally: a type and how many collisions are with it. */
  datatype Tally = Tally(kind: ObjectType, count: nat)

  function Counted(tally: seq<Tally>): nat
    decreases |tally|
  {
    if |tally| == 0 then 0 else Counted(tally[..|tally| - 1]) + tally[|tally| - 1].count
  }

  function Kinds(tally: seq<Tally>): seq<ObjectType> {
    seq(|tally|, i requires 0 <= i < |tally| => tally[i].kind)
  }

  function CountIn(s: seq<ObjectType>, t: ObjectType): nat {
    multiset(s)[t]
  }

  /** The line of type t: its index, or -1 when the type has none yet
      (`info[type] === undefined`). */
  function FindKind(tally: seq<Tally>, t: ObjectType): (i: int)
    ensures -1 <= i < |tally|
    ensures i >= 0 ==> tally[i].kind == t
    ensures i < 0 ==> forall k | 0 <= k < |tally| :: tally[k].kind != t
  {
    if |tally| == 0 then -1
    else if tally[0].kind == t then 0
    else
      var j := FindKind(tally[1..], t);
      if j < 0 then -1 else j + 1
  }

  lemma {:induction false} CountedUpdate(tally: seq<Tally>, i: int, x: Tally)
    requires 0 <= i < |tally|
    ensures Counted(tally[i := x]) == Counted(tally) - tally[i].count + x.count
    decreases |tally|
  {
    var n := |tally|;
    if i == n - 1 {
      assert tally[i := x][..n - 1] == tally[..n - 1];
    } else {
      assert tally[i := x][..n - 1] == tally[..n - 1][i := x];
      CountedUpdate(tally[..n - 1], i, x);
    }
  }

  /** Adds one collision to the tally: the type's line grows by one, or a
      new line opens at the end. */
  function Bump(tally: seq<Tally>, t: ObjectType): (r: seq<Tally>)
    requires Distinct(Kinds(tally))
    ensures Counted(r) == Counted(tally) + 1
    ensures t in Kinds(tally) ==> |r| == |tally| && Kinds(r) == Kinds(tally)
    ensures t !in Kinds(tally) ==> r == tally + [Tally(t, 1)]
    ensures forall i | 0 <= i < |tally| :: r[i].count == tally[i].count + (if tally[i].kind == t then 1 else 0)
  {
    var i := FindKind(tally, t);
    if i < 0 then
      var r := tally + [Tally(t, 1)];
      assert r[..|r| - 1] == tally;
      assert t !in Kinds(tally);
      r
    else
      var r := tally[i := Tally(t, tally[i].count + 1)];
      CountedUpdate(tally, i, Tally(t, tally[i].count + 1));
      assert Kinds(tally)[i] == t;
      assert Kinds(r) == Kinds(tally);
      assert forall k | 0 <= k < |tally| && k != i :: tally[k].kind == Kinds(tally)[k] != t;
      r
  }

  predicate Distinct(kinds: seq<ObjectType>) {
    forall i, j | 0 <= i < j < |kinds| :: kinds[i] != kinds[j]
  }

  /** The tally counts the collisions s: one line per type met, each type
      once, each with the number of collisions with it. */
  predicate TallyOf(tally: seq<Tally>, s: seq<ObjectType>) {
    && Counted(tally) == |s|
    && Distinct(Kinds(tally))
    && (forall i | 0 <= i < |tally| :: tally[i].count == CountIn(s, tally[i].kind))
    && (forall t | t in s :: t in Kinds(tally))
  }

  lemma BumpCounts(tally: seq<Tally>, s: seq<ObjectType>, t: ObjectType)
    requires TallyOf(tally, s)
    ensures TallyOf(Bump(tally, t), s + [t])
  {
    var next := Bump(tally, t);
    assert forall u :: CountIn(s + [t], u) == CountIn(s, u) + (if u == t then 1 else 0);
    if t !in Kinds(tally) {
      assert Kinds(next) == Kinds(tally) + [t];
      assert CountIn(s, t) == 0;
      forall a, b | 0 <= a < b < |Kinds(next)|
        ensures Kinds(next)[a] != Kinds(next)[b]
      {
        if b == |tally| {
          assert Kinds(next)[a] == Kinds(tally)[a];
        }
      }
    } else {
      forall i | 0 <= i < |next|
        ensures next[i].count == CountIn(s + [t], next[i].kind)
      {
        assert next[i].kind == Kinds(next)[i] == Kinds(tally)[i] == tally[i].kind;
      }
    }
    forall u | u in s + [t]
      ensures u in Kinds(next)
    {
      if u != t {
        assert u in s;
        var k :| 0 <= k < |tally| && Kinds(tally)[k] == u;
        assert next[k].kind == Kinds(next)[k];
      } else if t !in Kinds(tally) {
        assert Kinds(next)[|tally|] == t;
      }
    }
  }

  /** `collectCollisions`: one line per type met, in order of first
      collision, each with the number of collisions with that type; the
      dialog shows exactly when there is a collision. */
  method CollectCollisions(collisions: seq<ObjectType>) returns (tally: seq<Tally>, visible: bool)
    ensures visible <==> |collisions| > 0
    ensures TallyOf(tally, collisions)
  {
    tally := [];
    var i := 0;
    while i < |collisions|
      invariant 0 <= i <= |collisions|
      invariant TallyOf(tally, collisions[..i])
    {
      assert collisions[..i + 1] == collisions[..i] + [collisions[i]];
      BumpCounts(tally, collisions[..i], collisions[i]);
      tally := Bump(tally, collisions[i]);
      i := i + 1;
    }
    assert collisions[..i] == collisions;
    visible := |collisions| != 0;
  }

  /** The message lines: "<type>: <count>". */
  function TallyLines(tally: seq<Tally>): (lines: seq<string>)
    ensures |lines| == |tally|
    ensures forall i | 0 <= i < |tally| ::
              lines[i] == TypeName(tally[i].kind) + ": " + Dialog.NatToString(tally[i].count)
  {
    seq(|tally|, i requires 0 <= i < |tally| => TypeName(tally[i].kind) + ": " + Dialog.NatToString(tally[i].count))
  }

  /* ---------- update: keys to inputs ---------- */

  /** The keys `update` polls, named after the key table entries. */
  datatype Key = RightKey | LeftKey | DownKey | JumpKeyCode | Minus | Equal | M | N | Backspace | UpKey

  /** The key that drives each input. */
  function KeyFor(k: KeyInput): Key {
    match k
    case GoRight => RightKey
    case GoLeft => LeftKey
    case GoDown => DownKey
    case JumpKey => JumpKeyCode
    case ScaleDown => Minus
    case ScaleUp => Equal
    case DisableAudio => M
    case EnableAudio => N
    case ScaleNormal => Backspace
    case Up => UpKey
  }

  /** One key's add-or-delete of `update`. */
  function Poll(inputs: set<KeyInput>, held: set<Key>, k: KeyInput): set<KeyInput> {
    if KeyFor(k) in held then inputs + {k} else inputs - {k}
  }

  /** `update`: the ten inputs are set from the keys, one after the other. */
  function Update(inputs: set<KeyInput>, held: set<Key>): (r: set<KeyInput>)
    ensures forall k: KeyInput :: k in r <==> KeyFor(k) in held
  {
    var s := Poll(inputs, held, GoRight);
    var s := Poll(s, held, GoLeft);
    var s := Poll(s, held, GoDown);
    var s := Poll(s, held, JumpKey);
    var s := Poll(s, held, ScaleDown);
    var s := Poll(s, held, ScaleUp);
    var s := Poll(s, held, DisableAudio);
    var s := Poll(s, held, EnableAudio);
    var s := Poll(s, held, ScaleNormal);
    Poll(s, held, Up)
  }

  /** Every input is driven by a key, so the previous inputs leave no trace. */
  lemma UpdateForgets(a: set<KeyInput>, b: set<KeyInput>, held: set<Key>)
    ensures Update(a, held) == Update(b, held)
  {
  }
}

=== FILE: enums.dfy ===
/** The enumerations the core switches on.

    `TileCollisionType` and `ObjectType` are imported from `enums.js` but the copy
    of that file in the repository does not define them, and `KeyInput` there lacks
    several members that `engine.js`, `Character.js` and `DialogRenderer.js` use.
    They are modelled as closed enumerations of the members the code names; their
    numeric values are not modelled. */
module Enums {

  /** The eight flip/rotation variants of a slope shape. */
  datatype Orientation = Base | FX | FY | FXY | F90 | F90X | F90XY | F90Y

  /** Tile shapes: the two plain kinds, the two slope families in all eight
      orientations, and every other member (one-way variants, further slope
      families), which the code never distinguishes and which `Other` stands for. */
  datatype TileCollisionType =
    | Empty
    | Full
    | Slope45(o: Orientation)
    | SlopeMid1(o: Orientation)
    | Other(tag: nat)

  datatype ObjectType = Player | NPC | MovingPlatform

  datatype CharacterState = Stand | Walk | Jump | GrabLedge

  datatype KeyInput =
    | GoLeft | GoRight | GoDown | JumpKey
    | ScaleDown | ScaleUp | DisableAudio | EnableAudio | ScaleNormal | Up
}

=== FILE: math_util.dfy ===
/** `scripts/misc/math.js`. */
module MathUtil {
  import opened Vec

  /** `sign(x)`: 1 for x >= 0 (zero included), -1 otherwise. */
  function Sign(x: real): (r: int)
    ensures r != 0
    ensures r == 1 <==> x >= 0.0
    ensures r == -1 <==> x < 0.0
  {
    if x >= 0.0 then 1 else -1
  }

  /** The sign times the magnitude gives the number back, so `sign` separates a
      number into its direction and its size. */
  lemma SignTimesMagnitude(x: real)
    ensures (Sign(x) as real) * (if x >= 0.0 then x else -x) == x
    ensures Sign(-x) == -Sign(x) <==> x != 0.0
  {
  }

  /** `clamp(value, min, max) = Math.max(min, Math.min(value, max))`. */
  function Clamp(v: real, lo: real, hi: real): (r: real)
    ensures lo <= hi ==> lo <= r <= hi
    ensures lo <= v <= hi ==> r == v
    ensures hi < lo ==> r == lo
    ensures lo <= hi && v < lo ==> r == lo
    ensures lo <= hi && hi < v ==> r == hi
  {
    Max(lo, Min(v, hi))
  }

  /** Clamping twice is clamping once, for every pair of bounds (including the
      inverted pair, where both calls return `lo`). */
  lemma ClampIdempotent(v: real, lo: real, hi: real)
    ensures Clamp(Clamp(v, lo, hi), lo, hi) == Clamp(v, lo, hi)
  {
  }

  /** Euclidean remainder of q * len + r for 0 <= r < len. */
  lemma ModOfMultiple(q: int, len: int, r: int)
    requires len > 0 && 0 <= r < len
    ensures (q * len + r) % len == r
  {
    var a := q * len + r;
    var d := q - a / len;
    assert len * d == a % len - r;
  }

  /** Adding one commutes with taking the remainder. */
  lemma ModSucc(a: nat, m: int)
    requires m >= 1
    ensures (a % m + 1) % m == (a + 1) % m
  {
    var q, r := a / m, a % m;
    assert a == q * m + r;
    if r + 1 < m {
      ModOfMultiple(q, m, r + 1);
      ModOfMultiple(0, m, r + 1);
    } else {
      assert a + 1 == (q + 1) * m + 0;
      ModOfMultiple(q + 1, m, 0);
      ModOfMultiple(1, m, 0);
    }
  }
}

=== FILE: moving_object.dfy ===
/** `scripts/object/MovingObject.js`: the physics body shared by the platform
    and the character, and its explicit Euler step with a ground clamp at y = 0. */
module MovingObjects {
  import opened Vec
  import opened Aabb

  datatype Body = Body(
    oldPosition: Vec2, position: Vec2,
    oldSpeed: Vec2, speed: Vec2,
    scale: Vec2,
    box: Box, boxOffset: Vec2,
    pushedRightWall: bool, pushesRightWall: bool,
    pushedLeftWall: bool, pushesLeftWall: bool,
    wasOnGround: bool, onGround: bool,
    wasAtCeiling: bool, atCeiling: bool,
    deltaTime: real)

  /** The constructor: every vector zero, every flag false, a fresh box. */
  function NewBody(): (b: Body)
    ensures b.position == Zero && b.oldPosition == Zero && b.speed == Zero && b.oldSpeed == Zero
    ensures b.scale == Zero && b.boxOffset == Zero && b.box == NewBox() && b.deltaTime == 0.0
    ensures !b.onGround && !b.wasOnGround && !b.atCeiling && !b.wasAtCeiling
    ensures !b.pushesRightWall && !b.pushedRightWall && !b.pushesLeftWall && !b.pushedLeftWall
  {
    Body(Zero, Zero, Zero, Zero, Zero, NewBox(), Zero,
         false, false, false, false, false, false, false, false, 0.0)
  }

  datatype Point3 = Point3(x: int, y: int, z: int)

  /** The `position` getter: each coordinate rounded the JavaScript way, z = 0. */
  function DisplayPosition(b: Body): (p: Point3)
    ensures b.position.x - 0.5 < p.x as real <= b.position.x + 0.5
    ensures b.position.y - 0.5 < p.y as real <= b.position.y + 0.5
    ensures p.z == 0
  {
    Point3(Round(b.position.x), Round(b.position.y), 0)
  }

  /** An integral coordinate is shown as it is. */
  lemma DisplayPositionIntegral(b: Body, i: int, j: int)
    requires b.position == Vec2(i as real, j as real)
    ensures DisplayPosition(b) == Point3(i, j, 0)
  {
  }

  /** `updatePhysics`. The previous-frame flags take the current ones; the
      position advances by speed * deltaTime and is clamped to the ground y = 0,
      which sets `onGround`; the box follows the position. `mOldPosition` is
      assigned the position vector itself before that vector is updated in
      place, so afterwards it reads the NEW position. */
  function UpdatePhysics(b: Body): (r: Body)
    ensures r.wasOnGround == b.onGround && r.wasAtCeiling == b.atCeiling
    ensures r.pushedRightWall == b.pushesRightWall && r.pushedLeftWall == b.pushesLeftWall
    ensures r.pushesRightWall == b.pushesRightWall && r.pushesLeftWall == b.pushesLeftWall
    ensures r.atCeiling == b.atCeiling
    ensures r.speed == b.speed && r.oldSpeed == b.speed
    ensures r.position.x == b.position.x + b.speed.x * b.deltaTime
    ensures r.onGround <==> b.position.y + b.speed.y * b.deltaTime <= 0.0
    ensures r.onGround ==> r.position.y == 0.0
    ensures !r.onGround ==> r.position.y == b.position.y + b.speed.y * b.deltaTime
    ensures r.position.y >= 0.0
    ensures r.box.center == Add(r.position, r.boxOffset)
    ensures r.box.halfSize == b.box.halfSize && r.boxOffset == b.boxOffset
    ensures r.oldPosition == r.position
    ensures r.scale == b.scale && r.deltaTime == b.deltaTime
  {
    var moved := ScaleAndAdd(b.position, b.speed, b.deltaTime);
    var grounded := moved.y <= 0.0;
    var position := if grounded then moved.(y := 0.0) else moved;
    b.(oldPosition := position, position := position, oldSpeed := b.speed,
       wasOnGround := b.onGround, pushedRightWall := b.pushesRightWall,
       pushedLeftWall := b.pushesLeftWall, wasAtCeiling := b.atCeiling,
       onGround := grounded,
       box := b.box.(center := Add(position, b.boxOffset)))
  }

  /** n consecutive physics steps with nothing else changing the body. */
  function Steps(b: Body, n: nat): Body
    decreases n
  {
    if n == 0 then b else Steps(UpdatePhysics(b), n - 1)
  }

  /** Steps keep the speed and the time step. */
  lemma {:induction false} StepsKeepSpeed(b: Body, n: nat)
    ensures Steps(b, n).speed == b.speed && Steps(b, n).deltaTime == b.deltaTime
    decreases n
  {
    if n > 0 {
      StepsKeepSpeed(UpdatePhysics(b), n - 1);
    }
  }

  /** Horizontally n steps move by n * vx * dt. */
  lemma {:induction false} StepsX(b: Body, n: nat)
    ensures Steps(b, n).position.x == b.position.x + (n as real) * (b.speed.x * b.deltaTime)
    decreases n
  {
    if n > 0 {
      StepsX(UpdatePhysics(b), n - 1);
      var dx := b.speed.x * b.deltaTime;
      assert (n as real) * dx == dx + ((n - 1) as real) * dx;
    }
  }

  /** The height after n steps of the clamped fall y -> max(y + dy, 0). */
  function Height(y: real, dy: real, n: nat): real
    decreases n
  {
    if n == 0 then y else Height(Max(y + dy, 0.0), dy, n - 1)
  }

  /** The body's height follows the clamped fall, and after a step the body is
      on the ground exactly when the fall from the previous height reaches 0. */
  lemma {:induction false} StepsFollowHeight(b: Body, n: nat, dy: real)
    requires dy == b.speed.y * b.deltaTime
    ensures Steps(b, n).position.y == Height(b.position.y, dy, n)
    ensures n >= 1 ==> (Steps(b, n).onGround <==> Height(b.position.y, dy, n - 1) + dy <= 0.0)
    decreases n
  {
    if n > 0 {
      var b1 := UpdatePhysics(b);
      assert b1.speed == b.speed && b1.deltaTime == b.deltaTime;
      assert b1.position.y == Max(b.position.y + dy, 0.0);
      StepsFollowHeight(b1, n - 1, dy);
    }
  }

  /** For a non-rising fall from y >= 0, n >= 1 clamped steps land at
      max(y + n * dy, 0). */
  lemma {:induction false} HeightClosedForm(y: real, dy: real, n: nat)
    requires y >= 0.0 && dy <= 0.0 && n >= 1
    ensures Height(y, dy, n) == Max(y + (n as real) * dy, 0.0)
    decreases n
  {
    if n > 1 {
      var k := (n - 1) as real;
      HeightClosedForm(Max(y + dy, 0.0), dy, n - 1);
      assert (n as real) * dy == k * dy + dy;
      assert k * dy <= 0.0;
    }
  }

  /** The clamped fall touches the ground at step n exactly when the
      unclamped fall has reached it. */
  lemma GroundedClosedForm(y: real, dy: real, n: nat)
    requires y >= 0.0 && dy <= 0.0 && n >= 1
    ensures Height(y, dy, n - 1) + dy <= 0.0 <==> y + (n as real) * dy <= 0.0
  {
    var k := (n - 1) as real;
    assert (n as real) * dy == k * dy + dy;
    if n > 1 {
      HeightClosedForm(y, dy, n - 1);
      assert k * dy <= 0.0;
    }
  }

  /** Closed form of n >= 1 steps for a body that does not rise (dy is its
      vertical displacement per step): y is the unclamped fall floored at the
      ground, and the body is on the ground exactly when the unclamped fall
      reaches y <= 0. */
  lemma StepsY(b: Body, n: nat, dy: real)
    requires n >= 1 && b.position.y >= 0.0 && dy == b.speed.y * b.deltaTime && dy <= 0.0
    ensures Steps(b, n).position.y == Max(b.position.y + (n as real) * dy, 0.0)
    ensures Steps(b, n).onGround <==> b.position.y + (n as real) * dy <= 0.0
  {
    StepsFollowHeight(b, n, dy);
    HeightClosedForm(b.position.y, dy, n);
    GroundedClosedForm(b.position.y, dy, n);
  }

  /** A body resting on the ground with no upward speed stays there. */
  lemma GroundIsStable(b: Body)
    requires b.position.y == 0.0 && b.speed.y * b.deltaTime <= 0.0
    ensures UpdatePhysics(b).onGround && UpdatePhysics(b).position.y == 0.0
  {
  }
}

=== FILE: moving_platform.dfy ===
/** `scripts/object/MovingPlatform.js`: a kinematic platform that patrols by
    turning whenever it pushes against tiles. */
module MovingPlatforms {
  import opened Vec
  import opened Aabb
  import opened MovingObjects
  import opened PositionStates

  const PlatformHalfSize := Vec2(32.0, 8.0)
  const PlatformSpeed: real := 100.0

  /** `mPS` is read by `customUpdate` but set nowhere in the repository; it is a
      field here, supplied by whoever drives the platform. */
  datatype Platform = Platform(body: Body, slopeWallHeight: real, movingSpeed: real,
                               isKinematic: bool, ps: PositionState)

  predicate Configured(p: Platform) {
    p.body.box.halfSize == PlatformHalfSize && p.slopeWallHeight == 0.0
    && p.movingSpeed == PlatformSpeed && p.isKinematic && p.body.speed.x == PlatformSpeed
  }

  /** The constructor: a fresh body, then the platform parameters. */
  function NewPlatform(ps: PositionState): (p: Platform)
    ensures Configured(p) && p.ps == ps
    ensures p.body.speed == Vec2(PlatformSpeed, 0.0) && p.body.position == Zero
  {
    var b := NewBody();
    Platform(b.(box := b.box.(halfSize := PlatformHalfSize), speed := b.speed.(x := PlatformSpeed)),
             0.0, PlatformSpeed, true, ps)
  }

  /** `init`: sets the same parameters again and touches nothing else. */
  function Init(p: Platform): (r: Platform)
    ensures Configured(r)
    ensures r.body.speed.y == p.body.speed.y && r.body.position == p.body.position
    ensures r.body.box.center == p.body.box.center && r.ps == p.ps
  {
    p.(body := p.body.(box := p.body.box.(halfSize := PlatformHalfSize),
                       speed := p.body.speed.(x := PlatformSpeed)),
       slopeWallHeight := 0.0, movingSpeed := PlatformSpeed, isKinematic := true)
  }

  /** `init` on a configured platform changes nothing. */
  lemma InitIdempotent(p: Platform)
    ensures Init(Init(p)) == Init(p)
    ensures Configured(p) ==> Init(p) == p
  {
  }

  lemma InitOfNew(ps: PositionState)
    ensures Init(NewPlatform(ps)) == NewPlatform(ps)
  {
  }

  /** The four turning rules, tried in order (right, bottom, left, top). */
  predicate TurnDown(t: Sides) { t.right && !t.bottom }
  predicate TurnLeft(t: Sides) { t.bottom && !t.left }
  predicate TurnUp(t: Sides) { t.left && !t.top }
  predicate TurnRight(t: Sides) { t.top && !t.right }

  /** The patrol rule: the first rule that applies sets one velocity component
      to +/- s; when none applies the velocity is left as it is. */
  function Patrol(t: Sides, v: Vec2, s: real): (w: Vec2)
    ensures w.x == v.x || w.y == v.y
    ensures w.x != v.x ==> w.x == s || w.x == -s
    ensures w.y != v.y ==> w.y == s || w.y == -s
    ensures TurnDown(t) ==> w == Vec2(v.x, -s)
    ensures !TurnDown(t) && TurnLeft(t) ==> w == Vec2(-s, v.y)
    ensures !TurnDown(t) && !TurnLeft(t) && TurnUp(t) ==> w == Vec2(v.x, s)
    ensures !TurnDown(t) && !TurnLeft(t) && !TurnUp(t) && TurnRight(t) ==> w == Vec2(s, v.y)
    ensures !TurnDown(t) && !TurnLeft(t) && !TurnUp(t) && !TurnRight(t) ==> w == v
  {
    if TurnDown(t) then v.(y := -s)
    else if TurnLeft(t) then v.(x := -s)
    else if TurnUp(t) then v.(y := s)
    else if TurnRight(t) then v.(x := s)
    else v
  }

  /** Touching exactly one side turns the platform clockwise: right wall -> down,
      floor -> left, left wall -> up, ceiling -> right. */
  lemma PatrolTurnsClockwise(v: Vec2, s: real)
    ensures Patrol(Sides(true, false, false, false), v, s).y == -s
    ensures Patrol(Sides(false, false, true, false), v, s).x == -s
    ensures Patrol(Sides(false, true, false, false), v, s).y == s
    ensures Patrol(Sides(false, false, false, true), v, s).x == s
  {
  }

  /** No rule applies when nothing is touched, or when all four sides are. */
  lemma PatrolIdleCases(v: Vec2, s: real)
    ensures Patrol(Sides(false, false, false, false), v, s) == v
    ensures Patrol(Sides(true, true, true, true), v, s) == v
  {
  }

  /** Some rule applies exactly when some side, but not all four, is touched. */
  lemma PatrolFires(t: Sides)
    ensures (TurnDown(t) || TurnLeft(t) || TurnUp(t) || TurnRight(t))
        <==> ((t.right || t.left || t.bottom || t.top) && !(t.right && t.left && t.bottom && t.top))
  {
  }

  /** `customUpdate`: the patrol rule on the tile-pushing flags, then exactly one
      physics step with the new velocity. */
  function CustomUpdate(p: Platform): (r: Platform)
    ensures r.body.speed == Patrol(p.ps.pushesTile, p.body.speed, p.movingSpeed)
    ensures r.body.wasOnGround == p.body.onGround && r.body.oldPosition == r.body.position
    ensures r.body.position.x == p.body.position.x + r.body.speed.x * p.body.deltaTime
    ensures r.body.onGround <==> p.body.position.y + r.body.speed.y * p.body.deltaTime <= 0.0
    ensures r.body.onGround ==> r.body.position.y == 0.0
    ensures !r.body.onGround ==> r.body.position.y == p.body.position.y + r.body.speed.y * p.body.deltaTime
    ensures r.body.position.y >= 0.0
    ensures r.ps == p.ps && r.movingSpeed == p.movingSpeed && r.isKinematic == p.isKinematic
  {
    var v := Patrol(p.ps.pushesTile, p.body.speed, p.movingSpeed);
    p.(body := UpdatePhysics(p.body.(speed := v)))
  }
}

=== FILE: mtsdf_text.dfy ===
/** `scripts/object/MTSDFText.js`: the quad buffers of a text, the greedy line
    breaking of `layout`, the line summary of `populateBuffers` and
    `getKernPairOffset`. Glyph metrics are given numbers; the vertex positions
    and texture coordinates are not modelled. */
module Text {
  import opened Wrappers

  /** The loop guard of `layout`: iterations in a row that place nothing. */
  const MaxTimes: nat := 100

  /* ---------- buffers of createGeometry ---------- */

  datatype Buffers = Buffers(position: seq<real>, uv: seq<real>, id: seq<int>, index: seq<int>)

  /** Quad i uses vertices 4i..4i+3, drawn as the triangles (0, 2, 1) and (1, 2, 3). */
  predicate QuadIndices(index: seq<int>, i: nat)
    requires 6 * i + 6 <= |index|
  {
    && index[6 * i] == 4 * i && index[6 * i + 1] == 4 * i + 2 && index[6 * i + 2] == 4 * i + 1
    && index[6 * i + 3] == 4 * i + 1 && index[6 * i + 4] == 4 * i + 2 && index[6 * i + 5] == 4 * i + 3
  }

  /** The buffers for a text of n characters: three position components and
      two texture coordinates per vertex, four vertices per character, every
      vertex tagged with its character's number, six indices per character. */
  method CreateBuffers(n: nat) returns (b: Buffers)
    ensures |b.position| == 12 * n && |b.uv| == 8 * n && |b.id| == 4 * n && |b.index| == 6 * n
    ensures forall k | 0 <= k < 4 * n :: b.id[k] == k / 4
    ensures forall i | 0 <= i < n :: QuadIndices(b.index, i)
    ensures forall k | 0 <= k < 6 * n :: 0 <= b.index[k] < 4 * n
  {
    var id: seq<int> := [];
    var index: seq<int> := [];
    var i := 0;
    while i < n
      invariant 0 <= i <= n && |id| == 4 * i && |index| == 6 * i
      invariant forall k | 0 <= k < 4 * i :: id[k] == k / 4
      invariant forall j | 0 <= j < i :: QuadIndices(index, j)
      invariant forall k | 0 <= k < 6 * i :: 0 <= index[k] < 4 * i
    {
      var quad := [4 * i, 4 * i + 2, 4 * i + 1, 4 * i + 1, 4 * i + 2, 4 * i + 3];
      var id' := id + [i, i, i, i];
      forall k | 0 <= k < 4 * i + 4
        ensures id'[k] == k / 4
      {
        if k >= 4 * i {
          assert 4 * i <= k < 4 * (i + 1);
        }
      }
      var index' := index + quad;
      forall j | 0 <= j <= i
        ensures QuadIndices(index', j)
      {
        if j < i {
          assert 6 * j + 6 <= 6 * i;
          assert QuadIndices(index, j);
        }
      }
      id := id';
      index := index';
      i := i + 1;
    }
    b := Buffers(seq(12 * n, _ => 0.0), seq(8 * n, _ => 0.0), id, index);
  }

  /* ---------- fonts and kerning ---------- */

  /** A font: the advance of every glyph (keyed by the character it draws,
      later variants overriding earlier ones) and the length of each variant's
      kerning table. */
  datatype Font = Font(advance: map<char, real>, kerningLengths: seq<nat>)

  /** `getKernPairOffset`: the loop body throws before doing anything else, so
      the offset is 0 when no variant has kerning entries and an error otherwise. */
  function KernPairOffset(kerningLengths: seq<nat>): (r: Result<real>)
    ensures r == Success(0.0) <==> forall v | 0 <= v < |kerningLengths| :: kerningLengths[v] == 0
    ensures r.Success? ==> r.value == 0.0
    ensures r.Failure? ==> r.error == "Not implemented"
    decreases |kerningLengths|
  {
    if |kerningLengths| == 0 then Success(0.0)
    else if kerningLengths[0] > 0 then Failure("Not implemented")
    else KernPairOffset(kerningLengths[1..])
  }

  /** The glyph drawn for a character: its own, else the space glyph. */
  function GlyphKey(font: Font, c: char): (g: Option<char>)
    ensures g.Some? ==> g.value in font.advance
    ensures c in font.advance ==> g == Some(c)
    ensures c !in font.advance ==> g == (if ' ' in font.advance then Some(' ') else None)
  {
    if c in font.advance then Some(c) else if ' ' in font.advance then Some(' ') else None
  }

  /** JavaScript's `\s`. */
  predicate IsWhitespace(c: char) {
    || c == ' ' || c == '\t' || c == '\n' || c == '\r' || c == '\U{000B}' || c == '\U{000C}'
    || c == '\U{00A0}' || c == '\U{1680}' || ('\U{2000}' <= c <= '\U{200A}')
    || c == '\U{2028}' || c == '\U{2029}' || c == '\U{202F}' || c == '\U{205F}'
    || c == '\U{3000}' || c == '\U{FEFF}'
  }

  /* ---------- layout ---------- */

  /** The layout options that line breaking reads; `width` None is Infinity. */
  datatype Options = Options(width: Option<real>, size: real, letterSpacing: real,
                             wordSpacing: real, wordBreak: bool)

  /** A placed glyph: the glyph (named by the character it draws) and its x. */
  datatype Glyph = Glyph(key: char, x: real)

  datatype Line = Line(width: real, glyphs: seq<Glyph>)

  /** The loop state of `layout`; the current line is the last of `lines`. */
  datatype State = State(cursor: nat, wordCursor: nat, wordWidth: real, lines: seq<Line>, count: nat)

  predicate Exceeds(w: real, limit: Option<real>) { limit.Some? && w > limit.value }

  function Current(s: State): Line
    requires |s.lines| > 0
  {
    s.lines[|s.lines| - 1]
  }

  function WithCurrent(s: State, l: Line): (r: State)
    requires |s.lines| > 0
    ensures |r.lines| == |s.lines| && Current(r) == l
    ensures r.lines[..|s.lines| - 1] == s.lines[..|s.lines| - 1]
    ensures l == Current(s) ==> r == s
  {
    var r := s.(lines := s.lines[..|s.lines| - 1] + [l]);
    assert l == Current(s) ==> r.lines == s.lines;
    r
  }

  /** `newLine`: an empty line is appended and the word restarts at the cursor. */
  function NewLine(s: State): (r: State)
    ensures r.lines == s.lines + [Line(0.0, [])]
    ensures r.wordCursor == s.cursor && r.wordWidth == 0.0 && r.cursor == s.cursor && r.count == s.count
  {
    s.(lines := s.lines + [Line(0.0, [])], wordCursor := s.cursor, wordWidth := 0.0)
  }

  /** `glyphs.splice(-n, n)` for the n glyphs of the current word. */
  function DropLast(g: seq<Glyph>, n: int): (r: seq<Glyph>)
    ensures n <= 0 ==> r == g
    ensures n > 0 ==> r == g[..if n >= |g| then 0 else |g| - n]
  {
    if n <= 0 then g else if n >= |g| then [] else g[..|g| - n]
  }

  function InitialState(): (s: State)
    ensures |s.lines| == 1 && Current(s) == Line(0.0, []) && s.cursor == 0 && s.count == 0
  {
    State(0, 0, 0.0, [Line(0.0, [])], 0)
  }

  /** The advance of a glyph: word spacing after whitespace, letter spacing
      otherwise, plus the glyph's own advance, all scaled by the size. */
  function Advance(font: Font, opt: Options, c: char, g: char): real
    requires g in font.advance
  {
    (if IsWhitespace(c) then opt.wordSpacing * opt.size else opt.letterSpacing * opt.size)
      + font.advance[g] * opt.size
  }

  /** Pushes glyph g of character c at the current line's width plus the
      kerning; when that overflows the width limit, either the glyph is taken
      back (word breaking, lines of two glyphs or more) or the whole current
      word is taken back (otherwise, unless the word is the whole line), and a
      new line is started without advancing past the character. */
  function Place(c: char, g: char, font: Font, opt: Options, s: State, kern: real): (r: State)
    requires |s.lines| > 0 && g in font.advance
    ensures |r.lines| > 0
    ensures var n := |s.lines|;
            var x := Current(s).width + kern * opt.size;
            || (&& r.cursor == s.cursor + 1 && r.count == 0
                && |r.lines| == n && r.lines[..n - 1] == s.lines[..n - 1]
                && Current(r).glyphs == Current(s).glyphs + [Glyph(g, x)]
                && (opt.wordBreak && |Current(r).glyphs| >= 2 ==> !Exceeds(Current(r).width, opt.width)))
            || (&& opt.wordBreak && |Current(s).glyphs| > 0 && r.cursor == s.cursor && r.count == s.count
                && r.lines == s.lines[..n - 1] + [Line(x, Current(s).glyphs), Line(0.0, [])])
            || (&& !opt.wordBreak && r.count == s.count
                && r.cursor == (if IsWhitespace(c) then s.cursor else s.wordCursor)
                && |r.lines| == n + 1 && Current(r) == Line(0.0, []))
  {
    var x := Current(s).width + kern * opt.size;
    var adv := Advance(font, opt, c, g);
    var glyphs := Current(s).glyphs + [Glyph(g, x)];
    var wordCursor := if IsWhitespace(c) then s.cursor else s.wordCursor;
    var wordWidth := (if IsWhitespace(c) then 0.0 else s.wordWidth + kern * opt.size) + adv;
    var width := x + adv;
    if Exceeds(width, opt.width) && opt.wordBreak && |glyphs| > 1 then
      NewLine(WithCurrent(s, Line(x, Current(s).glyphs)))
    else if Exceeds(width, opt.width) && !opt.wordBreak && wordWidth != width then
      var back := WithCurrent(s, Line(width - wordWidth, DropLast(glyphs, s.cursor - wordCursor + 1)));
      NewLine(back.(cursor := wordCursor))
    else
      WithCurrent(s, Line(width, glyphs)).(cursor := s.cursor + 1, wordCursor := wordCursor,
                                           wordWidth := wordWidth, count := 0)
  }

  /** One iteration of the `layout` loop: the iteration is counted, a newline
      starts a new line, and any other character is placed (see `Place`). A
      missing glyph and a font with kerning data end in the errors JavaScript
      throws. */
  function Step(text: string, font: Font, opt: Options, s: State): (r: Result<State>)
    requires s.cursor < |text| && |s.lines| > 0
    ensures text[s.cursor] == '\n' ==> r == Success(NewLine(s.(cursor := s.cursor + 1, count := s.count + 1)))
    ensures r.Failure? <==> text[s.cursor] != '\n' && (GlyphKey(font, text[s.cursor]).None?
                              || (|Current(s).glyphs| > 0 && KernPairOffset(font.kerningLengths).Failure?))
    ensures r.Success? ==> |r.value.lines| > 0
    ensures r.Failure? ==> LayoutError(r.error)
    ensures r.Success? && text[s.cursor] != '\n' ==>
              || (&& r.value.cursor == s.cursor + 1 && r.value.count == 0
                  && |r.value.lines| == |s.lines| && r.value.lines[..|s.lines| - 1] == s.lines[..|s.lines| - 1]
                  && Current(r.value).glyphs
                     == Current(s).glyphs + [Glyph(GlyphKey(font, text[s.cursor]).value, Current(s).width)]
                  && (opt.wordBreak && |Current(r.value).glyphs| >= 2 ==> !Exceeds(Current(r.value).width, opt.width)))
              || (&& opt.wordBreak && |Current(s).glyphs| > 0 && r.value.cursor == s.cursor
                  && r.value.count == s.count + 1 && r.value.lines == s.lines + [Line(0.0, [])])
              || (&& !opt.wordBreak && r.value.count == s.count + 1
                  && r.value.cursor == (if IsWhitespace(text[s.cursor]) then s.cursor else s.wordCursor)
                  && |r.value.lines| == |s.lines| + 1 && Current(r.value) == Line(0.0, []))
  {
    var s := s.(count := s.count + 1);
    var c := text[s.cursor];
    if c == '\n' then Success(NewLine(s.(cursor := s.cursor + 1)))
    else if GlyphKey(font, c).None? then Failure("TypeError")
    else
      var kern :- if |Current(s).glyphs| > 0 then KernPairOffset(font.kerningLengths) else Success(0.0);
      assert kern == 0.0;
      assert s.lines[..|s.lines| - 1] + [Current(s)] == s.lines;
      Success(Place(c, GlyphKey(font, c).value, font, opt, s, kern))
  }

  /** The errors `layout` can end in: a missing glyph read as `undefined`, the
      kerning lookup, and the model's iteration budget. */
  predicate LayoutError(e: string) {
    e == "TypeError" || e == "Not implemented" || e == "iteration budget exhausted"
  }

  predicate Running(text: string, s: State) { s.cursor < |text| && s.count < MaxTimes }

  /** The `layout` loop, run for at most `fuel` iterations. */
  function Run(text: string, font: Font, opt: Options, s: State, fuel: nat): (r: Result<State>)
    requires |s.lines| > 0
    ensures r.Success? ==> |r.value.lines| > 0 && !Running(text, r.value)
    ensures r.Failure? ==> LayoutError(r.error)
    decreases fuel
  {
    if !Running(text, s) then Success(s)
    else if fuel == 0 then Failure("iteration budget exhausted")
    else
      var next :- Step(text, font, opt, s);
      Run(text, font, opt, next, fuel - 1)
  }

  /** The end of `layout`: a last line of width 0 is dropped. Nothing else is
      removed, and a dropped line that holds no glyph loses no glyph. */
  function Finish(lines: seq<Line>): (r: seq<Line>)
    requires |lines| > 0
    ensures r <= lines && |lines| - 1 <= |r|
    ensures |r| < |lines| <==> lines[|lines| - 1].width == 0.0
    ensures Flatten(r) <= Flatten(lines)
    ensures lines[|lines| - 1].glyphs == [] ==> Flatten(r) == Flatten(lines)
  {
    if lines[|lines| - 1].width == 0.0 then
      assert lines == lines[..|lines| - 1] + [lines[|lines| - 1]];
      FlattenAppend(lines[..|lines| - 1], lines[|lines| - 1]);
      lines[..|lines| - 1]
    else lines
  }

  /** The iteration budget of the model: (|text| + 1)^2 rounds of MaxTimes. */
  function Budget(text: string): nat { (|text| + 1) * (|text| + 1) * MaxTimes }

  /** `layout`: the lines of the text. It fails only with the errors the loop
      throws or when the budget runs out. */
  function Layout(text: string, font: Font, opt: Options): (r: Result<seq<Line>>)
    ensures r.Failure? ==> LayoutError(r.error)
  {
    var s :- Run(text, font, opt, InitialState(), Budget(text));
    Success(Finish(s.lines))
  }

  /* ---------- what layout places ---------- */

  /** The glyph keys of all lines, in order. */
  function Keys(g: seq<Glyph>): (r: seq<char>)
    ensures |r| == |g|
    decreases |g|
  {
    if |g| == 0 then [] else Keys(g[..|g| - 1]) + [g[|g| - 1].key]
  }

  function Flatten(lines: seq<Line>): seq<char>
    decreases |lines|
  {
    if |lines| == 0 then [] else Flatten(lines[..|lines| - 1]) + Keys(lines[|lines| - 1].glyphs)
  }

  /** What the text should show: every character but the newlines, each as
      the glyph drawn for it. */
  function Rendered(font: Font, t: string): seq<char>
    requires ' ' in font.advance
    decreases |t|
  {
    if |t| == 0 then []
    else Rendered(font, t[..|t| - 1])
         + (if t[|t| - 1] == '\n' then [] else [GlyphKey(font, t[|t| - 1]).value])
  }

  /** The number of newlines that end t. */
  function TrailingNewlines(t: string): (n: nat)
    ensures n <= |t|
    decreases |t|
  {
    if |t| == 0 || t[|t| - 1] != '\n' then 0 else 1 + TrailingNewlines(t[..|t| - 1])
  }

  /** A glyph retried on a new line after word breaking is pending. */
  predicate Pending(text: string, s: State)
    requires |s.lines| > 0
  {
    Current(s).glyphs == [] && 0 < s.cursor <= |text| && text[s.cursor - 1] != '\n'
  }

  /** The invariant of the loop with word breaking and without kerning data. */
  predicate BreakInv(text: string, font: Font, opt: Options, s: State)
    requires ' ' in font.advance
  {
    && |s.lines| > 0 && s.cursor <= |text|
    && Flatten(s.lines) == Rendered(font, text[..s.cursor])
    && s.count == TrailingNewlines(text[..s.cursor]) + (if Pending(text, s) then 1 else 0)
    && (|Current(s).glyphs| > 0 ==> 0 < s.cursor && text[s.cursor - 1] != '\n')
    && (Pending(text, s) ==> s.cursor < |text| && text[s.cursor] != '\n')
    && (forall k | 0 <= k < |s.lines| :: |s.lines[k].glyphs| >= 2 ==> !Exceeds(s.lines[k].width, opt.width))
  }

  /** Room left: two per character still to place, one more while the current
      line holds glyphs. */
  function Measure(text: string, s: State): nat
    requires |s.lines| > 0 && s.cursor <= |text|
  {
    2 * (|text| - s.cursor) + (if Current(s).glyphs == [] then 0 else 1)
  }

  predicate NoKerning(font: Font) {
    forall v | 0 <= v < |font.kerningLengths| :: font.kerningLengths[v] == 0
  }

  lemma FlattenAppend(lines: seq<Line>, l: Line)
    ensures Flatten(lines + [l]) == Flatten(lines) + Keys(l.glyphs)
  {
    assert (lines + [l])[..|lines|] == lines;
  }

  lemma FlattenReplaceLast(lines: seq<Line>, l: Line)
    requires |lines| > 0
    ensures Flatten(lines[..|lines| - 1] + [l])
         == Flatten(lines[..|lines| - 1]) + Keys(l.glyphs)
    ensures Flatten(lines) == Flatten(lines[..|lines| - 1]) + Keys(lines[|lines| - 1].glyphs)
  {
    FlattenAppend(lines[..|lines| - 1], l);
  }

  lemma RenderedStep(font: Font, text: string, i: nat)
    requires ' ' in font.advance && i < |text|
    ensures Rendered(font, text[..i + 1])
         == Rendered(font, text[..i]) + (if text[i] == '\n' then [] else [GlyphKey(font, text[i]).value])
    ensures TrailingNewlines(text[..i + 1]) == if text[i] == '\n' then TrailingNewlines(text[..i]) + 1 else 0
  {
    assert text[..i + 1][..i] == text[..i];
  }

  lemma NewlineKeepsBreakInv(text: string, font: Font, opt: Options, s: State, r: State)
    requires ' ' in font.advance && BreakInv(text, font, opt, s) && s.cursor < |text| && text[s.cursor] == '\n'
    requires r == NewLine(s.(cursor := s.cursor + 1, count := s.count + 1))
    ensures BreakInv(text, font, opt, r) && Measure(text, r) < Measure(text, s)
  {
    RenderedStep(font, text, s.cursor);
    FlattenAppend(s.lines, Line(0.0, []));
    assert r.lines[..|s.lines|] == s.lines;
    assert !Pending(text, s);
  }

  /** A glyph that overflows a line it does not start is retried on a new line. */
  lemma BreakKeepsBreakInv(text: string, font: Font, opt: Options, s: State, r: State)
    requires ' ' in font.advance && BreakInv(text, font, opt, s) && s.cursor < |text| && text[s.cursor] != '\n'
    requires |Current(s).glyphs| > 0 && r.cursor == s.cursor && r.count == s.count + 1
    requires r.lines == s.lines + [Line(0.0, [])]
    ensures BreakInv(text, font, opt, r) && Measure(text, r) < Measure(text, s)
  {
    FlattenAppend(s.lines, Line(0.0, []));
    assert 0 < s.cursor && text[s.cursor - 1] != '\n';
    assert !Pending(text, s);
    assert Current(r) == Line(0.0, []);
    assert Pending(text, r);
    forall k | 0 <= k < |r.lines| && |r.lines[k].glyphs| >= 2
      ensures !Exceeds(r.lines[k].width, opt.width)
    {
      assert k < |s.lines|;
      assert r.lines[k] == s.lines[k];
    }
  }

  lemma PlaceKeepsBreakInv(text: string, font: Font, opt: Options, s: State, r: State)
    requires ' ' in font.advance && BreakInv(text, font, opt, s) && s.cursor < |text| && text[s.cursor] != '\n'
    requires r.cursor == s.cursor + 1 && r.count == 0
    requires |r.lines| == |s.lines| && r.lines[..|s.lines| - 1] == s.lines[..|s.lines| - 1]
    requires exists x :: Current(r).glyphs == Current(s).glyphs + [Glyph(GlyphKey(font, text[s.cursor]).value, x)]
    requires |Current(r).glyphs| >= 2 ==> !Exceeds(Current(r).width, opt.width)
    ensures BreakInv(text, font, opt, r) && Measure(text, r) < Measure(text, s)
  {
    var x :| Current(r).glyphs == Current(s).glyphs + [Glyph(GlyphKey(font, text[s.cursor]).value, x)];
    RenderedStep(font, text, s.cursor);
    FlattenReplaceLast(s.lines, Current(s));
    FlattenReplaceLast(r.lines, Current(r));
    assert Keys(Current(r).glyphs) == Keys(Current(s).glyphs) + [GlyphKey(font, text[s.cursor]).value];
    forall k | 0 <= k < |r.lines| && |r.lines[k].glyphs| >= 2
      ensures !Exceeds(r.lines[k].width, opt.width)
    {
      if k < |s.lines| - 1 {
        assert r.lines[k] == r.lines[..|s.lines| - 1][k];
        assert s.lines[k] == s.lines[..|s.lines| - 1][k];
      }
    }
  }

  /** One iteration keeps the invariant, fails never and shrinks the measure,
      as long as no run of newlines reaches the guard. */
  lemma StepKeepsBreakInv(text: string, font: Font, opt: Options, s: State)
    requires ' ' in font.advance && opt.wordBreak && NoKerning(font)
    requires BreakInv(text, font, opt, s) && Running(text, s)
    ensures Step(text, font, opt, s).Success?
    ensures BreakInv(text, font, opt, Step(text, font, opt, s).value)
    ensures Measure(text, Step(text, font, opt, s).value) < Measure(text, s)
  {
    var step := Step(text, font, opt, s);
    assert step.Success?;
    var r := step.value;
    if text[s.cursor] == '\n' {
      NewlineKeepsBreakInv(text, font, opt, s, r);
    } else if r.cursor == s.cursor + 1 {
      PlaceKeepsBreakInv(text, font, opt, s, r);
    } else {
      BreakKeepsBreakInv(text, font, opt, s, r);
    }
  }

  /** With enough fuel the loop ends at the end of the text, with every
      character but the newlines placed once, in order. */
  lemma {:induction false} RunPlacesAll(text: string, font: Font, opt: Options, s: State, fuel: nat)
    requires ' ' in font.advance && opt.wordBreak && NoKerning(font)
    requires forall k | 0 <= k < |text| :: TrailingNewlines(text[..k]) < MaxTimes - 1
    requires BreakInv(text, font, opt, s) && fuel >= Measure(text, s)
    ensures Run(text, font, opt, s, fuel).Success?
    ensures BreakInv(text, font, opt, Run(text, font, opt, s, fuel).value)
    ensures Run(text, font, opt, s, fuel).value.cursor == |text|
    decreases fuel
  {
    if s.cursor < |text| {
      assert TrailingNewlines(text[..s.cursor]) < MaxTimes - 1;
      assert s.count < MaxTimes;
      StepKeepsBreakInv(text, font, opt, s);
      RunPlacesAll(text, font, opt, Step(text, font, opt, s).value, fuel - 1);
    }
  }

  /** Word breaking without kerning data: `layout` ends, places every
      character except the newlines exactly once and in order (lines that are
      dropped at the end are empty here), and no line of two glyphs or more is
      wider than the limit; a one-glyph line may be. */
  lemma WordBreakLayout(text: string, font: Font, opt: Options)
    requires ' ' in font.advance && opt.wordBreak && NoKerning(font)
    requires forall k | 0 <= k < |text| :: TrailingNewlines(text[..k]) < MaxTimes - 1
    ensures var r := Run(text, font, opt, InitialState(), Budget(text));
            && r.Success? && r.value.cursor == |text|
            && Flatten(r.value.lines) == Rendered(font, text)
            && forall k | 0 <= k < |r.value.lines| ::
                 |r.value.lines[k].glyphs| >= 2 ==> !Exceeds(r.value.lines[k].width, opt.width)
  {
    InitialBreakInv(text, font, opt);
    BudgetCovers(text);
    RunPlacesAll(text, font, opt, InitialState(), Budget(text));
    assert text[..|text|] == text;
  }

  /** What `layout` returns with word breaking and no kerning data: it
      succeeds, every line of two glyphs or more fits, and the glyphs read in
      order are the rendered text, or a prefix of it when the dropped
      zero-width last line held glyphs. */
  lemma WordBreakLayoutLines(text: string, font: Font, opt: Options)
    requires ' ' in font.advance && opt.wordBreak && NoKerning(font)
    requires forall k | 0 <= k < |text| :: TrailingNewlines(text[..k]) < MaxTimes - 1
    ensures var r := Layout(text, font, opt);
            && r.Success?
            && Flatten(r.value) <= Rendered(font, text)
            && forall k | 0 <= k < |r.value| ::
                 |r.value[k].glyphs| >= 2 ==> !Exceeds(r.value[k].width, opt.width)
  {
    WordBreakLayout(text, font, opt);
    var s := Run(text, font, opt, InitialState(), Budget(text)).value;
    var r := Finish(s.lines);
    assert forall k | 0 <= k < |r| :: r[k] == s.lines[k];
  }

  lemma InitialBreakInv(text: string, font: Font, opt: Options)
    requires ' ' in font.advance
    ensures BreakInv(text, font, opt, InitialState())
  {
    var s := InitialState();
    assert s.lines[..0] == [];
    assert text[..0] == [];
  }

  lemma BudgetCovers(text: string)
    ensures Budget(text) >= 2 * |text| + 1
  {
    var n := |text| + 1;
    assert n * n >= n;
    assert n * n * MaxTimes >= n * n;
  }

  /** The guard counts newlines too: after 100 newlines in a row the loop
      stops, and what follows is never laid out. */
  lemma NewlineRunStopsLayout(font: Font, opt: Options)
    ensures var text := seq(MaxTimes, _ => '\n') + "a";
            var r := Run(text, font, opt, InitialState(), Budget(text));
            r.Success? && r.value.cursor == MaxTimes && Flatten(r.value.lines) == []
  {
    var text := seq(MaxTimes, _ => '\n') + "a";
    NewlinesOnly(text, font, opt, InitialState(), Budget(text));
  }

  lemma {:induction false} NewlinesOnly(text: string, font: Font, opt: Options, s: State, fuel: nat)
    requires |text| == MaxTimes + 1 && forall k | 0 <= k < MaxTimes :: text[k] == '\n'
    requires |s.lines| > 0 && s.cursor == s.count <= MaxTimes && Flatten(s.lines) == []
    requires fuel >= MaxTimes - s.cursor
    ensures var r := Run(text, font, opt, s, fuel);
            r.Success? && r.value.cursor == MaxTimes && Flatten(r.value.lines) == []
    decreases MaxTimes - s.cursor
  {
    if s.cursor < MaxTimes {
      var r := Step(text, font, opt, s).value;
      FlattenAppend(s.lines, Line(0.0, []));
      NewlinesOnly(text, font, opt, r, fuel - 1);
    }
  }

  /* ---------- populateBuffers ---------- */

  /** What `populateBuffers` records besides the vertex data: the line count,
      the height, and the widest line (None for `Math.max()` of nothing, which
      is -Infinity). */
  datatype Summary = Summary(numLines: nat, height: real, width: Option<real>)

  function MaxWidth(lines: seq<Line>): (w: Option<real>)
    ensures w.None? <==> |lines| == 0
    ensures w.Some? ==> (forall k | 0 <= k < |lines| :: lines[k].width <= w.value)
                        && exists k | 0 <= k < |lines| :: lines[k].width == w.value
    decreases |lines|
  {
    if |lines| == 0 then None
    else
      var rest := MaxWidth(lines[1..]);
      if rest.None? || rest.value < lines[0].width then
        assert lines[0].width == lines[0].width;
        Some(lines[0].width)
      else
        var k :| 0 <= k < |lines[1..]| && lines[1..][k].width == rest.value;
        assert lines[k + 1].width == rest.value;
        Some(rest.value)
  }

  function Summarize(lines: seq<Line>, size: real, lineHeight: real): (s: Summary)
    ensures s.numLines == |lines| && s.height == (|lines| as real) * size * lineHeight
    ensures s.width == MaxWidth(lines)
  {
    Summary(|lines|, (|lines| as real) * size * lineHeight, MaxWidth(lines))
  }
}

=== FILE: position_state.dfy ===
/** `scripts/object/PositionState.js`: which sides an object pushes (this
    frame) and pushed (last frame), against anything, objects or tiles; whether
    it stands on a one-way platform; and the tiles met on each side. */
module PositionStates {
  import opened TileMap

  datatype Sides = Sides(right: bool, left: bool, bottom: bool, top: bool)

  const NoSides := Sides(false, false, false, false)

  /** No tile: (-1, -1). */
  const NoTile := TileIndex(-1, -1)

  datatype PositionState = PositionState(
    pushes: Sides, pushed: Sides,
    pushesObject: Sides, pushedObject: Sides,
    pushesTile: Sides, pushedTile: Sides,
    onOneWayPlatform: bool,
    leftTile: TileIndex, rightTile: TileIndex, topTile: TileIndex, bottomTile: TileIndex)

  function Flags(s: Sides): seq<bool> { [s.right, s.left, s.bottom, s.top] }

  /** The 25 boolean flags of the state. */
  function AllFlags(p: PositionState): (f: seq<bool>)
    ensures |f| == 25
  {
    Flags(p.pushes) + Flags(p.pushed) + Flags(p.pushesObject) + Flags(p.pushedObject)
      + Flags(p.pushesTile) + Flags(p.pushedTile) + [p.onOneWayPlatform]
  }

  predicate AllClear(p: PositionState) {
    && (forall i | 0 <= i < |AllFlags(p)| :: !AllFlags(p)[i])
    && p.leftTile == NoTile && p.rightTile == NoTile && p.topTile == NoTile && p.bottomTile == NoTile
  }

  /** The constructor: every flag false, every side tile (-1, -1). */
  function NewPositionState(): (p: PositionState)
    ensures AllClear(p)
  {
    PositionState(NoSides, NoSides, NoSides, NoSides, NoSides, NoSides, false, NoTile, NoTile, NoTile, NoTile)
  }

  /** `reset`: clears every flag (the current ones are not copied into the
      previous ones) and every side tile, whatever the state was. */
  function Reset(p: PositionState): (r: PositionState)
    ensures AllClear(r)
    ensures !r.pushed.right && !r.pushed.left && !r.pushed.bottom && !r.pushed.top
  {
    PositionState(NoSides, NoSides, NoSides, NoSides, NoSides, NoSides, false, NoTile, NoTile, NoTile, NoTile)
  }

  /** A cleared state is determined: all cleared states are equal. */
  lemma AllClearUnique(p: PositionState, q: PositionState)
    requires AllClear(p) && AllClear(q)
    ensures p == q
  {
    AllClearIsNew(p);
    AllClearIsNew(q);
  }

  lemma AllClearIsNew(p: PositionState)
    requires AllClear(p)
    ensures p == NewPositionState()
  {
    ClearAnySide(p);
    ClearObjectSide(p);
    ClearTileSide(p);
    assert !AllFlags(p)[24];
  }

  lemma ClearAnySide(p: PositionState)
    requires AllClear(p)
    ensures p.pushes == NoSides && p.pushed == NoSides
  {
    var f := AllFlags(p);
    assert !f[0] && !f[1] && !f[2] && !f[3] && !f[4] && !f[5] && !f[6] && !f[7];
  }

  lemma ClearObjectSide(p: PositionState)
    requires AllClear(p)
    ensures p.pushesObject == NoSides && p.pushedObject == NoSides
  {
    var f := AllFlags(p);
    assert !f[8] && !f[9] && !f[10] && !f[11] && !f[12] && !f[13] && !f[14] && !f[15];
  }

  lemma ClearTileSide(p: PositionState)
    requires AllClear(p)
    ensures p.pushesTile == NoSides && p.pushedTile == NoSides
  {
    var f := AllFlags(p);
    assert !f[16] && !f[17] && !f[18] && !f[19] && !f[20] && !f[21] && !f[22] && !f[23];
  }

  /** `reset` gives exactly a fresh state, whatever the state before. */
  lemma ResetIsFresh(p: PositionState)
    ensures Reset(p) == NewPositionState()
  {
    AllClearUnique(Reset(p), NewPositionState());
  }

  lemma ResetIdempotent(p: PositionState)
    ensures Reset(Reset(p)) == Reset(p)
  {
    AllClearUnique(Reset(Reset(p)), Reset(p));
  }
}

=== FILE: slope_offset.dfy ===
/** The two eight-field offset records: `SlopeOffsetSB` (any numbers) and
    `SlopeOffsetI` (the floored copy, `scripts/object/SlopeOffsetI.js`). */
module SlopeOffset {
  import opened Vec

  /** Signed free/colliding distances in the four directions. */
  datatype SlopeOffsetSB = SlopeOffsetSB(
    freeLeft: real, freeRight: real, freeDown: real, freeUp: real,
    collidingLeft: real, collidingRight: real, collidingBottom: real, collidingTop: real)

  datatype SlopeOffsetI = SlopeOffsetI(
    freeLeft: int, freeRight: int, freeDown: int, freeUp: int,
    collidingLeft: int, collidingRight: int, collidingBottom: int, collidingTop: int)

  /** `x` lies in [f, f + 1). */
  predicate IsFloorOf(f: int, x: real) {
    f as real <= x < f as real + 1.0
  }

  /** The `SlopeOffsetI` constructor: every argument is floored into the field of
      the same name. */
  function NewSlopeOffsetI(
    freeLeft: real, freeRight: real, freeDown: real, freeUp: real,
    collidingLeft: real, collidingRight: real, collidingBottom: real, collidingTop: real): (r: SlopeOffsetI)
    ensures IsFloorOf(r.freeLeft, freeLeft) && IsFloorOf(r.freeRight, freeRight)
    ensures IsFloorOf(r.freeDown, freeDown) && IsFloorOf(r.freeUp, freeUp)
    ensures IsFloorOf(r.collidingLeft, collidingLeft) && IsFloorOf(r.collidingRight, collidingRight)
    ensures IsFloorOf(r.collidingBottom, collidingBottom) && IsFloorOf(r.collidingTop, collidingTop)
  {
    SlopeOffsetI(Floor(freeLeft), Floor(freeRight), Floor(freeDown), Floor(freeUp),
                 Floor(collidingLeft), Floor(collidingRight), Floor(collidingBottom), Floor(collidingTop))
  }

  /** `SlopeOffsetI.from(other)`: a floored copy, field by field. */
  function From(o: SlopeOffsetSB): (r: SlopeOffsetI)
    ensures IsFloorOf(r.freeLeft, o.freeLeft) && IsFloorOf(r.freeRight, o.freeRight)
    ensures IsFloorOf(r.freeDown, o.freeDown) && IsFloorOf(r.freeUp, o.freeUp)
    ensures IsFloorOf(r.collidingLeft, o.collidingLeft) && IsFloorOf(r.collidingRight, o.collidingRight)
    ensures IsFloorOf(r.collidingBottom, o.collidingBottom) && IsFloorOf(r.collidingTop, o.collidingTop)
  {
    NewSlopeOffsetI(o.freeLeft, o.freeRight, o.freeDown, o.freeUp,
                    o.collidingLeft, o.collidingRight, o.collidingBottom, o.collidingTop)
  }

  /** A `SlopeOffsetI` read back as plain numbers (what JavaScript does with it). */
  function AsNumbers(o: SlopeOffsetI): SlopeOffsetSB {
    SlopeOffsetSB(o.freeLeft as real, o.freeRight as real, o.freeDown as real, o.freeUp as real,
                  o.collidingLeft as real, o.collidingRight as real, o.collidingBottom as real, o.collidingTop as real)
  }

  /** The floor of a number is the only integer it lies just above. */
  lemma FloorUnique(f: int, g: int, x: real)
    requires IsFloorOf(f, x) && IsFloorOf(g, x)
    ensures f == g
  {
  }

  /** `from` is the identity on integral values. */
  lemma FromIntegral(o: SlopeOffsetI)
    ensures From(AsNumbers(o)) == o
  {
    var r := From(AsNumbers(o));
    FloorUnique(r.freeLeft, o.freeLeft, o.freeLeft as real);
    FloorUnique(r.freeRight, o.freeRight, o.freeRight as real);
    FloorUnique(r.freeDown, o.freeDown, o.freeDown as real);
    FloorUnique(r.freeUp, o.freeUp, o.freeUp as real);
    FloorUnique(r.collidingLeft, o.collidingLeft, o.collidingLeft as real);
    FloorUnique(r.collidingRight, o.collidingRight, o.collidingRight as real);
    FloorUnique(r.collidingBottom, o.collidingBottom, o.collidingBottom as real);
    FloorUnique(r.collidingTop, o.collidingTop, o.collidingTop as real);
  }

  /** Flooring an already floored copy changes nothing. */
  lemma FromIdempotent(o: SlopeOffsetSB)
    ensures From(AsNumbers(From(o))) == From(o)
  {
    FromIntegral(From(o));
  }
}

=== FILE: slopes.dfy ===
/** `scripts/object/Slopes.js`: per-shape occupancy grids built from height
    profiles, the directional sweeps over them, the per-shape offset tables, and
    the tile-local lookup `getOffset6p`.

    A grid is the 256-element boolean array of `Slopes.js`, column-major: the cell
    at tile-local column x and row y lives at index x * 16 + y. */
module Slopes {
  import opened Wrappers
  import opened Vec
  import opened Enums
  import opened Constants
  import opened MathUtil
  import opened SlopeOffset

  /* ---------- height profiles (the four `Uint8Array` constants) ---------- */

  const EmptyHeights: seq<int> := [0, 0, 0, 0, 0, 0, 0, 0, 0, 0, 0, 0, 0, 0, 0, 0]
  const FullHeights: seq<int> := [16, 16, 16, 16, 16, 16, 16, 16, 16, 16, 16, 16, 16, 16, 16, 16]
  const Slope45Heights: seq<int> := [1, 2, 3, 4, 5, 6, 7, 8, 9, 10, 11, 12, 13, 14, 15, 16]
  const SlopeMid1Heights: seq<int> := [1, 2, 3, 4, 5, 6, 7, 8, 8, 7, 6, 5, 4, 3, 2, 1]

  predicate IsGrid(g: seq<bool>) { |g| == TileSize * TileSize }

  predicate InTile(x: int, y: int) { 0 <= x < TileSize && 0 <= y < TileSize }

  /** The grid cell at column x, row y; cells outside the tile are free. */
  function Cell(g: seq<bool>, x: int, y: int): bool
    requires IsGrid(g)
  {
    if InTile(x, y) then g[x * TileSize + y] else false
  }

  /** A JavaScript array read: an index outside the array yields `undefined`,
      which is falsy. */
  function At(g: seq<bool>, i: int): bool {
    if 0 <= i < |g| then g[i] else false
  }

  ghost predicate FullGrid(g: seq<bool>)
    requires IsGrid(g)
  {
    forall x, y | InTile(x, y) :: Cell(g, x, y)
  }

  lemma CellIndex(x: int, y: int)
    requires InTile(x, y)
    ensures 0 <= x * TileSize + y < TileSize * TileSize
    ensures (x * TileSize + y) % TileSize == y
    ensures (x * TileSize + y) / TileSize == x
  {
  }

  /** The grid of a profile, cell by cell in index order. */
  function Cells(slope: seq<int>): (g: seq<bool>)
    requires |slope| == TileSize
    ensures IsGrid(g)
  {
    seq(TileSize * TileSize, i requires 0 <= i < TileSize * TileSize => i % TileSize < slope[i % TileSize])
  }

  lemma CellsByRow(slope: seq<int>)
    requires |slope| == TileSize
    ensures forall x, y | InTile(x, y) :: Cell(Cells(slope), x, y) == (y < slope[y])
  {
    forall x, y | InTile(x, y) ensures Cell(Cells(slope), x, y) == (y < slope[y]) {
      CellIndex(x, y);
    }
  }

  /** `extend(slope)`: cell (x, y) is occupied iff y < slope[y]. The profile is
      read at the row y, not the column x, so every column is the same. */
  function Extend(slope: seq<int>): (g: seq<bool>)
    requires |slope| == TileSize
    ensures IsGrid(g)
    ensures forall x, y | InTile(x, y) :: Cell(g, x, y) == (y < slope[y])
  {
    CellsByRow(slope);
    Cells(slope)
  }

  /** Every column of an extended profile is identical. */
  lemma ExtendColumnsIdentical(slope: seq<int>, x1: int, x2: int, y: int)
    requires |slope| == TileSize
    requires InTile(x1, y) && InTile(x2, y)
    ensures Cell(Extend(slope), x1, y) == Cell(Extend(slope), x2, y)
  {
  }

  /** Because the 45-degree profile is read by row, its grid is completely
      occupied: y < y + 1 for every row. It is the very same grid as `Full`'s. */
  lemma Slope45GridIsFull()
    ensures FullGrid(Extend(Slope45Heights))
    ensures Extend(Slope45Heights) == Extend(FullHeights)
  {
    var a, b := Extend(Slope45Heights), Extend(FullHeights);
    forall i | 0 <= i < TileSize * TileSize ensures a[i] == b[i] {
      CellIndex(i / TileSize, i % TileSize);
      assert a[i] == Cell(a, i / TileSize, i % TileSize);
      assert b[i] == Cell(b, i / TileSize, i % TileSize);
    }
  }

  /** The mid-slope grid: rows 0..7 occupied, rows 8..15 free, in every column. */
  lemma SlopeMid1Grid(x: int, y: int)
    requires InTile(x, y)
    ensures Cell(Extend(SlopeMid1Heights), x, y) == (y < 8)
  {
  }

  /** `collides(slopeExtended, posX, posY, w, h)`: its nested loops return from
      the first inner iteration, so only the cell (posX, posY) is ever read. */
  function Collides(g: seq<bool>, posX: int, posY: int, w: int, h: int): (r: bool)
    requires IsGrid(g)
    ensures 0 <= w && 0 <= h && InTile(posX, posY) ==> r == Cell(g, posX, posY)
    ensures w < 0 || h < 0 || posX >= TileSize || posY >= TileSize ==> !r
  {
    if posX <= posX + w && posX < TileSize && posY <= posY + h && posY < TileSize
    then At(g, posX * TileSize + posY)
    else false
  }

  /* ---------- the sweeps of `getOffset5p`, stated as run lengths ---------- */

  /** The number of consecutive cells, starting at (x, y) and stepping by
      (dx, dy), whose occupancy is v; at most n cells are looked at. */
  function Run(g: seq<bool>, x: int, y: int, dx: int, dy: int, v: bool, n: nat): (k: nat)
    requires IsGrid(g)
    ensures k <= n
    ensures k > 0 ==> Cell(g, x, y) == v
    ensures n > 0 && Cell(g, x, y) == v ==> k > 0
    decreases n
  {
    if n == 0 || Cell(g, x, y) != v then 0 else 1 + Run(g, x + dx, y + dy, dx, dy, v, n - 1)
  }

  function MinInt(a: int, b: int): int { if a < b then a else b }

  function Pos(a: int): nat { if a > 0 then a else 0 }

  /** What `getOffset5p` computes for the sub-rectangle at (posX, posY) of size
      (w, h), described by run lengths:
      - freeUp: occupied cells from (posX, posY) upwards to the tile top;
      - freeDown: minus the occupied cells from (posX, posY) downwards; when that
        run reaches row 0 it is further lowered by h + 1;
      - freeRight: occupied cells rightwards, capped by both 16 - posX and 16 - posY
        (`Slopes.js`' loop guards on posY);
      - freeLeft: like freeDown, along the row, lowered by w + 1 at column 0;
      - when the start cell is free, the colliding distances are the free gaps
        (minus one) upwards within 16 - posY - h rows, downwards, rightwards within
        16 - posX - w columns and leftwards; otherwise they mirror the free ones. */
  function Sweep(g: seq<bool>, posX: int, posY: int, w: int, h: int): (o: SlopeOffsetI)
    requires IsGrid(g) && InTile(posX, posY) && InTile(w, h)
    ensures 0 <= o.freeUp <= TileSize - posY
    ensures 0 <= o.freeRight <= TileSize - posX && o.freeRight <= TileSize - posY
    ensures o.freeDown <= 0 && o.freeLeft <= 0
    ensures o.freeUp != 0 <==> Cell(g, posX, posY)
    ensures o.freeRight != 0 <==> Cell(g, posX, posY)
    ensures o.freeUp != 0 ==> o.collidingBottom == o.freeUp && o.collidingTop == o.freeDown
    ensures o.freeRight != 0 ==> o.collidingLeft == o.freeRight && o.collidingRight == o.freeLeft
    ensures o.freeUp == 0 ==> -posY <= o.collidingBottom <= 1 && -1 <= o.collidingTop < Pos(TileSize - posY - h)
    ensures o.freeRight == 0 ==> -posX <= o.collidingLeft <= 1 && -1 <= o.collidingRight < Pos(TileSize - posX - w)
  {
    var freeUp := Run(g, posX, posY, 0, 1, true, TileSize - posY);
    var down: int := Run(g, posX, posY, 0, -1, true, posY + 1);
    var freeDown: int := if down == posY + 1 then -(posY + h + 1) else -down;
    var freeRight := Run(g, posX, posY, 1, 0, true, MinInt(TileSize - posX, TileSize - posY));
    var left: int := Run(g, posX, posY, -1, 0, true, posX + 1);
    var freeLeft: int := if left == posX + 1 then -(posX + w + 1) else -left;
    var collidingBottom := if freeUp == 0 then 1 - Run(g, posX, posY, 0, -1, false, posY + 1) else freeUp;
    var collidingTop := if freeUp == 0 then Run(g, posX, posY, 0, 1, false, Pos(TileSize - posY - h)) - 1 else freeDown;
    var collidingLeft := if freeRight == 0 then 1 - Run(g, posX, posY, -1, 0, false, posX + 1) else freeRight;
    var collidingRight := if freeRight == 0 then Run(g, posX, posY, 1, 0, false, Pos(TileSize - posX - w)) - 1 else freeLeft;
    SlopeOffsetI(freeLeft, freeRight, freeDown, freeUp, collidingLeft, collidingRight, collidingBottom, collidingTop)
  }

  /** The first loop of `getOffset5p`: occupied cells upwards. */
  method SweepUp(g: seq<bool>, posX: int, posY: int, w: int, h: int) returns (freeUp: int)
    requires IsGrid(g) && InTile(posX, posY) && InTile(w, h)
    ensures freeUp == Run(g, posX, posY, 0, 1, true, TileSize - posY)
  {
    freeUp := 0;
    var movH := h;
    while movH >= 0 && posY + freeUp < TileSize && Collides(g, posX, posY + freeUp, w, movH)
      invariant movH == h
      invariant 0 <= freeUp <= TileSize - posY
      invariant Run(g, posX, posY, 0, 1, true, TileSize - posY)
             == freeUp + Run(g, posX, posY + freeUp, 0, 1, true, TileSize - posY - freeUp)
      decreases TileSize - posY - freeUp
    {
      assert Run(g, posX, posY + freeUp, 0, 1, true, TileSize - posY - freeUp)
          == 1 + Run(g, posX, posY + freeUp + 1, 0, 1, true, TileSize - posY - freeUp - 1);
      if posY + freeUp == TileSize {
        movH := movH - 1;
      }
      freeUp := freeUp + 1;
    }
  }

  /** The second loop: occupied cells downwards, lowered by h + 1 when the run
      reaches row 0. */
  method SweepDown(g: seq<bool>, posX: int, posY: int, w: int, h: int) returns (freeDown: int)
    requires IsGrid(g) && InTile(posX, posY) && InTile(w, h)
    ensures var down: int := Run(g, posX, posY, 0, -1, true, posY + 1);
            freeDown == if down == posY + 1 then -(posY + h + 1) else -down
  {
    freeDown := 0;
    var movH := h;
    while movH >= 0 && posY + freeDown >= 0 && Collides(g, posX, posY + freeDown, w, movH)
      invariant -1 <= movH <= h
      invariant -posY <= freeDown <= 0
      invariant Run(g, posX, posY, 0, -1, true, posY + 1)
             == -freeDown + Run(g, posX, posY + freeDown, 0, -1, true, posY + 1 + freeDown)
      invariant movH < h ==> posY + freeDown == 0 && Cell(g, posX, 0)
      decreases posY + freeDown + movH + 1
    {
      if posY + freeDown == 0 {
        movH := movH - 1;
      } else {
        freeDown := freeDown - 1;
      }
    }
    freeDown := freeDown - (h - movH);
  }

  /** The third loop: occupied cells rightwards; its guard tests posY, not posX. */
  method SweepRight(g: seq<bool>, posX: int, posY: int, w: int, h: int) returns (freeRight: int)
    requires IsGrid(g) && InTile(posX, posY) && InTile(w, h)
    ensures freeRight == Run(g, posX, posY, 1, 0, true, MinInt(TileSize - posX, TileSize - posY))
  {
    freeRight := 0;
    var movW := w;
    ghost var m := MinInt(TileSize - posX, TileSize - posY);
    while movW >= 0 && posY + freeRight < TileSize && Collides(g, posX + freeRight, posY, movW, h)
      invariant movW == w
      invariant 0 <= freeRight <= m
      invariant Run(g, posX, posY, 1, 0, true, m)
             == freeRight + Run(g, posX + freeRight, posY, 1, 0, true, m - freeRight)
      decreases TileSize - posY - freeRight
    {
      if posX + freeRight == TileSize {
        movW := movW - 1;
      }
      freeRight := freeRight + 1;
    }
  }

  /** The fourth loop: occupied cells leftwards, lowered by w + 1 when the run
      reaches column 0. */
  method SweepLeft(g: seq<bool>, posX: int, posY: int, w: int, h: int) returns (freeLeft: int)
    requires IsGrid(g) && InTile(posX, posY) && InTile(w, h)
    ensures var left: int := Run(g, posX, posY, -1, 0, true, posX + 1);
            freeLeft == if left == posX + 1 then -(posX + w + 1) else -left
  {
    freeLeft := 0;
    var movW := w;
    while movW >= 0 && posX + freeLeft >= 0 && Collides(g, posX + freeLeft, posY, movW, h)
      invariant -1 <= movW <= w
      invariant -posX <= freeLeft <= 0
      invariant Run(g, posX, posY, -1, 0, true, posX + 1)
             == -freeLeft + Run(g, posX + freeLeft, posY, -1, 0, true, posX + 1 + freeLeft)
      invariant movW < w ==> posX + freeLeft == 0 && Cell(g, 0, posY)
      decreases posX + freeLeft + movW + 1
    {
      if posX + freeLeft == 0 {
        movW := movW - 1;
      } else {
        freeLeft := freeLeft - 1;
      }
    }
    freeLeft := freeLeft - (w - movW);
  }

  /** The vertical colliding loops, run when the start cell is free: the gaps
      (minus one) up to the first occupied cell above and below. */
  method GapsVertical(g: seq<bool>, posX: int, posY: int, w: int, h: int) returns (collidingBottom: int, collidingTop: int)
    requires IsGrid(g) && InTile(posX, posY) && InTile(w, h)
    ensures collidingTop == Run(g, posX, posY, 0, 1, false, Pos(TileSize - posY - h)) - 1
    ensures collidingBottom == 1 - Run(g, posX, posY, 0, -1, false, posY + 1)
  {
    collidingTop, collidingBottom := 0, 0;
    ghost var n := Pos(TileSize - posY - h);
    while posY + h + collidingTop < TileSize && !Collides(g, posX, posY + collidingTop, w, h)
      invariant 0 <= collidingTop <= n
      invariant Run(g, posX, posY, 0, 1, false, n)
             == collidingTop + Run(g, posX, posY + collidingTop, 0, 1, false, n - collidingTop)
      decreases TileSize - posY - h - collidingTop
    {
      collidingTop := collidingTop + 1;
    }
    collidingTop := collidingTop - 1;
    while posY + collidingBottom >= 0 && !Collides(g, posX, posY + collidingBottom, w, h)
      invariant -posY - 1 <= collidingBottom <= 0
      invariant Run(g, posX, posY, 0, -1, false, posY + 1)
             == -collidingBottom + Run(g, posX, posY + collidingBottom, 0, -1, false, posY + 1 + collidingBottom)
      decreases posY + collidingBottom + 1
    {
      collidingBottom := collidingBottom - 1;
    }
    collidingBottom := collidingBottom + 1;
  }

  /** The horizontal colliding loops, run when the start cell is free. */
  method GapsHorizontal(g: seq<bool>, posX: int, posY: int, w: int, h: int) returns (collidingLeft: int, collidingRight: int)
    requires IsGrid(g) && InTile(posX, posY) && InTile(w, h)
    ensures collidingRight == Run(g, posX, posY, 1, 0, false, Pos(TileSize - posX - w)) - 1
    ensures collidingLeft == 1 - Run(g, posX, posY, -1, 0, false, posX + 1)
  {
    collidingRight, collidingLeft := 0, 0;
    ghost var n := Pos(TileSize - posX - w);
    while posX + w + collidingRight < TileSize && !Collides(g, posX + collidingRight, posY, w, h)
      invariant 0 <= collidingRight <= n
      invariant Run(g, posX, posY, 1, 0, false, n)
             == collidingRight + Run(g, posX + collidingRight, posY, 1, 0, false, n - collidingRight)
      decreases TileSize - posX - w - collidingRight
    {
      collidingRight := collidingRight + 1;
    }
    collidingRight := collidingRight - 1;
    while posX + collidingLeft >= 0 && !Collides(g, posX + collidingLeft, posY, w, h)
      invariant -posX - 1 <= collidingLeft <= 0
      invariant Run(g, posX, posY, -1, 0, false, posX + 1)
             == -collidingLeft + Run(g, posX + collidingLeft, posY, -1, 0, false, posX + 1 + collidingLeft)
      decreases posX + collidingLeft + 1
    {
      collidingLeft := collidingLeft - 1;
    }
    collidingLeft := collidingLeft + 1;
  }

  /** `getOffset5p`: the four free sweeps, then the colliding gaps when the start
      cell is free (otherwise the colliding distances copy the free ones). */
  method GetOffset5p(g: seq<bool>, posX: int, posY: int, w: int, h: int) returns (o: SlopeOffsetSB)
    requires IsGrid(g) && InTile(posX, posY) && InTile(w, h)
    ensures o == AsNumbers(Sweep(g, posX, posY, w, h))
  {
    var freeUp := SweepUp(g, posX, posY, w, h);
    var freeDown := SweepDown(g, posX, posY, w, h);
    var freeRight := SweepRight(g, posX, posY, w, h);
    var freeLeft := SweepLeft(g, posX, posY, w, h);
    var collidingBottom, collidingTop, collidingLeft, collidingRight;
    if freeUp == 0 {
      collidingBottom, collidingTop := GapsVertical(g, posX, posY, w, h);
    } else {
      collidingBottom, collidingTop := freeUp, freeDown;
    }
    if freeRight == 0 {
      collidingLeft, collidingRight := GapsHorizontal(g, posX, posY, w, h);
    } else {
      collidingLeft, collidingRight := freeRight, freeLeft;
    }
    o := SlopeOffsetSB(freeLeft as real, freeRight as real, freeDown as real, freeUp as real,
                       collidingLeft as real, collidingRight as real, collidingBottom as real, collidingTop as real);
  }

  /* ---------- a fully occupied grid, in closed form ---------- */

  /** The sweeps of a fully occupied grid: every run goes on until the tile
      border (the rightward one also stops at 16 - posY), the downward and
      leftward ones reach the border and so are lowered by h + 1 and w + 1, and the
      colliding distances copy the free ones. */
  function FullGridOffsets(posX: int, posY: int, w: int, h: int): SlopeOffsetI {
    var up := TileSize - posY;
    var right := MinInt(TileSize - posX, TileSize - posY);
    var down := -(posY + h + 1);
    var left := -(posX + w + 1);
    SlopeOffsetI(left, right, down, up, right, left, up, down)
  }

  /** On a full grid a run of occupied cells lasts as long as it stays inside the
      tile. */
  lemma {:induction false} RunOnFullGrid(g: seq<bool>, x: int, y: int, dx: int, dy: int, n: nat)
    requires IsGrid(g) && FullGrid(g)
    requires -1 <= dx <= 1 && -1 <= dy <= 1
    requires n > 0 ==> InTile(x, y)
    requires dx == 1 ==> x + n <= TileSize
    requires dx == -1 ==> x - n >= -1
    requires dy == 1 ==> y + n <= TileSize
    requires dy == -1 ==> y - n >= -1
    ensures Run(g, x, y, dx, dy, true, n) == n
    decreases n
  {
    if n > 0 {
      RunOnFullGrid(g, x + dx, y + dy, dx, dy, n - 1);
    }
  }

  lemma SweepFullGrid(g: seq<bool>, posX: int, posY: int, w: int, h: int)
    requires IsGrid(g) && FullGrid(g) && InTile(posX, posY) && InTile(w, h)
    ensures Sweep(g, posX, posY, w, h) == FullGridOffsets(posX, posY, w, h)
  {
    RunOnFullGrid(g, posX, posY, 0, 1, TileSize - posY);
    RunOnFullGrid(g, posX, posY, 0, -1, posY + 1);
    RunOnFullGrid(g, posX, posY, 1, 0, MinInt(TileSize - posX, TileSize - posY));
    RunOnFullGrid(g, posX, posY, -1, 0, posX + 1);
  }

  /* ---------- the offset table and `init` ---------- */

  /** `[x][y][w][h]` offsets of one shape. */
  type OffsetTable = seq<seq<seq<seq<SlopeOffsetSB>>>>

  ghost predicate IsTable(t: OffsetTable) {
    && |t| == TileSize
    && (forall x | 0 <= x < TileSize :: |t[x]| == TileSize)
    && (forall x, y | InTile(x, y) :: |t[x][y]| == TileSize)
    && (forall x, y, w | InTile(x, y) && 0 <= w < TileSize :: |t[x][y][w]| == TileSize)
  }

  /** `cacheSlopeOffsets`: `getOffset5p` for every sub-rectangle of the tile. */
  function CacheSlopeOffsets(g: seq<bool>): (t: OffsetTable)
    requires IsGrid(g)
    ensures IsTable(t)
    ensures forall x, y, w, h | InTile(x, y) && InTile(w, h) :: t[x][y][w][h] == AsNumbers(Sweep(g, x, y, w, h))
  {
    seq(TileSize, x requires 0 <= x < TileSize =>
      seq(TileSize, y requires 0 <= y < TileSize =>
        seq(TileSize, w requires 0 <= w < TileSize =>
          seq(TileSize, h requires 0 <= h < TileSize => AsNumbers(Sweep(g, x, y, w, h))))))
  }

  /** What `init` stores for one tile shape: the height profile, its grid, and
      the offset table when there is one. */
  datatype SlopeData = SlopeData(heights: seq<int>, extended: seq<bool>, offsets: Option<OffsetTable>)

  /** `init`, for one shape. Every orientation of a slope family shares the base
      shape's data; only the 45-degree family gets an offset table; shapes the
      switch does not name get nothing (their array slots stay `undefined`). */
  function Init(t: TileCollisionType): (d: Option<SlopeData>)
    ensures d.Some? <==> !t.Other?
    ensures d.Some? ==> |d.value.heights| == TileSize && d.value.extended == Extend(d.value.heights)
    ensures d.Some? ==> (d.value.offsets.Some? <==> t.Slope45?)
    ensures d.Some? && d.value.offsets.Some? ==>
              IsGrid(d.value.extended) && d.value.offsets.value == CacheSlopeOffsets(d.value.extended)
  {
    match t
    case Empty => Some(SlopeData(EmptyHeights, Extend(EmptyHeights), None))
    case Full => Some(SlopeData(FullHeights, Extend(FullHeights), None))
    case Slope45(_) =>
      Some(SlopeData(Slope45Heights, Extend(Slope45Heights), Some(CacheSlopeOffsets(Extend(Slope45Heights)))))
    case SlopeMid1(_) => Some(SlopeData(SlopeMid1Heights, Extend(SlopeMid1Heights), None))
    case Other(_) => None
  }

  /** The cached 45-degree table in closed form: since that grid is full, every
      entry is `FullGridOffsets`. */
  lemma Slope45Table(o: Orientation, x: int, y: int, w: int, h: int)
    requires InTile(x, y) && InTile(w, h)
    ensures Init(Slope45(o)).Some? && Init(Slope45(o)).value.offsets.Some?
    ensures Init(Slope45(o)).value.offsets.value[x][y][w][h] == AsNumbers(FullGridOffsets(x, y, w, h))
  {
    Slope45GridIsFull();
    SweepFullGrid(Extend(Slope45Heights), x, y, w, h);
  }

  /* ---------- `getOffset6p` ---------- */

  /** The tile-local query of `getOffset6p`: the clamped, floored start of the
      box inside the tile and its clamped, floored extent from there. */
  datatype Query = Query(posX: int, posY: int, sizeX: int, sizeY: int)

  function LeftTileEdge(tileCenter: Vec2): real { tileCenter.x - TileSize as real / 2.0 }

  function BottomTileEdge(tileCenter: Vec2): real { tileCenter.y - TileSize as real / 2.0 }

  function QueryOf(tileCenter: Vec2, leftX: real, rightX: real, bottomY: real, topY: real): (q: Query)
    ensures InTile(q.posX, q.posY) && InTile(q.sizeX, q.sizeY)
    ensures 0.0 <= leftX - LeftTileEdge(tileCenter) <= 15.0 ==> IsFloorOf(q.posX, leftX - LeftTileEdge(tileCenter))
    ensures 0.0 <= bottomY - BottomTileEdge(tileCenter) <= 15.0 ==> IsFloorOf(q.posY, bottomY - BottomTileEdge(tileCenter))
    ensures leftX < LeftTileEdge(tileCenter) ==> q.posX == 0
    ensures bottomY < BottomTileEdge(tileCenter) ==> q.posY == 0
  {
    var left := LeftTileEdge(tileCenter);
    var bottom := BottomTileEdge(tileCenter);
    var posX := Floor(Clamp(leftX - left, 0.0, (TileSize - 1) as real));
    var sizeX := Floor(Clamp(rightX - (left + posX as real), 0.0, (TileSize - 1) as real));
    var posY := Floor(Clamp(bottomY - bottom, 0.0, (TileSize - 1) as real));
    var sizeY := Floor(Clamp(topY - (bottom + posY as real), 0.0, (TileSize - 1) as real));
    Query(posX, posY, sizeX, sizeY)
  }

  /** The bottom overhang correction: a positive freeUp grows by the overhang d,
      and collidingBottom follows freeUp. */
  function CorrectBottom(o: SlopeOffsetSB, d: real): SlopeOffsetSB {
    var up := if o.freeUp > 0.0 then o.freeUp + d else o.freeUp;
    o.(freeUp := up, collidingBottom := up)
  }

  /** The top overhang correction: a negative freeDown shrinks by the overhang d,
      and collidingTop follows freeDown. */
  function CorrectTop(o: SlopeOffsetSB, d: real): SlopeOffsetSB {
    var down := if o.freeDown < 0.0 then o.freeDown - d else o.freeDown;
    o.(freeDown := down, collidingTop := down)
  }

  /** The corrections of `getOffset6p` for a box overhanging the tile by
      `below` under its bottom edge and by `above` over its top edge (each
      correction applies only when its overhang is positive). The bottom one is
      applied twice, as `getOffset6p` does, so a positive freeUp grows by twice the
      overhang. The left/right distances are never touched. */
  function Overhang(base: SlopeOffsetSB, below: real, above: real): (r: SlopeOffsetSB)
    ensures r.freeLeft == base.freeLeft && r.freeRight == base.freeRight
    ensures r.collidingLeft == base.collidingLeft && r.collidingRight == base.collidingRight
    ensures below <= 0.0 ==> r.freeUp == base.freeUp && r.collidingBottom == base.collidingBottom
    ensures below > 0.0 ==> r.collidingBottom == r.freeUp
    ensures below > 0.0 ==> r.freeUp == if base.freeUp > 0.0 then base.freeUp + 2.0 * below else base.freeUp
    ensures above <= 0.0 ==> r.freeDown == base.freeDown && r.collidingTop == base.collidingTop
    ensures above > 0.0 ==> r.collidingTop == r.freeDown
    ensures above > 0.0 ==> r.freeDown == if base.freeDown < 0.0 then base.freeDown - above else base.freeDown
  {
    var o1 := if below > 0.0 then CorrectBottom(base, below) else base;
    var o2 := if above > 0.0 then CorrectTop(o1, above) else o1;
    if below > 0.0 then CorrectBottom(o2, below) else o2
  }

  /** The table entry at a query's cell-aligned position and size. */
  function Entry(table: OffsetTable, q: Query): SlopeOffsetSB
    requires IsTable(table) && InTile(q.posX, q.posY) && InTile(q.sizeX, q.sizeY)
  {
    table[q.posX][q.posY][q.sizeX][q.sizeY]
  }

  /** The table entry `getOffset6p` reads for a 45-degree tile. */
  lemma Slope45Entry(o: Orientation, q: Query)
    requires InTile(q.posX, q.posY) && InTile(q.sizeX, q.sizeY)
    ensures Init(Slope45(o)).Some? && Init(Slope45(o)).value.offsets.Some?
    ensures IsTable(Init(Slope45(o)).value.offsets.value)
    ensures AsNumbers(From(Entry(Init(Slope45(o)).value.offsets.value, q)))
              == AsNumbers(Sweep(Extend(Slope45Heights), q.posX, q.posY, q.sizeX, q.sizeY))
  {
    FromIntegral(Sweep(Extend(Slope45Heights), q.posX, q.posY, q.sizeX, q.sizeY));
  }

  /** The lookup and correction of `getOffset6p` for a query already clamped
      into the tile and the box's overhang below and above it. */
  function Lookup6p(t: TileCollisionType, q: Query, below: real, above: real): (r: Result<SlopeOffsetSB>)
    requires InTile(q.posX, q.posY) && InTile(q.sizeX, q.sizeY)
    ensures r.Success? <==> t.Slope45?
    ensures r.Failure? ==> r.error == "TypeError"
    ensures r.Success? ==>
      r.value == Overhang(AsNumbers(Sweep(Extend(Slope45Heights), q.posX, q.posY, q.sizeX, q.sizeY)), below, above)
  {
    var data := Init(t);
    if data.None? || data.value.offsets.None? then
      Failure("TypeError")
    else
      Slope45Entry(t.o, q);
      Success(Overhang(AsNumbers(From(Entry(data.value.offsets.value, q))), below, above))
  }

  /** `getOffset6p`: looks the clamped query up in the shape's table, floors the
      entry and corrects it for a box that sticks out below or above the tile.
      Shapes without a table make the lookup fail (a `TypeError` in `getOffset6p`). */
  function GetOffset6p(tileCenter: Vec2, leftX: real, rightX: real, bottomY: real, topY: real,
                       t: TileCollisionType): (r: Result<SlopeOffsetSB>)
    ensures r.Success? <==> t.Slope45?
    ensures r.Failure? ==> r.error == "TypeError"
    ensures r.Success? ==>
      var q := QueryOf(tileCenter, leftX, rightX, bottomY, topY);
      var bottomEdge := BottomTileEdge(tileCenter);
      r.value == Overhang(AsNumbers(Sweep(Extend(Slope45Heights), q.posX, q.posY, q.sizeX, q.sizeY)),
                          bottomEdge - bottomY, topY - (bottomEdge + TileSize as real))
  {
    var q := QueryOf(tileCenter, leftX, rightX, bottomY, topY);
    var bottomEdge := BottomTileEdge(tileCenter);
    var topEdge := bottomEdge + TileSize as real;
    Lookup6p(t, q, bottomEdge - bottomY, topY - topEdge)
  }

  /** For a box inside a 45-degree tile the lookup yields the full-grid offsets of
      the box's cell-aligned position and size. */
  lemma GetOffset6pInsideSlope45(tileCenter: Vec2, leftX: real, rightX: real, bottomY: real, topY: real, o: Orientation)
    requires BottomTileEdge(tileCenter) <= bottomY && topY <= BottomTileEdge(tileCenter) + TileSize as real
    ensures var q := QueryOf(tileCenter, leftX, rightX, bottomY, topY);
            GetOffset6p(tileCenter, leftX, rightX, bottomY, topY, Slope45(o))
              == Success(AsNumbers(FullGridOffsets(q.posX, q.posY, q.sizeX, q.sizeY)))
  {
    var q := QueryOf(tileCenter, leftX, rightX, bottomY, topY);
    Slope45GridIsFull();
    SweepFullGrid(Extend(Slope45Heights), q.posX, q.posY, q.sizeX, q.sizeY);
  }
}

=== FILE: sprite.dfy ===
/** `scripts/component/SpriteRenderer.js`: the animation frame counter of
    `render`, and the index buffers of `initCharacter` and `initMap`. Vertex
    positions, texture coordinates and the GL calls are outside the model. */
module Sprites {
  import opened Wrappers
  import opened MathUtil
  import opened Enums
  import opened Constants
  import opened TileMap
  import Atlas
  import Engine

  /** The renderer's GL objects and counters. `offset` is None once it has
      become NaN (`% 0` with no animation frames). */
  datatype Sprite = Sprite(hasVao: bool, hasVbo: bool, hasEbo: bool,
                           offset: Option<int>, maxFrames: int, frames: int, count: int)

  /** The constructor: no GL objects yet, frame 0 of 1, one quad to draw. */
  function NewSprite(): (s: Sprite)
    ensures s.offset == Some(0) && s.maxFrames == 1 && s.frames == 0 && s.count == 6
    ensures !s.hasVao && !s.hasVbo && !s.hasEbo
  {
    Sprite(false, false, false, Some(0), 1, 0, 6)
  }

  /** The range `drawElements` is asked for: the first index and how many. */
  datatype Draw = Draw(first: Option<int>, count: int)

  /** JavaScript's `%` on the offset, with NaN for a zero divisor. */
  function NextOffset(offset: Option<int>, maxFrames: int): (r: Option<int>)
    ensures maxFrames >= 1 && offset.Some? && 0 <= offset.value < maxFrames ==>
              r.Some? && 0 <= r.value < maxFrames
    ensures maxFrames == 0 || offset.None? ==> r.None?
  {
    if maxFrames == 0 || offset.None? then None
    else
      var n := offset.value + 1;
      var m := if maxFrames < 0 then -maxFrames else maxFrames;
      Some(if n >= 0 then n % m else -((-n) % m))
  }

  /** The name the renderer registers its shader program under. */
  const SpriteProgram := "sprite"

  /** `render`: refuses without its GL objects, then fails in `getProgram` when
      no program is cached under "sprite"; otherwise advances the frame on every
      tenth call (the first included) and draws from the current frame.
      `programs` is the engine's program cache. */
  function Render(s: Sprite, programs: map<string, Engine.Program>): (r: Result<(Sprite, Draw)>)
    ensures r.Failure? <==> !s.hasVao || !s.hasVbo || !s.hasEbo || SpriteProgram !in programs
    ensures !s.hasVao ==> r == Failure("VAO not initialized")
    ensures s.hasVao && !s.hasVbo ==> r == Failure("VBO not initialized")
    ensures s.hasVao && s.hasVbo && !s.hasEbo ==> r == Failure("EBO not initialized")
    ensures s.hasVao && s.hasVbo && s.hasEbo && SpriteProgram !in programs ==>
              r == Failure("Program sprite not found")
    ensures r.Success? ==> var (t, d) := r.value;
              && t.maxFrames == s.maxFrames && t.count == s.count && d.count == s.count
              && (s.frames % 10 == 0 ==> t.frames == 1 && t.offset == NextOffset(s.offset, s.maxFrames))
              && (s.frames % 10 != 0 ==> t.frames == s.frames + 1 && t.offset == s.offset)
              && d.first == (if t.offset.Some? then Some(6 * t.offset.value) else None)
  {
    if !s.hasVao then Failure("VAO not initialized")
    else if !s.hasVbo then Failure("VBO not initialized")
    else if !s.hasEbo then Failure("EBO not initialized")
    else
      var program :- Engine.GetProgram(programs, SpriteProgram);
      var s := if s.frames % 10 == 0 then s.(frames := 0, offset := NextOffset(s.offset, s.maxFrames)) else s;
      var first := if s.offset.Some? then Some(s.offset.value * 6) else None;
      Success((s.(frames := s.frames + 1), Draw(first, s.count)))
  }

  /** A sprite whose GL objects exist, with its program registered. */
  predicate Ready(s: Sprite, programs: map<string, Engine.Program>) {
    s.hasVao && s.hasVbo && s.hasEbo && SpriteProgram in programs
  }

  /** n calls of `render` on a ready sprite; the program cache does not change. */
  function RenderTimes(s: Sprite, programs: map<string, Engine.Program>, n: nat): (r: Sprite)
    requires Ready(s, programs)
    ensures Ready(r, programs) && r.maxFrames == s.maxFrames
    decreases n
  {
    if n == 0 then s else RenderTimes(Render(s, programs).value.0, programs, n - 1)
  }

  /** With at least one frame, the offset stays a frame number and the
      counter stays in [0, 10]; after a render it is in [1, 10]. */
  predicate CounterInRange(s: Sprite) {
    && s.offset.Some? && 0 <= s.offset.value < s.maxFrames && 0 <= s.frames <= 10
  }

  lemma RenderKeepsCounterInRange(s: Sprite, programs: map<string, Engine.Program>)
    requires Ready(s, programs) && CounterInRange(s)
    ensures CounterInRange(Render(s, programs).value.0) && 1 <= Render(s, programs).value.0.frames <= 10
  {
  }

  /** From a fresh counter, after n renders the frame has advanced on calls
      1, 11, 21, ...: ceil(n / 10) times, wrapping at the number of frames. */
  lemma {:induction false} FrameAdvances(s: Sprite, programs: map<string, Engine.Program>, n: nat)
    requires Ready(s, programs) && s.offset == Some(0) && s.frames == 0 && s.maxFrames >= 1 && n >= 1
    ensures RenderTimes(s, programs, n).offset == Some(((n + 9) / 10) % s.maxFrames)
    ensures RenderTimes(s, programs, n).frames == (n - 1) % 10 + 1
    decreases n
  {
    if n > 1 {
      FrameAdvances(s, programs, n - 1);
      RenderTimesLast(s, programs, n);
      CounterStep(n);
      if (n - 2) % 10 + 1 == 10 {
        ModSucc((n + 8) / 10, s.maxFrames);
      }
    } else {
      assert RenderTimes(s, programs, 1) == Render(s, programs).value.0;
    }
  }

  /** The call counter modulo 10 against the number of advances so far. */
  lemma CounterStep(n: nat)
    requires n >= 2
    ensures (n - 2) % 10 + 1 == 10 ==> (n + 9) / 10 == (n + 8) / 10 + 1 && (n - 1) % 10 + 1 == 1
    ensures (n - 2) % 10 + 1 != 10 ==> (n + 9) / 10 == (n + 8) / 10 && (n - 1) % 10 + 1 == (n - 2) % 10 + 2
  {
    var q, r := (n - 2) / 10, (n - 2) % 10;
    assert n - 2 == 10 * q + r;
    if r == 9 {
      assert n + 9 == 10 * (q + 2) + 0 && n + 8 == 10 * (q + 1) + 9 && n - 1 == 10 * (q + 1) + 0;
    } else {
      assert n + 9 == 10 * (q + 1) + (r + 1) && n + 8 == 10 * (q + 1) + r && n - 1 == 10 * q + (r + 1);
    }
  }

  lemma {:induction false} RenderTimesLast(s: Sprite, programs: map<string, Engine.Program>, n: nat)
    requires Ready(s, programs) && n >= 1
    ensures RenderTimes(s, programs, n) == Render(RenderTimes(s, programs, n - 1), programs).value.0
    decreases n
  {
    if n > 1 {
      RenderTimesLast(Render(s, programs).value.0, programs, n - 1);
    }
  }

  /* ---------- initCharacter ---------- */

  /** The atlas entries the sprites read. */
  const CharacterKey := "atlas/platform/character"
  const BlockKey := "atlas/platform/block"
  const OnewayKey := "atlas/platform/slope45oneway"

  /** Quad i of the animation strip: vertices 4i..4i+3 drawn as the triangles
      (0, 1, 3) and (1, 2, 3). */
  predicate FrameQuad(index: seq<int>, i: nat)
    requires 6 * i + 6 <= |index|
  {
    && index[6 * i] == 4 * i && index[6 * i + 1] == 4 * i + 1 && index[6 * i + 2] == 4 * i + 3
    && index[6 * i + 3] == 4 * i + 1 && index[6 * i + 4] == 4 * i + 2 && index[6 * i + 5] == 4 * i + 3
  }

  /** The number of animation frames in a strip of the given width: how many
      character widths (2 * cHalfSizeX) fit. */
  function FrameCount(width: int): (n: int)
    ensures n * (2 * HalfSizeX.Floor) <= width < (n + 1) * (2 * HalfSizeX.Floor)
  {
    (width as real / (2.0 * HalfSizeX)).Floor
  }

  method FrameIndices(maxFrames: nat) returns (index: seq<int>)
    ensures |index| == 6 * maxFrames
    ensures forall i | 0 <= i < maxFrames :: FrameQuad(index, i)
    ensures forall k | 0 <= k < |index| :: 0 <= index[k] < 4 * maxFrames
  {
    index := [];
    var i := 0;
    while i < maxFrames
      invariant 0 <= i <= maxFrames && |index| == 6 * i
      invariant forall j | 0 <= j < i :: FrameQuad(index, j)
      invariant forall k | 0 <= k < |index| :: 0 <= index[k] < 4 * i
    {
      var next := index + [4 * i, 4 * i + 1, 4 * i + 3, 4 * i + 1, 4 * i + 2, 4 * i + 3];
      forall j | 0 <= j <= i
        ensures FrameQuad(next, j)
      {
        if j < i {
          assert 6 * j + 6 <= 6 * i;
          assert FrameQuad(index, j);
        }
      }
      index := next;
      i := i + 1;
    }
  }

  /** What `initCharacter` sets up: the frame count, the vertex buffer size
      and the indices. */
  datatype CharacterMesh = CharacterMesh(maxFrames: int, vertexFloats: int, index: seq<int>)

  /** `initCharacter`: without an atlas it throws, an atlas without the
      character strip fails on the missing entry, and a negative frame count
      makes the typed-array constructor throw. */
  method InitCharacter(atlas: Option<map<string, Atlas.Entry>>) returns (r: Result<CharacterMesh>)
    ensures atlas.None? ==> r == Failure("Atlas not initialized")
    ensures atlas.Some? && CharacterKey !in atlas.value ==> r.Failure?
    ensures atlas.Some? && CharacterKey in atlas.value ==>
              var n := FrameCount(atlas.value[CharacterKey].width);
              && (n < 0 ==> r == Failure("RangeError"))
              && (n >= 0 ==> && r.Success? && r.value.maxFrames == n
                             && r.value.vertexFloats == 32 * n && |r.value.index| == 6 * n
                             && (forall i | 0 <= i < n :: FrameQuad(r.value.index, i))
                             && (forall k | 0 <= k < 6 * n :: 0 <= r.value.index[k] < 4 * n))
  {
    if atlas.None? {
      return Failure("Atlas not initialized");
    }
    if CharacterKey !in atlas.value {
      return Failure("TypeError");
    }
    var n := FrameCount(atlas.value[CharacterKey].width);
    if n < 0 {
      return Failure("RangeError");
    }
    var index := FrameIndices(n);
    return Success(CharacterMesh(n, 32 * n, index));
  }

  /** The renderer after `initCharacter`: the frame count is set and the
      animation restarts at frame 0. */
  function AfterInitCharacter(s: Sprite, mesh: CharacterMesh): (r: Sprite)
    ensures r.maxFrames == mesh.maxFrames && r.offset == Some(0) && r.hasVao && r.hasVbo && r.hasEbo
    ensures r.frames == s.frames && r.count == s.count
  {
    s.(hasVao := true, hasVbo := true, hasEbo := true, maxFrames := mesh.maxFrames, offset := Some(0))
  }

  /* ---------- initMap ---------- */

  /** Tile k's six indices: the quad 4k..4k+3 drawn as the triangles (0, 1, 2)
      and (0, 2, 3) when the tile has a type other than `Empty`, otherwise six
      zeros, a degenerate triangle pair that draws nothing. */
  predicate TileQuad(index: seq<int>, k: nat, tile: TileCollisionType)
    requires 6 * k + 6 <= |index|
  {
    if tile != Empty then
      && index[6 * k] == 4 * k && index[6 * k + 1] == 4 * k + 1 && index[6 * k + 2] == 4 * k + 2
      && index[6 * k + 3] == 4 * k && index[6 * k + 4] == 4 * k + 2 && index[6 * k + 5] == 4 * k + 3
    else
      && index[6 * k] == 0 && index[6 * k + 1] == 0 && index[6 * k + 2] == 0
      && index[6 * k + 3] == 0 && index[6 * k + 4] == 0 && index[6 * k + 5] == 0
  }

  const TileCount: nat := MapWidth * MapHeight

  /** The index loops of `initMap`, row by row: tile (j, i) is number
      i * 80 + j and its quad is drawn iff its collision type is not `Empty`. */
  method MapIndices(tiles: Tiles) returns (index: seq<int>)
    ensures |index| == 6 * TileCount
    ensures forall k | 0 <= k < TileCount :: TileQuad(index, k, tiles[k])
    ensures forall k | 0 <= k < |index| :: 0 <= index[k] < 4 * TileCount
  {
    index := [];
    var i := 0;
    while i < MapHeight
      invariant 0 <= i <= MapHeight && |index| == 6 * (i * MapWidth)
      invariant forall k | 0 <= k < i * MapWidth :: TileQuad(index, k, tiles[k])
      invariant forall k | 0 <= k < |index| :: 0 <= index[k] < 4 * TileCount
    {
      var j := 0;
      while j < MapWidth
        invariant 0 <= j <= MapWidth && |index| == 6 * (i * MapWidth + j)
        invariant forall k | 0 <= k < i * MapWidth + j :: TileQuad(index, k, tiles[k])
        invariant forall k | 0 <= k < |index| :: 0 <= index[k] < 4 * TileCount
      {
        var k := i * MapWidth + j;
        var tile := CollisionType(tiles, j, i);
        assert tile == tiles[k];
        var quad := if tile != Empty then [4 * k, 4 * k + 1, 4 * k + 2, 4 * k, 4 * k + 2, 4 * k + 3]
                    else [0, 0, 0, 0, 0, 0];
        var next := index + quad;
        forall m | 0 <= m <= k
          ensures TileQuad(next, m, tiles[m])
        {
          if m < k {
            assert 6 * m + 6 <= 6 * k;
            assert TileQuad(index, m, tiles[m]);
          }
        }
        index := next;
        j := j + 1;
      }
      i := i + 1;
    }
  }

  /** `initMap`: without an atlas it throws; an atlas without the block or
      one-way entries fails on the missing entry; otherwise every tile gets
      its six indices and the draw count covers the whole map. */
  method InitMap(atlas: Option<map<string, Atlas.Entry>>, tiles: Tiles) returns (r: Result<(seq<int>, nat)>)
    ensures atlas.None? ==> r == Failure("Atlas not initialized")
    ensures r.Success? <==> atlas.Some? && BlockKey in atlas.value && OnewayKey in atlas.value
    ensures r.Success? ==> var (index, count) := r.value;
              && count == 6 * TileCount && |index| == count
              && (forall k | 0 <= k < TileCount :: TileQuad(index, k, tiles[k]))
  {
    if atlas.None? {
      return Failure("Atlas not initialized");
    }
    if BlockKey !in atlas.value || OnewayKey !in atlas.value {
      return Failure("TypeError");
    }
    var index := MapIndices(tiles);
    return Success((index, 6 * TileCount));
  }
}

=== FILE: tile_map.dfy ===
/** The tile grid of `scripts/object/Map.js`: world/tile coordinate conversion
    and the two tile queries. The randomly generated level is an input. */
module TileMap {
  import opened Vec
  import opened Enums
  import opened Constants

  /** `mw` and `mh`: the map is 80 x 50 tiles. */
  const MapWidth: nat := 80
  const MapHeight: nat := 50

  /** The row-major tile types (`mTilesCollision`), cell (x, y) at y * 80 + x. */
  type Tiles = s: seq<TileCollisionType> | |s| == MapWidth * MapHeight
    witness seq(MapWidth * MapHeight, i => Empty)

  /** The index of the tile whose centre is nearest to the coordinate v, along one
      axis whose map origin is o (tile i spans [o + 16i - 8, o + 16i + 8)). */
  function TileCoord(v: real, o: real): (i: int)
    ensures (i * TileSize) as real - (TileSize as real) / 2.0 <= v - o < (i * TileSize) as real + (TileSize as real) / 2.0
  {
    Floor((v - o + TileSize as real / 2.0) / TileSize as real)
  }

  /** `getMapTileXAtPoint`. */
  function TileXAtPoint(origin: Vec2, x: real): (i: int)
    ensures (i * TileSize) as real - 8.0 <= x - origin.x < (i * TileSize) as real + 8.0
  {
    TileCoord(x, origin.x)
  }

  /** `getMapTileYAtPoint`. */
  function TileYAtPoint(origin: Vec2, y: real): (j: int)
    ensures (j * TileSize) as real - 8.0 <= y - origin.y < (j * TileSize) as real + 8.0
  {
    TileCoord(y, origin.y)
  }

  datatype TileIndex = TileIndex(x: int, y: int)

  /** `getMapTileAtPoint`: both axes at once. */
  function TileAtPoint(origin: Vec2, p: Vec2): (t: TileIndex)
    ensures t.x == TileXAtPoint(origin, p.x) && t.y == TileYAtPoint(origin, p.y)
  {
    TileIndex(TileCoord(p.x, origin.x), TileCoord(p.y, origin.y))
  }

  /** `getMapTilePosition`: the world position of a tile's centre. */
  function TilePosition(origin: Vec2, i: int, j: int): (p: Vec2)
    ensures p.x - origin.x == (i * TileSize) as real && p.y - origin.y == (j * TileSize) as real
  {
    Vec2(origin.x + (i * TileSize) as real, origin.y + (j * TileSize) as real)
  }

  /** The tile index of a coordinate is unique: the half-open spans of the
      tiles do not overlap. */
  lemma TileCoordUnique(v: real, o: real, i: int)
    requires (i * TileSize) as real - 8.0 <= v - o < (i * TileSize) as real + 8.0
    ensures TileCoord(v, o) == i
  {
  }

  /** Round trip: the tile at a tile's own position is that tile. */
  lemma TileRoundTrip(origin: Vec2, i: int, j: int)
    ensures TileAtPoint(origin, TilePosition(origin, i, j)) == TileIndex(i, j)
  {
    var p := TilePosition(origin, i, j);
    TileCoordUnique(p.x, origin.x, i);
    TileCoordUnique(p.y, origin.y, j);
  }

  /** Every point within half a tile of a tile's position (lower edges
      included) maps back to that tile. */
  lemma TileAtPointNear(origin: Vec2, i: int, j: int, p: Vec2)
    requires var c := TilePosition(origin, i, j);
             c.x - 8.0 <= p.x < c.x + 8.0 && c.y - 8.0 <= p.y < c.y + 8.0
    ensures TileAtPoint(origin, p) == TileIndex(i, j)
  {
    TileCoordUnique(p.x, origin.x, i);
    TileCoordUnique(p.y, origin.y, j);
  }

  predicate InMap(x: int, y: int) { 0 <= x < MapWidth && 0 <= y < MapHeight }

  function TileAt(tiles: Tiles, x: int, y: int): TileCollisionType
    requires InMap(x, y)
  {
    tiles[y * MapWidth + x]
  }

  /** `isObstacle`: off the map counts as an obstacle; on it, only `Full` tiles. */
  function IsObstacle(tiles: Tiles, x: int, y: int): (b: bool)
    ensures !InMap(x, y) ==> b
    ensures InMap(x, y) ==> (b <==> TileAt(tiles, x, y) == Full)
  {
    if x < 0 || x >= MapWidth || y < 0 || y >= MapHeight then true
    else tiles[y * MapWidth + x] == Full
  }

  /** `getCollisionType`: off the map reads as `Empty`. */
  function CollisionType(tiles: Tiles, x: int, y: int): (t: TileCollisionType)
    ensures !InMap(x, y) ==> t == Empty
    ensures InMap(x, y) ==> t == TileAt(tiles, x, y)
  {
    if x <= -1 || x >= MapWidth || y <= -1 || y >= MapHeight then Empty
    else tiles[y * MapWidth + x]
  }

  /** The two queries agree on the map and disagree off it: an off-map tile
      is an obstacle whose collision type is `Empty`. */
  lemma ObstacleVersusCollisionType(tiles: Tiles, x: int, y: int)
    ensures InMap(x, y) ==> (IsObstacle(tiles, x, y) <==> CollisionType(tiles, x, y) == Full)
    ensures !InMap(x, y) ==> IsObstacle(tiles, x, y) && CollisionType(tiles, x, y) == Empty
  {
  }
}

=== FILE: vec.dfy ===
/** Two-component vectors of JavaScript numbers (modelled as `real`) and the
    `Math.*` helpers the core uses. */
module Vec {

  datatype Vec2 = Vec2(x: real, y: real)

  const Zero: Vec2 := Vec2(0.0, 0.0)

  function Add(a: Vec2, b: Vec2): Vec2 { Vec2(a.x + b.x, a.y + b.y) }

  function Neg(a: Vec2): Vec2 { Vec2(-a.x, -a.y) }

  /** `vec2.scaleAndAdd(out, a, b, s)`: a + b * s. */
  function ScaleAndAdd(a: Vec2, b: Vec2, s: real): Vec2 { Vec2(a.x + b.x * s, a.y + b.y * s) }

  /** Componentwise product. */
  function Mul(a: Vec2, b: Vec2): Vec2 { Vec2(a.x * b.x, a.y * b.y) }

  function Abs(x: real): (r: real)
    ensures r >= 0.0
    ensures r == x || r == -x
  {
    if x < 0.0 then -x else x
  }

  function Max(a: real, b: real): real { if a < b then b else a }

  function Min(a: real, b: real): real { if b < a then b else a }

  /** `Math.floor`. */
  function Floor(x: real): (r: int)
    ensures r as real <= x < r as real + 1.0
  {
    x.Floor
  }

  /** `Math.round`: rounds half-way cases towards +infinity, i.e. floor(x + 0.5). */
  function Round(x: real): (r: int)
    ensures x - 0.5 < r as real <= x + 0.5
  {
    Floor(x + 0.5)
  }
}

=== FILE: wrappers.dfy ===
/** Failure-carrying wrappers used wherever the JavaScript code returns `null`/`undefined`
    or throws an `Error`. */
module Wrappers {

  datatype Option<+T> = None | Some(value: T) {
    predicate IsFailure() { None? }

    function PropagateFailure<U>(): Option<U>
      requires None?
    {
      None
    }

    function Extract(): T
      requires Some?
    {
      value
    }
  }

  /** `Failure(msg)` stands for a thrown `Error(msg)`, or for an error the engine
      raises itself, named by its class: "TypeError" for reading a property of
      `undefined`, "RangeError" for an invalid array length. The model's own
      iteration budget and grid bound are the only other failures. */
  datatype Result<+R> = Success(value: R) | Failure(error: string) {
    predicate IsFailure() { Failure? }

    function PropagateFailure<U>(): Result<U>
      requires Failure?
    {
      Failure(error)
    }

    function Extract(): R
      requires Success?
    {
      value
    }
  }
}
